=== FILE: README.md ===
# LOFT core in Dafny

This project models the non-graphical core of the LOFT OpenGL viewer and
proves properties of it. It has four parts:

- The Wavefront OBJ/MTL importer (`Model::LoadObj`, `materialFileReader`,
  `safeGetline`, `fixIndex`). It reads lines, resolves 1-based and negative
  indices, triangulates polygons as fans, and splits faces into shapes at
  `usemtl`, `g` and `o`.
- What `Model::Model(path)` does with the loaded data: it deduplicates
  vertices, computes the bounding box and counts faces.
- The NURBS evaluator. It builds the clamped uniform knot vector, finds the
  span, runs rational de Boor, samples the curve at steps of 0.01, and
  builds the "geometric" layers shown at u = 0.45.
- The editor and viewer logic of `LOFT::handleInput`, the six basic solids,
  and the two file writers:
  - the right-button gesture that adds or moves control points;
  - the order slider, the zoom clamp and the texture cycle;
  - the index buffers of the six basic solids (cube, cone, cylinder,
    sphere, prism, frustum);
  - the OBJ exporter (`BaseGeo::SaveObj`) with its static counters;
  - the BMP screen capture (`printScreen`).

Modules, one per file:

- `Results`: `Result` and `Option`, plus the shared "Cannot open file" message.
- `ObjText`: C-string scanning, line splitting, `atoi`, `sscanf("%s")`, `fixIndex`.
- `ObjTypes`: attributes, index triples, meshes, shapes, materials, and the file system.
- `MtlReader`: `materialFileReader`.
- `ObjLoader`: the `LoadObj` state machine and its line parsers.
- `MeshBuilder`: the `Model::Model` import, `computeBoundingBox`, `getFaceCount`.
- `Nurbs`: the knots, the span, the de Boor pyramid, sampling, the geometric layers.
- `ViewerInput`: the gesture, the slider, the scroll clamp, the texture key.
- `Solids`: the index buffers of `six_basic.cpp`.
- `ObjExport`: `SaveObj` and the `O` key, which saves all six solids.
- `ScreenCapture`: `printScreen`.

Floats are modelled as reals. Numbers read with `>>` come from a scanner
passed in as a parameter. File contents are strings or byte sequences held
in a map from path to contents.

Behaviour of the code worth noting:

- A material name defined twice in an MTL file keeps its FIRST index,
  because the code uses `std::map::insert`.
- `usemtl` with an unknown name selects material id -1. It does not keep
  the previous material.
- At end of file, a loader with no pending faces still appends one empty
  shape with an empty name.

## Model

| member | source | states |
|---|---|---|
| ObjText.GetLine | src/model.h:82-110 | the line read stops at the first `\n` or `\r` and contains neither; `\n`, `\r\n` and a lone `\r` are each consumed as one terminator; end-of-file is reported only for an empty input |
| ObjText.SplitLinesHaveNoTerminator | src/model.h:82-110 | no line produced by repeated reads contains a terminator |
| ObjText.GetLineLf | src/model.h:94-104 | a line followed by `\n` is read back exactly, and the reader resumes after the `\n` |
| ObjText.GetLineCrLf | src/model.h:94-104 | a line followed by `\r\n` is read back exactly, and both characters are consumed |
| ObjText.GetLineCr | src/model.h:94-104 | a line followed by a lone `\r` is read back exactly, and the next character is kept |
| ObjText.GetLineAtEnd | src/model.h:94-104 | a last line without a terminator is read back exactly; end-of-file is flagged only when it is empty |
| ObjText.SplitJoinRoundTrip | src/model.h:82-110 | joining lines with LF or with CRLF and splitting them again gives back the same lines |
| ObjText.TrimNewlineNoOp | src/model.cpp:319-327 | the newline trim after `safeGetline` never changes a line that has no terminator |
| ObjText.DecimalValue | src/model.cpp:391 | the decimal digits written for a number denote that number |
| ObjText.AtoiDecimal | src/model.cpp:391 | `atoi` on a signed decimal followed by a non-digit yields exactly that integer |
| ObjText.Word | src/model.cpp:442 | the word `sscanf("%s")` extracts has no blank characters, and it is empty exactly when the text is all white space |
| ObjText.WordFirst | src/model.cpp:442 | after any leading white space, `%s` takes the whole first word and stops at the white space (or end) that follows it |
| ObjText.FixIndexNames | src/model.h:113-117 | among the elements defined so far, a reference `i > 0` names the `i`-th from the front and a reference `-k` names the `k`-th from the back (the `k`-th element of the reversed list) |
| ObjText.FixIndexInRange | src/model.h:113-117 | every index within `1..n` or `-n..-1` lands in `0..n-1`; `i` and `i-n-1` name the same element; -1 names the last one |
| MtlReader.Insert | src/model.cpp:802-803 | `std::map::insert`: adds the key only when it is absent, and an existing binding keeps its value |
| MtlReader.TrimRight | src/model.cpp:769-772 | strips exactly the trailing blanks: the result is a prefix, ends in a non-blank, and only blanks were removed |
| MtlReader.Find | src/model.cpp:917-928 | returns the first position of the character, or -1 exactly when it does not occur |
| MtlReader.Restart | src/model.cpp:807-824 | `newmtl` starts a default material with the new name and carries over the previous unknown parameters |
| MtlReader.ReadMtl | src/model.cpp:733-945 | a missing file gives the exact "Material file not found" warning and changes nothing; otherwise the earlier materials are kept, and after the last line the material being filled in is appended even when it has no name, with its name entered first-wins at its index |
| MtlReader.MtlLinesExtends | src/model.cpp:799-805 | reading lines only ever appends to the material table |
| MtlReader.NewMtlLine | src/model.cpp:799-826 | `newmtl` stores the current material and its first-wins map entry only when it has a name, then starts a fresh material with the new name |
| MtlReader.ReadMtlKeepsSound | src/model.cpp:733-944 | after reading a material file every index in the name map still lies inside the (grown) material table |
| MtlReader.PushKeepsFirstIndex | src/model.cpp:801-805 | after storing a material, every name maps to its FIRST occurrence in the table |
| MtlReader.ReadMtlKeepsFirstIndex | src/model.cpp:733-944 | a whole MTL file keeps the first-occurrence property of the name map |
| ObjLoader.Fan | src/model.cpp:455-485 | a polygon of `n` corners becomes `n-2` triangles `(c0, c[k-1], c[k])` |
| ObjLoader.FanLoop | src/model.cpp:455-485 | the nested push_back loop computes the triangle fan |
| ObjLoader.Triangulate | src/model.cpp:453-487 | every triangle of the flushed group is tagged with the group's material, and there are as many triangles as the fans give |
| ObjLoader.Flush | src/model.cpp:549-592 | a non-empty face group becomes one more shape with the current name; an empty group adds none; nothing else changes |
| ObjLoader.SplitSpaces | src/model.cpp:504-509 | splitting `mtllib` arguments on spaces yields items that contain no space |
| ObjLoader.SplitJoinSpaces | src/model.cpp:504-509 | splitting names joined by single spaces gives back the names |
| ObjLoader.LibraryFilesJoined | src/model.cpp:504-509 | for names without spaces joined by single spaces, the files tried are exactly those names, in order, each prefixed with the base directory |
| ObjLoader.TryMtl | src/model.cpp:518-538 | loading succeeds exactly when some listed file exists; the earlier materials are always kept; on failure nothing changes |
| ObjLoader.TryMtlReadsFirst | src/model.cpp:518-538 | on success the table and map are those the material reader produces for the first listed file that opens; every file before it is missing and the later ones are not read |
| ObjLoader.SelectMaterial | src/model.cpp:439-498 | `usemtl` selects the mapped id or -1; the group is flushed only when the id changes, and the flushed faces carry the OLD id |
| ObjLoader.SelectMaterialFindsFirst | src/model.cpp:443-446 | `usemtl` picks the first material with that name, and picks -1 exactly when no material has it |
| ObjLoader.LoadObj | src/model.cpp:279-297 | a file that cannot be opened gives the exact "Cannot open file" error and empty output; otherwise loading succeeds and only appends to the error text |
| ObjLoader.LoadObjWellFormed | src/model.cpp:279-731 | the loaded attributes come in whole triples (or pairs for texture coordinates); earlier materials are kept; every mesh has three indices and one material id per triangle |
| ObjLoader.LoadObjWithoutFaces | src/model.cpp:679-719 | a file without `f` lines yields exactly one empty, unnamed shape |
| ObjLoader.FinishWellFormed | src/model.cpp:679-719 | the shape pushed at end of file is well-formed for the material table, like every earlier one |
| ObjLoader.FinishShapes | src/model.cpp:679-719 | at end of file, pending faces become a last shape when they form a triangle; with nothing pending, an empty shape is appended |
| ObjLoader.ParseRefText | src/model.cpp:386-427 | each written reference form (`v`, `v/t`, `v//n`, `v/t/n`) is parsed back to the same slots |
| ObjLoader.ParseFaceText | src/model.cpp:384-427 | parsing the text of any list of references gives back the list |
| ObjLoader.ClassifyFace | src/model.cpp:379-429 | a line `f …` written out from references is recognised as a face whose references, read back slot by slot, are exactly those |
| ObjLoader.FaceLine | src/model.cpp:379-436 | a face line appends one face; each corner is resolved with `fixIndex` against the current counts, and a missing slot is -1; nothing else changes |
| ObjLoader.ClassifyUseMtl | src/model.cpp:439-442 | a `usemtl` line is recognised, and the name read is its first word after any blanks, whatever follows that word |
| ObjLoader.ClassifyObject | src/model.cpp:622-670 | an `o` line is recognised, and the name read is its first word after any blanks, whatever follows that word |
| ObjLoader.GroupWordsJoin | src/model.cpp:598-607 | the `g` tokenizer gives back the words of a line joined by spaces |
| ObjLoader.ClassifyGroup | src/model.cpp:547-619 | `g a b …` is recognised as a group, and its name is the first word after `g` |
| MeshBuilder.BuildVertex | src/model.cpp:38-53 | the position is the vertex triple the corner addresses; a present normal or texture coordinate is the addressed triple or pair; an absent one (negative index) stays zero |
| MeshBuilder.Deduplicate | src/model.cpp:31-65 | every corner's index points at an equal unique vertex; the unique vertices are the first occurrences, in order |
| MeshBuilder.FirstTagsDistinct | src/model.cpp:56-61 | no vertex is stored twice |
| MeshBuilder.FirstTagsCover | src/model.cpp:56-61 | every vertex of the mesh is stored, and nothing else |
| MeshBuilder.FirstTagsFirst | src/model.cpp:56-61 | each stored vertex carries the material of the shape where it FIRST occurs |
| MeshBuilder.Lowest | src/model.cpp:183-197 | the running `std::min` from FLT_MAX is below every element and equals one of them (or FLT_MAX) |
| MeshBuilder.Highest | src/model.cpp:186-197 | the running `std::max` from -FLT_MAX is above every element and equals one of them (or -FLT_MAX) |
| MeshBuilder.BoundingBox | src/model.cpp:182-201 | every vertex lies inside the box |
| MeshBuilder.BoundingBoxTight | src/model.cpp:182-201 | each face of a non-empty box touches some vertex; an empty model gives the inverted FLT_MAX box |
| MeshBuilder.BaseDir | src/model.cpp:19-20 | the MTL base directory is the path up to and including its last `/`, or empty |
| MeshBuilder.ImportModel | src/model.cpp:13-82 | a missing file throws "load … failure: Cannot open file …"; otherwise the deduplicated buffers, the materials, the face count and the bounding box are as the loader's output determines |
| MeshBuilder.CornersPerTriangle | src/model.cpp:149-151 | the face count (`indices/3`) equals the number of triangles the loader produced |
| Nurbs.Knots | src/NURBS.cpp:155-167 | `n+k` knots: `k` zeros, uniform interior steps of `1/(n-k+1)`, then ones |
| Nurbs.BuildKnots | src/NURBS.cpp:159-167 | the push_back loop (each knot is the previous plus `uStep`) builds the clamped knot vector |
| Nurbs.KnotsShape | src/NURBS.cpp:155-167 | the knots are non-decreasing in `[0,1]`, knot `k-1` is 0, knot `n` is 1, and knot `k` is positive |
| Nurbs.Span | src/NURBS.cpp:185 | the span found brackets `u` between consecutive knots |
| Nurbs.FindSpan | src/NURBS.cpp:185 | the `while (u >= knots[delta+1])` scan returns that span |
| Nurbs.OmegaInUnit | src/NURBS.cpp:198-203 | every blending factor lies in `[0,1)`, and its knot accesses stay in bounds |
| Nurbs.Seeds | src/NURBS.cpp:188-192 | the `order` seed points have positive weights |
| Nurbs.SeedLoop | src/NURBS.cpp:188-192 | the seeding loop collects the weighted control points `delta, delta-1, …` |
| Nurbs.Slot | src/NURBS.cpp:198-205 | every blended slot keeps a positive weight, so the final division by `w[0]` is defined |
| Nurbs.Pass | src/NURBS.cpp:198-207 | a pass leaves one point fewer, all with positive weights |
| Nurbs.Pyramid | src/NURBS.cpp:195-208 | the de Boor passes shrink by one point per level down to a single point, all with positive weights |
| Nurbs.PyramidStep | src/NURBS.cpp:195-208 | each level is one blending pass applied to the level above it |
| Nurbs.PassInPlace | src/NURBS.cpp:198-207 | the in-place update of `c` and `w` computes one pass and leaves the tail untouched |
| Nurbs.PassLoop | src/NURBS.cpp:195-208 | the passes from `order` down to 2 over one array leave the pyramid's apex in slot 0 |
| Nurbs.CurvePoint | src/NURBS.cpp:179-211 | the in-place evaluator equals the pyramid's apex divided by its weight |
| Nurbs.Polyline | src/NURBS.cpp:170-176 | 101 points: the curve at `u = 0, 0.01, …, 0.99`, then the last control point |
| Nurbs.StartsAtFirstPoint | src/NURBS.cpp:154-211 | the clamped curve starts exactly at the first control point |
| Nurbs.Geometric | src/NURBS.cpp:213-254 | `order` layers shrinking by one, the last holding only the curve point |
| ViewerInput.Cursor | src/LOFT.cpp:254-257 | window corners map to the corners of normalised device coordinates, with y flipped |
| ViewerInput.Pick | src/LOFT.cpp:263-272 | the scan stops at the first control point within `0.04·max(0.5, w)`, or at the end |
| ViewerInput.FirstHitUnique | src/LOFT.cpp:263-272 | the first hit is unique: any index that is a hit with no earlier hit is the one picked |
| ViewerInput.RightPress | src/LOFT.cpp:259-287 | an idle press starts a move (points unchanged) or appends the cursor with weight 1; a press while moving drops the point at the cursor and ends the move |
| ViewerInput.SelectsLowestHit | src/LOFT.cpp:263-272 | a press selects point `i` exactly when `i` is hit and no earlier point is |
| ViewerInput.AppendsWhenNothingHit | src/LOFT.cpp:273-277 | a press appends a point exactly when no point is hit |
| ViewerInput.RightPressKeepsInv | src/LOFT.cpp:251-287 | points and weights stay in step, weights stay positive, and a moved index stays valid |
| ViewerInput.Step | src/LOFT.cpp:253-293 | a press is handled by the right-button gesture and consumed, and without a press the editor is unchanged; buffers are rebuilt for one or more points, and the spline for two or more |
| ViewerInput.Slider | src/LOFT.cpp:446 | the order is clamped to `[2, max(2, points)]`; a request in range is taken as is; nothing else changes |
| ViewerInput.SliderKeepsInv | src/LOFT.cpp:446 | the slider keeps the editor invariant |
| ViewerInput.RebuildIsValid | src/LOFT.cpp:289-293 | whenever the spline is rebuilt, it is a valid NURBS input (order at most the number of points, positive weights) |
| ViewerInput.Run | src/LOFT.cpp:251-294 | over any sequence of presses and slider moves, the invariant holds and points are never removed |
| ViewerInput.RunRebuildsValid | src/LOFT.cpp:251-294 | from the initial editor, any event sequence leaves a spline that is valid once it has two points |
| ViewerInput.Scroll | src/LOFT.cpp:119-127 | a scroll leaves fovy within `[1°, 90°]`; from inside the range it moves by `-y·0.05` when the result stays strictly inside, and lands exactly on 1° or 90° when it reaches or passes that bound; from outside it snaps to the nearer bound; no scroll changes nothing |
| ViewerInput.ScrollUndo | src/LOFT.cpp:119-127 | away from the bounds, scrolling back by the same amount restores fovy |
| ViewerInput.NextTexture | src/LOFT.cpp:152 | the next texture index is in range and wraps from the last to 0 |
| ViewerInput.PressesValue | src/LOFT.cpp:152 | `t` presses advance the index by `t` modulo the number of textures |
| ViewerInput.FullCycle | src/LOFT.cpp:152 | as many presses as there are textures return to the starting texture |
| Solids.Cube | src/six_basic.cpp:97-128 | 8 corners and 12 triangles |
| Solids.CubeCorners | src/six_basic.cpp:98-110 | each corner coordinate is ±0.5 times the scale, with the sign pattern of the corner's number |
| Solids.CubeCornersDistinct | src/six_basic.cpp:98-110 | with a non-zero scale the eight corners are distinct |
| Solids.CubeInRange | src/six_basic.cpp:112-125 | every index names one of the 8 corners |
| Solids.CubeProper | src/six_basic.cpp:112-125 | every triangle has three distinct corners |
| Solids.CubeCovers | src/six_basic.cpp:112-125 | every corner is used by some triangle |
| Solids.Cone | src/six_basic.cpp:148-186 | `corners+2` vertices and `2·corners` triangles |
| Solids.ConeLoop | src/six_basic.cpp:162-186 | the indexed writes of the loop, including the closing `i == 0` group, fill the buffer |
| Solids.ConeInRange | src/six_basic.cpp:162-186 | every index names a vertex |
| Solids.ConeCovers | src/six_basic.cpp:162-186 | with at least one corner, every vertex (centre, rim, apex) is used |
| Solids.ConeProper | src/six_basic.cpp:162-186 | with at least two corners, every triangle is non-degenerate |
| Solids.Tube | src/six_basic.cpp:210-265 | `2(corners+1)` vertices and `4·corners` triangles; the cylinder, prism and frustum share this buffer |
| Solids.TubeLoop | src/six_basic.cpp:224-265 | the indexed writes of the cylinder, prism and frustum loops fill the buffer |
| Solids.TubeInRange | src/six_basic.cpp:224-265 | every index names a vertex |
| Solids.TubeCovers | src/six_basic.cpp:224-265 | with at least one corner, every vertex is used |
| Solids.TubeProper | src/six_basic.cpp:224-265 | with at least two corners, every triangle is non-degenerate |
| Solids.Sphere | src/six_basic.cpp:289-320 | `(s+1)²` grid vertices and `2s²` triangles |
| Solids.SphereVertexFloats | src/six_basic.cpp:292-306 | the vertex loops push three floats for every grid vertex |
| Solids.SphereLoop | src/six_basic.cpp:309-320 | the nested push_back loops build the two triangles of every grid cell |
| Solids.SphereInRange | src/six_basic.cpp:309-320 | every index names a grid vertex |
| Solids.SphereProper | src/six_basic.cpp:309-320 | every triangle has three distinct corners |
| ObjExport.ApplyTranslate | src/LOFT.cpp:63-64 | the translation part of a solid's model matrix moves a point by the solid's position |
| ObjExport.World | src/six_basic.cpp:70-76 | one world position per vertex triple |
| ObjExport.WorldLoop | src/six_basic.cpp:70-76 | the loop stepping `i` by three pushes exactly those world positions, in vertex order |
| ObjExport.WorldTranslated | src/six_basic.cpp:70-76 | under a solid's translation matrix each vertex is written at its local position moved by the solid's position |
| ObjExport.Faces | src/six_basic.cpp:83-88 | one `f` record per index triple, and no vertex or object records |
| ObjExport.Advance | src/six_basic.cpp:91-92 | the object number cycles through 0..5, and the vertex offset resets to 1 exactly when it wraps |
| ObjExport.Save | src/six_basic.cpp:45-95 | the save succeeds exactly when the file opens; a failure gives the exact error and changes nothing; the first save of a cycle truncates the file, later ones append |
| ObjExport.SaveTouchesOnlyPath | src/six_basic.cpp:50-54 | no other file changes |
| ObjExport.SaveKeepsConsistent | src/six_basic.cpp:45-95 | after a save, every `f` line names a `v` line of the file, the header comes first, and the objects are numbered 0..count |
| ObjExport.SaveAll | src/LOFT.cpp:169-181 | when the file cannot be opened, the `O` key fails with "save obj … failure: Cannot open file …" and changes nothing; from a consistent state, saves within one cycle all succeed, keep the counters consistent with the file and number its objects in order |
| ObjExport.SixSaves | src/LOFT.cpp:169-181 | one `O` press from a fresh start writes objects 0..5 into a well-formed file, and the counters are back at their start |
| ScreenCapture.StrideIsLeastMultiple | src/print_screen.cpp:16-17 | the row stride is the least multiple of 4 not below `3·width` |
| ScreenCapture.StrideLoop | src/print_screen.cpp:16-17 | the counting loop reaches that stride |
| ScreenCapture.PixelLength | src/print_screen.cpp:18 | the pixel buffer is 4-aligned and holds every pixel's three bytes |
| ScreenCapture.LE32RoundTrip | src/print_screen.cpp:53-55 | a size written as a little-endian `int` reads back unchanged |
| ScreenCapture.LE32Injective | src/print_screen.cpp:53-55 | every 4-byte field is the encoding of the value read from it |
| ScreenCapture.PrintScreen | src/print_screen.cpp:12-66 | a missing reference is reported first, then an unopenable output; success exactly when both open; only the output file changes |
| ScreenCapture.BitmapLayout | src/print_screen.cpp:47-59 | the file is `54 + stride·height` bytes: the width and height at 0x12, the reference header elsewhere, and the pixels after byte 54 |

## Left out

- OpenGL, GLFW and ImGui calls: buffer uploads, drawing, shaders, the camera's movement keys and `glReadPixels`. The pixels read from the framebuffer are a parameter of `ScreenCapture.PrintScreen`.
- Numeric scanning: the `>>` reads of floats and ints in `v`, `vn`, `vt` and MTL fields come from a scanner passed in as a parameter. Text-to-float conversion and float formatting are not modelled, so `SaveObj` writes records rather than text.
- Floating point: all floats are reals. Effects of rounding are not modelled. These include `FLOAT_ERR` comparisons on knots that are exact in reals, and the float accumulation of `u += 0.01`, which in `float` may produce a different number of samples than 100.
- The solids' vertex positions use `cos` and `sin`, which are not modelled. Only the index buffers, the vertex counts and the cube's literal corners are.
- The `T`, `P` and `O` keys return early from `handleInput`. The scheduling of keys within one frame is not modelled: each key is a separate operation.
- Most undefined behaviour in the source is ruled out by preconditions rather than modelled (the `sscanf` and slider cases below are exceptions):
  - faces with fewer than two references;
  - face indices out of range when the model is built;
  - non-positive NURBS weights (the editor only creates weight 1);
  - negative sizes in `printScreen`;
  - signed `int` overflow.
- ObjText.Word: when `usemtl` or `o` is followed only by blanks, `sscanf(token, "%s", namebuf)` at `src/model.cpp:440-442` and `src/model.cpp:670-672` stores nothing and leaves `namebuf` uninitialised. The OBJ loader does not trim lines, so this can happen. The model reads the name as "" instead of modelling the indeterminate buffer. An overflow of the fixed `SSCANF_BUFFER_SIZE` buffer by a longer word is not modelled either: the model takes the whole word.
- ViewerInput.Slider: models `ImGui::SliderInt` (`src/LOFT.cpp:446`) as always clamping to `[2, max(2, n)]`. Without `ImGuiSliderFlags_AlwaysClamp`, a Ctrl+Click text entry can store any order. ViewerInput.RebuildIsValid and ViewerInput.RunRebuildsValid rely on the clamp, so they do not cover that entry path.
- ObjExport.Save: face numbers are `GLuint` index plus `int` offset. Their 32-bit wrap-around is not modelled because the offsets stay far below 2³².
- ObjExport.World: the `view` argument of `SaveObj` is unused by the source and is left out.
- ScreenCapture.PrintScreen: the file handles and the pixel buffer leaked on the error paths are not modelled.
- Solids.ConeProper: proved only for at least two corners. With one corner the cone's triangles are degenerate, and the source's default is 36.
- Solids.TubeProper: proved only for at least two corners, for the same reason. The prism and frustum default to 3.
- Nurbs.Polyline: the sample count is fixed at 100 interior samples, as the real-valued loop gives. The float loop may produce one more or one fewer.
- The `vertex_index` constructors (`src/model.h:63-68`) become the datatype constructor, with -1 for a missing slot.

=== FILE: mesh_dedup.dfy ===
/** The `Model(path)` constructor: load the OBJ file, expand every
    triangle corner into a full vertex, merge equal vertices into one
    vertex buffer with an index buffer, and compute the axis-aligned
    bounding box; plus `getFaceCount`. */
module MeshBuilder {
  import opened Results
  import opened ObjTypes
  import opened ObjLoader

  /** `Vertex`: position, normal and texture coordinate. */
  datatype Vertex = Vertex(position: Vec3, normal: Vec3, texCoord: Vec2)

  /** `VertexMaterial`: a vertex tagged with the material id of its shape. */
  datatype VertexMaterial = VertexMaterial(vertex: Vertex, materialId: int)

  /** The corner's slots address whole coordinate tuples; the constructor
      reads them without any check. */
  ghost predicate IndexValid(a: Attrib, ix: IndexT)
  {
    && 0 <= ix.vertexIndex && 3 * ix.vertexIndex + 2 < |a.vertices|
    && (ix.normalIndex >= 0 ==> 3 * ix.normalIndex + 2 < |a.normals|)
    && (ix.texcoordIndex >= 0 ==> 2 * ix.texcoordIndex + 1 < |a.texcoords|)
  }

  /** What the constructor needs of the loader's output: in-range corners,
      and a first material id for every shape that has corners. */
  ghost predicate Importable(a: Attrib, shapes: seq<Shape>)
  {
    forall s :: 0 <= s < |shapes| ==>
      && (|shapes[s].mesh.indices| > 0 ==> |shapes[s].mesh.materialIds| > 0)
      && forall j :: 0 <= j < |shapes[s].mesh.indices| ==> IndexValid(a, shapes[s].mesh.indices[j])
  }

  /** One corner's vertex (`Vertex vertex{}` then the guarded copies): the
      position is the addressed triple, a present normal or texture
      coordinate is the addressed tuple, and an absent one stays zero. */
  function BuildVertex(a: Attrib, ix: IndexT): (r: Vertex)
    requires IndexValid(a, ix)
    ensures r.position == Vec3(a.vertices[3 * ix.vertexIndex], a.vertices[3 * ix.vertexIndex + 1],
                               a.vertices[3 * ix.vertexIndex + 2])
    ensures ix.normalIndex >= 0 ==>
              r.normal == Vec3(a.normals[3 * ix.normalIndex], a.normals[3 * ix.normalIndex + 1],
                               a.normals[3 * ix.normalIndex + 2])
    ensures ix.normalIndex < 0 ==> r.normal == Zero3
    ensures ix.texcoordIndex >= 0 ==>
              r.texCoord == Vec2(a.texcoords[2 * ix.texcoordIndex], a.texcoords[2 * ix.texcoordIndex + 1])
    ensures ix.texcoordIndex < 0 ==> r.texCoord == Vec2(0.0, 0.0)
  {
    var i := ix.vertexIndex;
    Vertex(
      Vec3(a.vertices[3 * i], a.vertices[3 * i + 1], a.vertices[3 * i + 2]),
      if ix.normalIndex >= 0 then
        var n := ix.normalIndex;
        Vec3(a.normals[3 * n], a.normals[3 * n + 1], a.normals[3 * n + 2])
      else Zero3,
      if ix.texcoordIndex >= 0 then
        var t := ix.texcoordIndex;
        Vec2(a.texcoords[2 * t], a.texcoords[2 * t + 1])
      else Vec2(0.0, 0.0))
  }

  /** The corners of one shape, each tagged with the shape's first material id. */
  function ShapeCorners(a: Attrib, s: Shape): (r: seq<VertexMaterial>)
    requires |s.mesh.indices| > 0 ==> |s.mesh.materialIds| > 0
    requires forall j :: 0 <= j < |s.mesh.indices| ==> IndexValid(a, s.mesh.indices[j])
    ensures |r| == |s.mesh.indices|
  {
    seq(|s.mesh.indices|, j requires 0 <= j < |s.mesh.indices| =>
      VertexMaterial(BuildVertex(a, s.mesh.indices[j]), s.mesh.materialIds[0]))
  }

  /** Number of corners over all shapes. */
  function IndexCount(shapes: seq<Shape>): nat
  {
    if shapes == [] then 0 else IndexCount(shapes[..|shapes| - 1]) + |shapes[|shapes| - 1].mesh.indices|
  }

  /** Number of triangles over all shapes. */
  function TriangleCount(shapes: seq<Shape>): nat
  {
    if shapes == [] then 0 else TriangleCount(shapes[..|shapes| - 1]) + |shapes[|shapes| - 1].mesh.numFaceVertices|
  }

  /** The corner stream the constructor's two nested loops visit, shape by
      shape and corner by corner. */
  function Corners(a: Attrib, shapes: seq<Shape>): (r: seq<VertexMaterial>)
    requires Importable(a, shapes)
    ensures |r| == IndexCount(shapes)
  {
    if shapes == [] then []
    else
      var s := |shapes| - 1;
      assert forall k :: 0 <= k < s ==> shapes[..s][k] == shapes[k];
      Corners(a, shapes[..s]) + ShapeCorners(a, shapes[s])
  }

  /* ---------- merging equal vertices ---------- */

  /** Whether some corner of `cs` has vertex `v`. */
  predicate Seen(cs: seq<VertexMaterial>, v: Vertex)
  {
    exists i :: 0 <= i < |cs| && cs[i].vertex == v
  }

  /** Reference definition of the merged buffer: the corners whose vertex
      has not occurred earlier, in order. */
  function FirstTags(cs: seq<VertexMaterial>): seq<VertexMaterial>
  {
    if cs == [] then []
    else
      var n := |cs| - 1;
      if Seen(cs[..n], cs[n].vertex) then FirstTags(cs[..n]) else FirstTags(cs[..n]) + [cs[n]]
  }

  /** The vertices of a tagged buffer. */
  function Untag(ts: seq<VertexMaterial>): (vs: seq<Vertex>)
    ensures |vs| == |ts|
    ensures forall k :: 0 <= k < |ts| ==> vs[k] == ts[k].vertex
  {
    seq(|ts|, k requires 0 <= k < |ts| => ts[k].vertex)
  }

  lemma SeenStep(cs: seq<VertexMaterial>, n: nat, v: Vertex)
    requires n < |cs|
    ensures Seen(cs[..n + 1], v) <==> Seen(cs[..n], v) || cs[n].vertex == v
  {
    if Seen(cs[..n + 1], v) && cs[n].vertex != v {
      var i :| 0 <= i < n + 1 && cs[..n + 1][i].vertex == v;
      assert cs[..n][i].vertex == v;
    }
    if Seen(cs[..n], v) {
      var i :| 0 <= i < n && cs[..n][i].vertex == v;
      assert cs[..n + 1][i].vertex == v;
    }
    if cs[n].vertex == v {
      assert cs[..n + 1][n].vertex == v;
    }
  }

  /** The dedup loop: `uniqueVertices` maps each vertex met so far to its
      slot; a new vertex is appended (with its corner's material), and
      every corner emits the slot of its vertex. */
  method Deduplicate(corners: seq<VertexMaterial>)
    returns (vertices: seq<Vertex>, tagged: seq<VertexMaterial>, indices: seq<nat>)
    ensures tagged == FirstTags(corners) && vertices == Untag(tagged)
    ensures |indices| == |corners|
    ensures forall i :: 0 <= i < |indices| ==> indices[i] < |vertices| && vertices[indices[i]] == corners[i].vertex
  {
    var unique: map<Vertex, nat> := map[];
    vertices, tagged, indices := [], [], [];
    var j := 0;
    while j < |corners|
      invariant 0 <= j <= |corners|
      invariant tagged == FirstTags(corners[..j]) && vertices == Untag(tagged)
      invariant forall v :: v in unique <==> Seen(corners[..j], v)
      invariant forall v :: v in unique ==> unique[v] < |vertices| && vertices[unique[v]] == v
      invariant |indices| == j
      invariant forall i :: 0 <= i < j ==> indices[i] < |vertices| && vertices[indices[i]] == corners[i].vertex
    {
      var c := corners[j];
      assert corners[..j + 1][..j] == corners[..j];
      assert corners[..j + 1][j] == c;
      SeenStep(corners, j, c.vertex);
      forall v | v != c.vertex
        ensures Seen(corners[..j + 1], v) <==> Seen(corners[..j], v)
      {
        SeenStep(corners, j, v);
      }
      if c.vertex !in unique {
        unique := unique[c.vertex := |vertices|];
        vertices := vertices + [c.vertex];
        tagged := tagged + [c];
      }
      indices := indices + [unique[c.vertex]];
      j := j + 1;
    }
    assert corners[..j] == corners;
  }

  /* ---------- properties of the merged buffer ---------- */

  /** No vertex occurs twice in the merged buffer. */
  lemma {:induction false} FirstTagsDistinct(cs: seq<VertexMaterial>)
    ensures forall a, b :: 0 <= a < b < |FirstTags(cs)| ==> FirstTags(cs)[a].vertex != FirstTags(cs)[b].vertex
  {
    if cs != [] {
      var n := |cs| - 1;
      FirstTagsDistinct(cs[..n]);
      FirstTagsCover(cs[..n]);
    }
  }

  /** The merged buffer holds exactly the vertices of the corners. */
  lemma {:induction false} FirstTagsCover(cs: seq<VertexMaterial>)
    ensures forall v :: Seen(cs, v) <==> Seen(FirstTags(cs), v)
  {
    if cs != [] {
      var n := |cs| - 1;
      FirstTagsCover(cs[..n]);
      assert cs[..n + 1] == cs;
      forall v
        ensures Seen(cs, v) <==> Seen(FirstTags(cs), v)
      {
        SeenStep(cs, n, v);
        var f := FirstTags(cs[..n]);
        if !Seen(cs[..n], cs[n].vertex) {
          SeenStep(f + [cs[n]], |f|, v);
          assert (f + [cs[n]])[..|f|] == f;
          assert (f + [cs[n]])[..|f| + 1] == f + [cs[n]];
        }
      }
    }
  }

  /** `t` is a corner of `cs` whose vertex no earlier corner has. */
  ghost predicate FirstCorner(cs: seq<VertexMaterial>, t: VertexMaterial)
  {
    exists j :: 0 <= j < |cs| && t == cs[j] && !Seen(cs[..j], cs[j].vertex)
  }

  /** Each merged entry is the first corner carrying its vertex, so a
      vertex shared by shapes of different materials keeps the material of
      the shape that reached it first. */
  lemma {:induction false} FirstTagsFirst(cs: seq<VertexMaterial>)
    ensures forall k :: 0 <= k < |FirstTags(cs)| ==> FirstCorner(cs, FirstTags(cs)[k])
  {
    if cs != [] {
      var n := |cs| - 1;
      FirstTagsFirst(cs[..n]);
      var f := FirstTags(cs[..n]);
      forall k | 0 <= k < |FirstTags(cs)|
        ensures FirstCorner(cs, FirstTags(cs)[k])
      {
        if k < |f| {
          assert FirstCorner(cs[..n], f[k]);
          var j :| 0 <= j < n && f[k] == cs[..n][j] && !Seen(cs[..n][..j], cs[..n][j].vertex);
          assert cs[..n][..j] == cs[..j];
          assert FirstTags(cs)[k] == cs[j] && !Seen(cs[..j], cs[j].vertex);
        } else {
          assert FirstTags(cs) == f + [cs[n]];
          assert FirstTags(cs)[k] == cs[n] && !Seen(cs[..n], cs[n].vertex);
        }
      }
    }
  }

  /* ---------- bounding box ---------- */

  /** `std::numeric_limits<float>::max()`, the largest finite `float`. */
  const FloatMax: real := 340282346638528859811704183484516925440.0

  datatype Box = Box(min: Vec3, max: Vec3)

  /** `std::min(x, m)`: `m` when `m < x`, else `x`. */
  function StdMin(x: real, m: real): real
  {
    if m < x then m else x
  }

  /** `std::max(x, m)`: `m` when `x < m`, else `x`. */
  function StdMax(x: real, m: real): real
  {
    if x < m then m else x
  }

  /** One running minimum, started at `FloatMax`: it is the least of
      `FloatMax` and the values. */
  function Lowest(xs: seq<real>): (r: real)
    ensures r <= FloatMax && forall i :: 0 <= i < |xs| ==> r <= xs[i]
    ensures r == FloatMax || exists i :: 0 <= i < |xs| && xs[i] == r
  {
    if xs == [] then FloatMax
    else
      var n := |xs| - 1;
      var m := Lowest(xs[..n]);
      assert forall i :: 0 <= i < n ==> xs[..n][i] == xs[i];
      StdMin(xs[n], m)
  }

  /** One running maximum, started at `-FloatMax`. */
  function Highest(xs: seq<real>): (r: real)
    ensures r >= -FloatMax && forall i :: 0 <= i < |xs| ==> xs[i] <= r
    ensures r == -FloatMax || exists i :: 0 <= i < |xs| && xs[i] == r
  {
    if xs == [] then -FloatMax
    else
      var n := |xs| - 1;
      var m := Highest(xs[..n]);
      assert forall i :: 0 <= i < n ==> xs[..n][i] == xs[i];
      StdMax(xs[n], m)
  }

  function Xs(vs: seq<Vertex>): seq<real> { seq(|vs|, i requires 0 <= i < |vs| => vs[i].position.x) }
  function Ys(vs: seq<Vertex>): seq<real> { seq(|vs|, i requires 0 <= i < |vs| => vs[i].position.y) }
  function Zs(vs: seq<Vertex>): seq<real> { seq(|vs|, i requires 0 <= i < |vs| => vs[i].position.z) }

  predicate Inside(b: Box, p: Vec3)
  {
    b.min.x <= p.x <= b.max.x && b.min.y <= p.y <= b.max.y && b.min.z <= p.z <= b.max.z
  }

  /** `computeBoundingBox`: the six running extremes over the vertex
      positions (the loop updates them independently). */
  function BoundingBox(vs: seq<Vertex>): (b: Box)
    ensures forall i :: 0 <= i < |vs| ==> Inside(b, vs[i].position)
  {
    var b := Box(Vec3(Lowest(Xs(vs)), Lowest(Ys(vs)), Lowest(Zs(vs))),
                 Vec3(Highest(Xs(vs)), Highest(Ys(vs)), Highest(Zs(vs))));
    assert forall i :: 0 <= i < |vs| ==> Xs(vs)[i] == vs[i].position.x && Ys(vs)[i] == vs[i].position.y && Zs(vs)[i] == vs[i].position.z;
    b
  }

  /** Finite `float` coordinates never exceed `FloatMax` in magnitude. */
  predicate Finite(p: Vec3)
  {
    -FloatMax <= p.x <= FloatMax && -FloatMax <= p.y <= FloatMax && -FloatMax <= p.z <= FloatMax
  }

  /** Over finite positions the box is tight: each face touches a vertex,
      and an empty model keeps the inverted start box. */
  lemma BoundingBoxTight(vs: seq<Vertex>)
    requires forall i :: 0 <= i < |vs| ==> Finite(vs[i].position)
    ensures vs == [] ==> BoundingBox(vs) == Box(Vec3(FloatMax, FloatMax, FloatMax), Vec3(-FloatMax, -FloatMax, -FloatMax))
    ensures vs != [] ==>
      && (exists i :: 0 <= i < |vs| && vs[i].position.x == BoundingBox(vs).min.x)
      && (exists i :: 0 <= i < |vs| && vs[i].position.y == BoundingBox(vs).min.y)
      && (exists i :: 0 <= i < |vs| && vs[i].position.z == BoundingBox(vs).min.z)
      && (exists i :: 0 <= i < |vs| && vs[i].position.x == BoundingBox(vs).max.x)
      && (exists i :: 0 <= i < |vs| && vs[i].position.y == BoundingBox(vs).max.y)
      && (exists i :: 0 <= i < |vs| && vs[i].position.z == BoundingBox(vs).max.z)
  {
    if vs != [] {
      AttainedLow(Xs(vs));
      AttainedLow(Ys(vs));
      AttainedLow(Zs(vs));
      AttainedHigh(Xs(vs));
      AttainedHigh(Ys(vs));
      AttainedHigh(Zs(vs));
    }
  }

  lemma AttainedLow(xs: seq<real>)
    requires xs != [] && forall i :: 0 <= i < |xs| ==> xs[i] <= FloatMax
    ensures exists i :: 0 <= i < |xs| && xs[i] == Lowest(xs)
  {
    if Lowest(xs) == FloatMax {
      assert xs[0] == Lowest(xs);
    }
  }

  lemma AttainedHigh(xs: seq<real>)
    requires xs != [] && forall i :: 0 <= i < |xs| ==> -FloatMax <= xs[i]
    ensures exists i :: 0 <= i < |xs| && xs[i] == Highest(xs)
  {
    if Highest(xs) == -FloatMax {
      assert xs[0] == Highest(xs);
    }
  }

  /* ---------- the constructor ---------- */

  /** `filepath.substr(0, find_last_of("/") + 1)`: everything up to and
      including the last '/', or "" when there is none (`npos + 1` is 0). */
  function BaseDir(path: string): (r: string)
    ensures r <= path
    ensures r == [] || r[|r| - 1] == '/'
    ensures forall i :: |r| <= i < |path| ==> path[i] != '/'
  {
    if path == [] then []
    else if path[|path| - 1] == '/' then path
    else
      var r := BaseDir(path[..|path| - 1]);
      assert path[..|path| - 1][..|r|] == path[..|r|];
      r
  }

  /** `getFaceCount`: a third of the index buffer. */
  function FaceCount(indices: seq<nat>): nat
  {
    |indices| / 3
  }

  /** The members the constructor fills. */
  datatype ModelData = ModelData(
    materials: seq<Material>,
    vertices: seq<Vertex>,
    vertexMaterial: seq<VertexMaterial>,
    indices: seq<nat>,
    box: Box)

  /** `Model::Model(filepath)` up to the GPU uploads: a loader failure
      becomes the `runtime_error` text; otherwise the corners are merged and
      the box computed. */
  method ImportModel(sc: NumberScan, fs: FileSystem, path: string) returns (r: Result<ModelData>)
    requires Loadable(fs, path)
    requires path in fs ==>
      var o := LoadObj(Config(sc, fs, BaseDir(path)), path, [], []);
      Importable(o.attrib, o.shapes)
    ensures path !in fs ==> r == Err("load " + path + " failure: " + CannotOpen(path))
    ensures path in fs ==>
      var o := LoadObj(Config(sc, fs, BaseDir(path)), path, [], []);
      var cs := Corners(o.attrib, o.shapes);
      && r.Ok? && r.value.materials == o.materials
      && r.value.vertexMaterial == FirstTags(cs) && r.value.vertices == Untag(FirstTags(cs))
      && |r.value.indices| == |cs|
      && (forall i :: 0 <= i < |cs| ==> r.value.indices[i] < |r.value.vertices| && r.value.vertices[r.value.indices[i]] == cs[i].vertex)
      && FaceCount(r.value.indices) == TriangleCount(o.shapes)
      && r.value.box == BoundingBox(r.value.vertices)
  {
    var cfg := Config(sc, fs, BaseDir(path));
    var o := LoadObj(cfg, path, [], []);
    if !o.ok {
      return Err("load " + path + " failure: " + o.err);
    }
    LoadObjWellFormed(cfg, path, [], []);
    var cs := Corners(o.attrib, o.shapes);
    var vertices, tagged, indices := Deduplicate(cs);
    CornersPerTriangle(o.shapes, |o.materials|);
    r := Ok(ModelData(o.materials, vertices, tagged, indices, BoundingBox(vertices)));
  }

  /** Well-formed shapes have three corners per triangle, so the face count
      is the number of triangles the loader emitted. */
  lemma {:induction false} CornersPerTriangle(shapes: seq<Shape>, count: int)
    requires forall i :: 0 <= i < |shapes| ==> WellFormed(shapes[i].mesh, count)
    ensures IndexCount(shapes) == 3 * TriangleCount(shapes)
    ensures IndexCount(shapes) / 3 == TriangleCount(shapes)
  {
    if shapes != [] {
      var s := |shapes| - 1;
      assert forall i :: 0 <= i < s ==> shapes[..s][i] == shapes[i];
      CornersPerTriangle(shapes[..s], count);
    }
  }
}

=== FILE: mtl_reader.dfy ===
/** `Model::materialFileReader`: reads one MTL file, appending its materials
    to the material table and their names to the name-to-index map. */
module MtlReader {
  import opened ObjText
  import opened ObjTypes

  /** The material the reader starts from and every `newmtl` resets to:
      no name, black colours, illumination model 0, and 1 for ior,
      shininess and dissolve. */
  function DefaultMaterial(): Material
  {
    Material("", Zero3, Zero3, Zero3, Zero3, 1.0, 1.0, 1.0, 0, map[])
  }

  /** `std::map::insert`: an existing key keeps its value. */
  function Insert<K, V>(m: map<K, V>, k: K, v: V): (r: map<K, V>)
    ensures r.Keys == m.Keys + {k}
    ensures k in m ==> r[k] == m[k]
    ensures k !in m ==> r[k] == v
    ensures forall k' :: k' in m ==> r[k'] == m[k']
  {
    if k in m then m else m[k := v]
  }

  /** Appending a material to the table and its name to the map, as both
      `newmtl` and the end of the file do. */
  function Push(ms: seq<Material>, m: map<string, int>, x: Material): (seq<Material>, map<string, int>)
  {
    (ms + [x], Insert(m, x.name, |ms|))
  }

  /** Reader state: the table and map built so far and the material being filled in. */
  datatype MtlState = MtlState(materials: seq<Material>, matMap: map<string, int>, current: Material)

  /** `linebuf.substr(0, linebuf.find_last_not_of(" \t") + 1)`: drop trailing blanks. */
  function TrimRight(s: string): (r: string)
    ensures r <= s
    ensures r == [] || r[|r| - 1] !in Blanks
    ensures forall i :: |r| <= i < |s| ==> s[i] in Blanks
  {
    if s == [] || s[|s| - 1] !in Blanks then s else TrimRight(s[..|s| - 1])
  }

  /** `strncmp(token, word, |word|) == 0` followed by a blank at `token[|word|]`. */
  predicate Keyword(token: string, word: string)
  {
    |token| > |word| && token[..|word|] == word && token[|word|] in Blanks
  }

  /** A token whose first character differs from the keyword's is not that keyword. */
  lemma NotKeyword(token: string, word: string)
    requires word != [] && token != [] && token[0] != word[0]
    ensures !Keyword(token, word)
  {
    if |token| > |word| {
      assert token[..|word|][0] == token[0];
    }
  }

  /** `token[0] == a && token[1] == b && (token[2] == ' ' || token[2] == '\t')`. */
  predicate TwoLetter(token: string, a: char, b: char)
  {
    At(token, 0) == a && At(token, 1) == b && At(token, 2) in Blanks
  }

  /** `strchr(s, c)`: position of the first `c`, or -1. */
  function Find(s: string, c: char): (r: int)
    ensures -1 <= r < |s|
    ensures r >= 0 ==> s[r] == c && c !in s[..r]
    ensures r == -1 ==> c !in s
  {
    if s == [] then -1
    else if s[0] == c then 0
    else
      var r := Find(s[1..], c);
      if r == -1 then -1 else r + 1
  }

  /** The material `newmtl <name>` starts: every field reset, except the
      unknown-parameter bag, which the reset does not touch. */
  function Restart(cur: Material, name: string): (r: Material)
    ensures r == DefaultMaterial().(name := name, unknownParameter := cur.unknownParameter)
  {
    cur.(name := name, ka := Zero3, kd := Zero3, ks := Zero3, ke := Zero3,
         illum := 0, ni := 1.0, ns := 1.0, d := 1.0)
  }

  /** The text a line's directive is read from: trailing blanks and line
      terminators dropped, cut at the first NUL, leading blanks skipped. */
  function MtlToken(line: string): string
  {
    SkipAll(CStr(TrimNewline(TrimRight(line))), Blanks)
  }

  /** One line of the MTL file. (An empty buffer has an empty token, so one
      test covers both of the source's "skip empty line" checks.) */
  function MtlLine(sc: NumberScan, st: MtlState, line: string): MtlState
  {
    Directive(sc, st, MtlToken(line))
  }

  /** `newmtl <name>`: flush the material in progress if it has a name, and restart. */
  function NewMtl(st: MtlState, name: string): MtlState
  {
    var (ms, m) := if st.current.name != [] then Push(st.materials, st.matMap, st.current)
                   else (st.materials, st.matMap);
    MtlState(ms, m, Restart(st.current, name))
  }

  /** The directive dispatch of the reader loop. `newmtl` is the only
      directive that touches the table; it cannot start with `#`, so testing
      it before the comment check changes nothing. */
  function Directive(sc: NumberScan, st: MtlState, token: string): MtlState
  {
    if Keyword(token, "newmtl") then NewMtl(st, Word(token[7..]))
    else st.(current := SetField(sc, st.current, token))
  }

  /** Every other directive, in the source's order, edits the material in progress. */
  function SetField(sc: NumberScan, cur: Material, token: string): Material
  {
    if token == [] || token[0] == '#' then cur
    else if TwoLetter(token, 'K', 'a') then cur.(ka := sc.reals(token[2..]))
    else if TwoLetter(token, 'K', 'd') then cur.(kd := sc.reals(token[2..]))
    else if TwoLetter(token, 'K', 's') then cur.(ks := sc.reals(token[2..]))
    else if TwoLetter(token, 'K', 'e') then cur.(ke := sc.reals(token[2..]))
    else if TwoLetter(token, 'N', 's') then cur.(ns := sc.reals(token[2..]).x)
    else if TwoLetter(token, 'N', 'i') then cur.(ni := sc.reals(token[2..]).x)
    else if Keyword(token, "illum") then cur.(illum := sc.integer(token[6..]))
    else if At(token, 0) == 'd' && At(token, 1) in Blanks then cur.(d := sc.reals(token[1..]).x)
    else
      var sp := Find(token, ' ');
      var at := if sp >= 0 then sp else Find(token, '\t');
      if at < 0 then cur
      else cur.(unknownParameter := Insert(cur.unknownParameter, token[..at], token[at + 1..]))
  }

  function MtlLines(sc: NumberScan, st: MtlState, lines: seq<string>): MtlState
    decreases |lines|
  {
    if lines == [] then st else MtlLines(sc, MtlLine(sc, st, lines[0]), lines[1..])
  }

  /** What `materialFileReader` returns: success, the extended table and
      map, and the text appended to `err`. */
  datatype MtlOutcome = MtlOutcome(ok: bool, materials: seq<Material>, matMap: map<string, int>, warning: string)

  /** `materialFileReader`: a missing file leaves table and map alone and
      warns; otherwise every line is read and the material being filled in
      at the end is appended unconditionally, even when it has no name. */
  function ReadMtl(sc: NumberScan, fs: FileSystem, path: string,
                   materials: seq<Material>, matMap: map<string, int>): (r: MtlOutcome)
    ensures path !in fs ==>
              r == MtlOutcome(false, materials, matMap, "WARN: Material file [ " + path + " ] not found.\n")
    ensures path in fs ==> r.ok && r.warning == [] && |r.materials| > |materials|
    ensures path in fs ==> r.materials[..|materials|] == materials
    ensures path in fs ==>
              var st := MtlLines(sc, MtlState(materials, matMap, DefaultMaterial()), SplitLines(fs[path]));
              && r.materials == st.materials + [st.current]
              && r.matMap == Insert(st.matMap, st.current.name, |st.materials|)
  {
    if path !in fs then
      MtlOutcome(false, materials, matMap, "WARN: Material file [ " + path + " ] not found.\n")
    else
      var st := MtlLines(sc, MtlState(materials, matMap, DefaultMaterial()), SplitLines(fs[path]));
      MtlLinesExtends(sc, MtlState(materials, matMap, DefaultMaterial()), SplitLines(fs[path]));
      var (ms, m) := Push(st.materials, st.matMap, st.current);
      MtlOutcome(true, ms, m, [])
  }

  /* ---------- properties ---------- */

  /** Reading lines only ever appends to the table. */
  lemma {:induction false} MtlLinesExtends(sc: NumberScan, st: MtlState, lines: seq<string>)
    ensures |MtlLines(sc, st, lines).materials| >= |st.materials|
    ensures MtlLines(sc, st, lines).materials[..|st.materials|] == st.materials
    decreases |lines|
  {
    if lines != [] {
      var st' := MtlLine(sc, st, lines[0]);
      MtlLineStep(sc, st, lines[0]);
      assert st'.materials[..|st.materials|] == st.materials;
      MtlLinesExtends(sc, st', lines[1..]);
    }
  }

  /** `newmtl`: the material in progress goes into the table only if it
      has a name, and the next one starts from the defaults, keeping the
      unknown-parameter bag of the previous one. */
  lemma NewMtlLine(sc: NumberScan, st: MtlState, name: string)
    requires name != [] && forall i :: 0 <= i < |name| ==> name[i] !in CSpace && name[i] != '\0'
    ensures var st' := MtlLine(sc, st, "newmtl " + name);
            && (st.current.name != [] ==>
                  st'.materials == st.materials + [st.current]
                  && st'.matMap == Insert(st.matMap, st.current.name, |st.materials|))
            && (st.current.name == [] ==> st'.materials == st.materials && st'.matMap == st.matMap)
            && st'.current == DefaultMaterial().(name := name, unknownParameter := st.current.unknownParameter)
  {
    NewMtlDispatch(sc, st, name);
  }

  /** The line `newmtl <name>` is dispatched to `NewMtl` with that name. */
  lemma NewMtlDispatch(sc: NumberScan, st: MtlState, name: string)
    requires name != [] && forall i :: 0 <= i < |name| ==> name[i] !in CSpace && name[i] != '\0'
    ensures MtlLine(sc, st, "newmtl " + name) == NewMtl(st, name)
  {
    NewMtlToken(name);
    NewMtlDirective(sc, st, name);
  }

  lemma NewMtlToken(name: string)
    requires name != [] && forall i :: 0 <= i < |name| ==> name[i] !in CSpace && name[i] != '\0'
    ensures MtlToken("newmtl " + name) == "newmtl " + name
  {
    var line := "newmtl " + name;
    forall i | 0 <= i < |line|
      ensures line[i] !in {'\0', '\n', '\r'}
    {
      if i >= 7 {
        assert line[i] == name[i - 7];
      }
    }
    assert line[|line| - 1] == name[|name| - 1];
    PlainLineToken(line);
  }

  lemma NewMtlDirective(sc: NumberScan, st: MtlState, name: string)
    requires name != [] && forall i :: 0 <= i < |name| ==> name[i] !in CSpace
    ensures Directive(sc, st, "newmtl " + name) == NewMtl(st, name)
  {
    var line := "newmtl " + name;
    assert line[..6] == "newmtl";
    assert line[7..] == name;
    WordOf(name);
  }

  /** A line leaves the table and map alone, or pushes the material in progress. */
  lemma MtlLineStep(sc: NumberScan, st: MtlState, line: string)
    ensures var st' := MtlLine(sc, st, line);
            || (st'.materials == st.materials && st'.matMap == st.matMap)
            || (st'.materials, st'.matMap) == Push(st.materials, st.matMap, st.current)
  {
  }

  /** A line with no NUL, terminator, or leading or trailing blank is its own token. */
  lemma PlainLineToken(line: string)
    requires line != [] && line[0] !in Blanks && line[|line| - 1] !in Blanks
    requires forall i :: 0 <= i < |line| ==> line[i] !in {'\0', '\n', '\r'}
    ensures MtlToken(line) == line
  {
    assert TrimRight(line) == line;
    TrimNewlineNoOp(line);
    CStrNoNul(line);
  }

  lemma CStrNoNul(s: string)
    requires '\0' !in s
    ensures CStr(s) == s
  {
  }

  /** `sscanf("%s")` on a bare word yields the word. */
  lemma WordOf(name: string)
    requires name != [] && forall i :: 0 <= i < |name| ==> name[i] !in CSpace
    ensures Word(name) == name
  {
    assert SkipAll(name, CSpace) == name;
  }

  /** Every name in the map indexes the table. */
  ghost predicate MapSound(ms: seq<Material>, m: map<string, int>)
  {
    forall k :: k in m ==> 0 <= m[k] < |ms|
  }

  lemma {:induction false} MtlLinesKeepSound(sc: NumberScan, st: MtlState, lines: seq<string>)
    requires MapSound(st.materials, st.matMap)
    ensures var st' := MtlLines(sc, st, lines); MapSound(st'.materials, st'.matMap)
    decreases |lines|
  {
    if lines != [] {
      MtlLineStep(sc, st, lines[0]);
      MtlLinesKeepSound(sc, MtlLine(sc, st, lines[0]), lines[1..]);
    }
  }

  /** Reading a material file keeps every mapped index inside the (grown) table. */
  lemma ReadMtlKeepsSound(sc: NumberScan, fs: FileSystem, path: string,
                          ms: seq<Material>, m: map<string, int>)
    requires MapSound(ms, m)
    ensures var r := ReadMtl(sc, fs, path, ms, m); MapSound(r.materials, r.matMap)
  {
    if path in fs {
      MtlLinesKeepSound(sc, MtlState(ms, m, DefaultMaterial()), SplitLines(fs[path]));
    }
  }

  /** The table and map agree, and the map sends every name to the FIRST
      material carrying it (the consequence of `std::map::insert`). */
  ghost predicate FirstIndexMap(ms: seq<Material>, m: map<string, int>)
  {
    && (forall k :: k in m ==> 0 <= m[k] < |ms| && ms[m[k]].name == k)
    && (forall k, j :: k in m && 0 <= j < m[k] ==> ms[j].name != k)
    && (forall j :: 0 <= j < |ms| ==> ms[j].name in m)
  }

  lemma PushKeepsFirstIndex(ms: seq<Material>, m: map<string, int>, x: Material)
    requires FirstIndexMap(ms, m)
    ensures FirstIndexMap(Push(ms, m, x).0, Push(ms, m, x).1)
  {
    var (ms', m') := Push(ms, m, x);
    forall k, j | k in m' && 0 <= j < m'[k]
      ensures ms'[j].name != k
    {
      if k in m {
        assert ms'[j] == ms[j];
      } else {
        assert ms'[j] == ms[j];
        assert ms[j].name in m;
      }
    }
  }

  lemma {:induction false} MtlLinesKeepFirstIndex(sc: NumberScan, st: MtlState, lines: seq<string>)
    requires FirstIndexMap(st.materials, st.matMap)
    ensures var st' := MtlLines(sc, st, lines); FirstIndexMap(st'.materials, st'.matMap)
    decreases |lines|
  {
    if lines != [] {
      var st1 := MtlLine(sc, st, lines[0]);
      MtlLineStep(sc, st, lines[0]);
      if st1.materials != st.materials {
        PushKeepsFirstIndex(st.materials, st.matMap, st.current);
      }
      MtlLinesKeepFirstIndex(sc, st1, lines[1..]);
    }
  }

  /** Starting from a consistent table, reading a material file keeps every
      name mapped to the first material that carries it: with duplicate
      `newmtl` names the first one wins the lookup. */
  lemma ReadMtlKeepsFirstIndex(sc: NumberScan, fs: FileSystem, path: string,
                               ms: seq<Material>, m: map<string, int>)
    requires FirstIndexMap(ms, m)
    ensures var r := ReadMtl(sc, fs, path, ms, m); FirstIndexMap(r.materials, r.matMap)
  {
    if path in fs {
      var st0 := MtlState(ms, m, DefaultMaterial());
      MtlLinesKeepFirstIndex(sc, st0, SplitLines(fs[path]));
      var st := MtlLines(sc, st0, SplitLines(fs[path]));
      PushKeepsFirstIndex(st.materials, st.matMap, st.current);
    }
  }
}

=== FILE: nurbs.dfy ===
/** The NURBS curve of the 2-D editor (`NURBS::nurbsSpline`, `nurbsCurve`,
    `generateGeometric`): a clamped uniform knot vector, the span search,
    the rational de Boor recursion in homogeneous coordinates, the sampled
    polyline and the construction layers. C++ `float` is modelled as `real`. */
module Nurbs {

  datatype Point = Point(x: real, y: real)

  function Scale(a: real, p: Point): Point
  {
    Point(a * p.x, a * p.y)
  }

  function Plus(p: Point, q: Point): Point
  {
    Point(p.x + q.x, p.y + q.y)
  }

  /** A control point premultiplied by its weight, with the weight: the
      entries of the `c` and `w` arrays of the recursion. */
  datatype Weighted = Weighted(c: Point, w: real)

  /** `c[0] / w[0]`: back from homogeneous coordinates. */
  function Project(h: Weighted): Point
    requires h.w != 0.0
  {
    Point(h.c.x / h.w, h.c.y / h.w)
  }

  /** The curve's state: `_controlPoints`, `_weights` and `_order`. */
  datatype Spline = Spline(points: seq<Point>, weights: seq<real>, order: int)

  /** What evaluation needs: one weight per point, all positive (the
      editor only ever appends weight 1), and an order between 1 and the
      number of points. */
  ghost predicate Valid(sp: Spline)
  {
    && |sp.points| == |sp.weights|
    && 1 <= sp.order <= |sp.points|
    && forall i :: 0 <= i < |sp.weights| ==> sp.weights[i] > 0.0
  }

  /** `FLOAT_ERR`: the smallest knot difference that is divided by. */
  const FloatErr: real := 0.00001

  /* ---------- knot vector ---------- */

  /** The clamped uniform knot vector in closed form: `k` zeros, then
      steps of `1/(n-k+1)` up to 1 at index `n`, then ones. */
  function KnotAt(n: int, k: int, i: int): real
    requires 1 <= k <= n
  {
    if i < k then 0.0
    else if i > n then 1.0
    else (i - k + 1) as real / (n - k + 1) as real
  }

  function Knots(n: int, k: int): (kn: seq<real>)
    requires 1 <= k <= n
    ensures |kn| == n + k
    ensures forall i :: 0 <= i < n + k ==> kn[i] == KnotAt(n, k, i)
  {
    seq(n + k, i requires 0 <= i < n + k => KnotAt(n, k, i))
  }

  /** The knot loop of `nurbsSpline`: zeros, then each knot the previous
      one plus `uStep`, then ones; the running sum is the closed form. */
  method BuildKnots(n: int, k: int) returns (kn: seq<real>)
    requires 1 <= k <= n
    ensures kn == Knots(n, k)
  {
    var step := 1.0 / (n - k + 1) as real;
    kn := [];
    var i := 0;
    while i < n + k
      invariant 0 <= i <= n + k && |kn| == i
      invariant forall j :: 0 <= j < i ==> kn[j] == KnotAt(n, k, j)
    {
      if i < k {
        kn := kn + [0.0];
      } else if i > n {
        kn := kn + [1.0];
      } else {
        NextKnot(n, k, i);
        kn := kn + [kn[i - 1] + step];
      }
      i := i + 1;
    }
  }

  lemma NextKnot(n: int, k: int, i: int)
    requires 1 <= k <= i <= n
    ensures KnotAt(n, k, i) == KnotAt(n, k, i - 1) + 1.0 / (n - k + 1) as real
  {
    var d := (n - k + 1) as real;
    if i == k {
      assert KnotAt(n, k, i - 1) == 0.0;
    } else {
      assert KnotAt(n, k, i - 1) == (i - k) as real / d;
      assert (i - k) as real / d + 1.0 / d == ((i - k) as real + 1.0) / d;
    }
  }

  /** The knots are non-decreasing, lie in [0, 1], start with `k` zeros
      and reach 1 exactly at index `n`. */
  lemma KnotsShape(n: int, k: int, i: int, j: int)
    requires 1 <= k <= n && 0 <= i <= j < n + k
    ensures 0.0 <= KnotAt(n, k, i) <= KnotAt(n, k, j) <= 1.0
    ensures KnotAt(n, k, k - 1) == 0.0 && KnotAt(n, k, n) == 1.0
    ensures KnotAt(n, k, k) > 0.0
  {
    var d := (n - k + 1) as real;
    KnotInUnit(n, k, i);
    KnotInUnit(n, k, j);
    KnotInUnit(n, k, k);
    if k <= i && j <= n {
      DivMono((i - k + 1) as real, (j - k + 1) as real, d);
    }
  }

  lemma KnotInUnit(n: int, k: int, i: int)
    requires 1 <= k <= n
    ensures 0.0 <= KnotAt(n, k, i) <= 1.0
    ensures k <= i ==> KnotAt(n, k, i) > 0.0
    ensures i == n ==> KnotAt(n, k, i) == 1.0
  {
    if k <= i <= n {
      DivBelow((i - k + 1) as real, (n - k + 1) as real);
    }
  }

  lemma DivBelow(a: real, d: real)
    requires 0.0 < a <= d
    ensures 0.0 < a / d <= 1.0
    ensures a == d ==> a / d == 1.0
  {
  }

  lemma DivMono(a: real, b: real, d: real)
    requires a <= b && d > 0.0
    ensures a / d <= b / d
  {
    assert b / d - a / d == (b - a) / d;
  }

  lemma DivFraction(a: real, d: real)
    requires 0.0 <= a < d
    ensures 0.0 <= a / d < 1.0
  {
  }

  /* ---------- span search ---------- */

  /** `u` lies in the knot interval `[knot[delta], knot[delta+1])`, and
      `delta` is at least `k - 1` and below `n`. */
  ghost predicate Bracket(n: int, k: int, u: real, delta: int)
  {
    && 1 <= k <= n && k - 1 <= delta <= n - 1
    && KnotAt(n, k, delta) <= u < KnotAt(n, k, delta + 1)
  }

  /** `while (u >= _knots[delta + 1]) delta++;` from `delta`. */
  function SpanFrom(n: int, k: int, u: real, delta: int): (r: int)
    requires 1 <= k <= n && 0 <= delta <= n - 1 && 0.0 <= u < 1.0
    requires KnotAt(n, k, delta) <= u
    ensures delta <= r <= n - 1
    ensures KnotAt(n, k, r) <= u < KnotAt(n, k, r + 1)
    decreases n - delta
  {
    KnotInUnit(n, k, n);
    if u >= KnotAt(n, k, delta + 1) then SpanFrom(n, k, u, delta + 1) else delta
  }

  /** The span of `u`: the knot interval containing it, whose index keeps
      every `delta - i` seed and every knot the recursion reads in range. */
  function Span(n: int, k: int, u: real): (delta: int)
    requires 1 <= k <= n && 0.0 <= u < 1.0
    ensures Bracket(n, k, u, delta)
    ensures Knots(n, k)[delta] <= u < Knots(n, k)[delta + 1]
  {
    SpanFrom(n, k, u, 0)
  }

  /* ---------- rational de Boor ---------- */

  /** The blend factor: 0 across a knot gap of at most `FLOAT_ERR`,
      otherwise the position of `u` in `[knot[i], knot[i+r-1]]`. */
  function Omega(n: int, k: int, u: real, i: int, r: int): real
    requires 1 <= k <= n
  {
    var den := KnotAt(n, k, i + r - 1) - KnotAt(n, k, i);
    if den > FloatErr then (u - KnotAt(n, k, i)) / den else 0.0
  }

  /** `c[s] = omega * c[s] + (1 - omega) * c[s + 1]`, and likewise for `w`. */
  function Blend(omega: real, a: Weighted, b: Weighted): Weighted
  {
    Weighted(Plus(Scale(omega, a.c), Scale(1.0 - omega, b.c)), omega * a.w + (1.0 - omega) * b.w)
  }

  ghost predicate Positive(hs: seq<Weighted>)
  {
    forall s :: 0 <= s < |hs| ==> hs[s].w > 0.0
  }

  /** The seeds: `c[i] = P[delta-i] * w[delta-i]`, `w[i] = w[delta-i]` for
      `i` in `0 .. order-1`. */
  function Seeds(sp: Spline, delta: int): (hs: seq<Weighted>)
    requires Valid(sp) && sp.order - 1 <= delta <= |sp.points| - 1
    ensures |hs| == sp.order && Positive(hs)
  {
    seq(sp.order, i requires 0 <= i < sp.order =>
      Weighted(Scale(sp.weights[delta - i], sp.points[delta - i]), sp.weights[delta - i]))
  }

  /** The blend factor of pass `r` at slot `s` reads knots inside the
      vector and lies in [0, 1): those knots bracket `u`. */
  lemma OmegaInUnit(n: int, k: int, u: real, delta: int, r: int, s: int)
    requires Bracket(n, k, u, delta)
    requires 2 <= r <= k && 0 <= s <= r - 2
    ensures 0 <= delta - s && delta - s + r - 1 < n + k
    ensures 0.0 <= Omega(n, k, u, delta - s, r) < 1.0
  {
    var i := delta - s;
    KnotsShape(n, k, i, delta);
    KnotsShape(n, k, delta + 1, i + r - 1);
    var den := KnotAt(n, k, i + r - 1) - KnotAt(n, k, i);
    if den > FloatErr {
      DivFraction(u - KnotAt(n, k, i), den);
    }
  }

  lemma BlendPositive(omega: real, a: Weighted, b: Weighted)
    requires 0.0 <= omega < 1.0 && a.w > 0.0 && b.w > 0.0
    ensures Blend(omega, a, b).w > 0.0
  {
    MulSigns(omega, a.w);
    MulSigns(1.0 - omega, b.w);
  }

  lemma MulSigns(x: real, y: real)
    requires x >= 0.0 && y > 0.0
    ensures x * y >= 0.0
    ensures x > 0.0 ==> x * y > 0.0
  {
  }

  /** Slot `s` of pass `r` (knot index `i = delta - s`): the blend of
      slots `s` and `s + 1` of the previous pass; its weight stays
      positive since the blend factor lies in [0, 1). */
  function Slot(sp: Spline, u: real, delta: int, r: int, prev: seq<Weighted>, s: int): (h: Weighted)
    requires Valid(sp) && Bracket(|sp.points|, sp.order, u, delta)
    requires 2 <= r <= sp.order && |prev| == r && Positive(prev) && 0 <= s < r - 1
    ensures h.w > 0.0
  {
    OmegaInUnit(|sp.points|, sp.order, u, delta, r, s);
    BlendPositive(Omega(|sp.points|, sp.order, u, delta - s, r), prev[s], prev[s + 1]);
    Blend(Omega(|sp.points|, sp.order, u, delta - s, r), prev[s], prev[s + 1])
  }

  /** One pass `r` of the in-place loop: every slot below `r - 1` blended,
      which the ascending `s` loop can do in place since slot `s + 1` is
      not yet overwritten when slot `s` is. */
  function Pass(sp: Spline, u: real, delta: int, r: int, prev: seq<Weighted>): (next: seq<Weighted>)
    requires Valid(sp) && Bracket(|sp.points|, sp.order, u, delta)
    requires 2 <= r <= sp.order && |prev| == r && Positive(prev)
    ensures |next| == r - 1 && Positive(next)
  {
    seq(r - 1, s requires 0 <= s < r - 1 => Slot(sp, u, delta, r, prev, s))
  }

  /** Passes `r, r-1, .., 2` after a layer of `r` entries: one layer per
      pass, each one entry shorter, all weights positive. */
  function Passes(sp: Spline, u: real, delta: int, r: int, cur: seq<Weighted>): (layers: seq<seq<Weighted>>)
    requires Valid(sp) && Bracket(|sp.points|, sp.order, u, delta)
    requires 1 <= r <= sp.order && |cur| == r && Positive(cur)
    ensures |layers| == r - 1
    ensures forall j :: 0 <= j < r - 1 ==> |layers[j]| == r - 1 - j && Positive(layers[j])
    decreases r
  {
    if r == 1 then []
    else
      var next := Pass(sp, u, delta, r, cur);
      [next] + Passes(sp, u, delta, r - 1, next)
  }

  /** The whole recursion: the seeds, then the layer of every pass; the
      last layer is the single curve point. */
  function Pyramid(sp: Spline, u: real): (layers: seq<seq<Weighted>>)
    requires Valid(sp) && 0.0 <= u < 1.0
    ensures |layers| == sp.order
    ensures forall j :: 0 <= j < sp.order ==> |layers[j]| == sp.order - j && Positive(layers[j])
  {
    var delta := Span(|sp.points|, sp.order, u);
    var seeds := Seeds(sp, delta);
    [seeds] + Passes(sp, u, delta, sp.order, seeds)
  }

  /** `nurbsCurve(u)`: the point the recursion ends on; the weight it
      divides by is positive. */
  function Eval(sp: Spline, u: real): Point
    requires Valid(sp) && 0.0 <= u < 1.0
  {
    var p := Pyramid(sp, u);
    Project(p[sp.order - 1][0])
  }

  /** One unfolding of the passes: the first layer, then the passes
      after it. */
  lemma PassesUnfold(sp: Spline, u: real, delta: int, r: int, cur: seq<Weighted>)
    requires Valid(sp) && Bracket(|sp.points|, sp.order, u, delta)
    requires 2 <= r <= sp.order && |cur| == r && Positive(cur)
    ensures Passes(sp, u, delta, r, cur) == [Pass(sp, u, delta, r, cur)] + Passes(sp, u, delta, r - 1, Pass(sp, u, delta, r, cur))
  {
  }

  /** Each layer of the pyramid is one pass over the layer before it. */
  lemma {:induction false} PassesStep(sp: Spline, u: real, delta: int, r: int, cur: seq<Weighted>, j: int)
    requires Valid(sp) && Bracket(|sp.points|, sp.order, u, delta)
    requires 1 <= r <= sp.order && |cur| == r && Positive(cur)
    requires 0 <= j < r - 1
    ensures j == 0 ==> Passes(sp, u, delta, r, cur)[j] == Pass(sp, u, delta, r, cur)
    ensures j > 0 ==> Passes(sp, u, delta, r, cur)[j] == Pass(sp, u, delta, r - j, Passes(sp, u, delta, r, cur)[j - 1])
    decreases r
  {
    var next := Pass(sp, u, delta, r, cur);
    var rest := Passes(sp, u, delta, r - 1, next);
    PassesUnfold(sp, u, delta, r, cur);
    if j == 1 {
      PassesStep(sp, u, delta, r - 1, next, 0);
    } else if j > 1 {
      PassesStep(sp, u, delta, r - 1, next, j - 1);
    }
  }

  lemma PyramidStep(sp: Spline, u: real, j: int)
    requires Valid(sp) && 0.0 <= u < 1.0 && 0 <= j < sp.order - 1
    ensures Pyramid(sp, u)[j + 1] == Pass(sp, u, Span(|sp.points|, sp.order, u), sp.order - j, Pyramid(sp, u)[j])
  {
    var delta := Span(|sp.points|, sp.order, u);
    var seeds := Seeds(sp, delta);
    PassesStep(sp, u, delta, sp.order, seeds, j);
  }

  /** The span loop of `nurbsCurve` over the knot vector: it reads only
      knots inside the vector and stops at the span. */
  method FindSpan(knots: seq<real>, n: int, k: int, u: real) returns (delta: int)
    requires 1 <= k <= n && 0.0 <= u < 1.0 && knots == Knots(n, k)
    ensures delta == Span(n, k, u)
  {
    delta := 0;
    KnotInUnit(n, k, 0);
    while u >= knots[delta + 1]
      invariant 0 <= delta <= n - 1 && KnotAt(n, k, delta) <= u
      invariant SpanFrom(n, k, u, delta) == Span(n, k, u)
      decreases n - delta
    {
      delta := delta + 1;
    }
  }

  /** The seeding loop: `order` entries read from `delta` downwards. */
  method SeedLoop(sp: Spline, delta: int) returns (c: seq<Weighted>)
    requires Valid(sp) && sp.order - 1 <= delta <= |sp.points| - 1
    ensures c == Seeds(sp, delta)
  {
    c := [];
    var i := 0;
    while i <= sp.order - 1
      invariant 0 <= i <= sp.order && c == Seeds(sp, delta)[..i]
    {
      c := c + [Weighted(Scale(sp.weights[delta - i], sp.points[delta - i]), sp.weights[delta - i])];
      i := i + 1;
    }
  }

  /** One pass `r` in place: slots `0 .. r-2` get the next layer, the rest
      of the array is untouched, and the knot indices `i + r - 1` and `i`
      stay inside the vector. */
  method PassInPlace(sp: Spline, knots: seq<real>, u: real, delta: int, r: int, c0: seq<Weighted>)
    returns (c: seq<Weighted>)
    requires Valid(sp) && Bracket(|sp.points|, sp.order, u, delta) && knots == Knots(|sp.points|, sp.order)
    requires 2 <= r <= sp.order && |c0| == sp.order && Positive(c0[..r])
    ensures |c| == sp.order
    ensures c[..r - 1] == Pass(sp, u, delta, r, c0[..r])
    ensures c[r - 1..] == c0[r - 1..]
  {
    var n, k := |sp.points|, sp.order;
    ghost var prev := c0[..r];
    c := c0;
    var s := 0;
    var i := delta;
    while s < r - 1
      invariant 0 <= s <= r - 1 && |c| == k && i == delta - s
      invariant forall t :: s <= t < k ==> c[t] == c0[t]
      invariant forall t :: 0 <= t < s ==> c[t] == Blend(Omega(n, k, u, delta - t, r), prev[t], prev[t + 1])
    {
      OmegaInUnit(n, k, u, delta, r, s);
      var den := knots[i + r - 1] - knots[i];
      var omega := 0.0;
      if den > FloatErr {
        omega := (u - knots[i]) / den;
      }
      c := c[s := Blend(omega, c[s], c[s + 1])];
      i := i - 1;
      s := s + 1;
    }
    PassFromSlots(sp, u, delta, r, prev, c[..r - 1]);
    assert c[r - 1..] == c0[r - 1..];
  }

  /** A layer whose every slot is the blend `Pass` puts there is that
      pass. */
  lemma PassFromSlots(sp: Spline, u: real, delta: int, r: int, prev: seq<Weighted>, next: seq<Weighted>)
    requires Valid(sp) && Bracket(|sp.points|, sp.order, u, delta)
    requires 2 <= r <= sp.order && |prev| == r && Positive(prev) && |next| == r - 1
    requires forall s :: 0 <= s < r - 1 ==> next[s] == Blend(Omega(|sp.points|, sp.order, u, delta - s, r), prev[s], prev[s + 1])
    ensures next == Pass(sp, u, delta, r, prev)
  {
  }

  /** The pass loop of `nurbsCurve`: from the seeds, passes `order` down
      to 2 over one array leave the pyramid's apex in slot 0. */
  method PassLoop(sp: Spline, knots: seq<real>, u: real, delta: int, seeds: seq<Weighted>)
    returns (apex: Weighted)
    requires Valid(sp) && 0.0 <= u < 1.0 && knots == Knots(|sp.points|, sp.order)
    requires delta == Span(|sp.points|, sp.order, u) && seeds == Seeds(sp, delta)
    ensures apex == Pyramid(sp, u)[sp.order - 1][0]
  {
    var k := sp.order;
    ghost var layers := Pyramid(sp, u);
    var c := seeds;
    assert c[..k] == layers[0];
    var r := k;
    while r >= 2
      invariant 1 <= r <= k && |c| == k
      invariant c[..r] == layers[k - r]
    {
      PyramidStep(sp, u, k - r);
      c := PassInPlace(sp, knots, u, delta, r, c);
      r := r - 1;
    }
    assert c[0] == c[..1][0];
    apex := c[0];
  }

  /** `nurbsCurve` as written: span loop, seeding loop and the passes over
      one array; the point is the one the recursion defines. */
  method CurvePoint(sp: Spline, u: real) returns (p: Point)
    requires Valid(sp) && 0.0 <= u < 1.0
    ensures p == Eval(sp, u)
  {
    var n, k := |sp.points|, sp.order;
    var knots := Knots(n, k);
    var delta := FindSpan(knots, n, k, u);
    var c := SeedLoop(sp, delta);
    var apex := PassLoop(sp, knots, u, delta, c);
    p := Project(apex);
  }

  /* ---------- sampling and construction layers ---------- */

  /** `_uInc`: 0.01, so the sampling loop visits `u = j / 100` for
      `j < 100` (over reals; see the README on float accumulation). */
  const Steps: int := 100

  const UInc: real := 0.01

  /** `nurbsSpline`: the knot vector, then the samples `u = j * _uInc` for
      every `u < 1`, then the last control point. */
  function Polyline(sp: Spline): (r: seq<Point>)
    requires Valid(sp)
    ensures |r| == Steps + 1
    ensures r[Steps] == sp.points[|sp.points| - 1]
    ensures forall j :: 0 <= j < Steps ==> 0.0 <= j as real * UInc < 1.0 && r[j] == Eval(sp, j as real * UInc)
  {
    seq(Steps, j requires 0 <= j < Steps => Eval(sp, j as real * UInc)) + [sp.points[|sp.points| - 1]]
  }

  /** `generateGeometric`: every layer of the recursion at `u`, projected. */
  function Geometric(sp: Spline, u: real): (layers: seq<seq<Point>>)
    requires Valid(sp) && 0.0 <= u < 1.0
    ensures |layers| == sp.order
    ensures |layers[0]| == sp.order
    ensures forall j :: 1 <= j < sp.order ==> |layers[j]| == sp.order - j
    ensures layers[sp.order - 1] == [Eval(sp, u)]
  {
    var p := Pyramid(sp, u);
    seq(sp.order, j requires 0 <= j < sp.order =>
      seq(|p[j]|, m requires 0 <= m < |p[j]| => Project(p[j][m])))
  }

  /** `_uDisplay`, the parameter whose construction is displayed. */
  const UDisplay: real := 0.45

  /* ---------- properties ---------- */

  /** At `u = 0` every blend factor is 0, so a pass drops the first slot. */
  lemma PassAtZero(sp: Spline, r: int, cur: seq<Weighted>)
    requires Valid(sp) && Bracket(|sp.points|, sp.order, 0.0, sp.order - 1)
    requires 2 <= r <= sp.order && |cur| == r && Positive(cur)
    ensures Pass(sp, 0.0, sp.order - 1, r, cur) == cur[1..]
  {
    var next := Pass(sp, 0.0, sp.order - 1, r, cur);
    forall m | 0 <= m < r - 1
      ensures next[m] == cur[m + 1]
    {
      ZeroOmega(|sp.points|, sp.order, r, m);
      BlendZero(cur[m], cur[m + 1]);
    }
  }

  /** Hence the last layer at `u = 0` is the last entry of the first. */
  lemma {:induction false} PassesAtZero(sp: Spline, r: int, cur: seq<Weighted>)
    requires Valid(sp) && Bracket(|sp.points|, sp.order, 0.0, sp.order - 1)
    requires 2 <= r <= sp.order && |cur| == r && Positive(cur)
    ensures Passes(sp, 0.0, sp.order - 1, r, cur)[r - 2] == [cur[r - 1]]
    decreases r
  {
    var next := Pass(sp, 0.0, sp.order - 1, r, cur);
    PassAtZero(sp, r, cur);
    var rest := Passes(sp, 0.0, sp.order - 1, r - 1, next);
    assert Passes(sp, 0.0, sp.order - 1, r, cur) == [next] + rest;
    if r > 2 {
      PassesAtZero(sp, r - 1, next);
      assert next[r - 2] == cur[r - 1];
    }
  }

  lemma ZeroOmega(n: int, k: int, r: int, s: int)
    requires 1 <= k <= n && 2 <= r <= k && 0 <= s <= r - 2
    ensures Omega(n, k, 0.0, k - 1 - s, r) == 0.0
  {
    assert KnotAt(n, k, k - 1 - s) == 0.0;
  }

  lemma BlendZero(a: Weighted, b: Weighted)
    ensures Blend(0.0, a, b) == b
  {
  }

  /** The curve starts exactly at the first control point (the knot vector
      is clamped), whatever the weights. */
  lemma StartsAtFirstPoint(sp: Spline)
    requires Valid(sp)
    ensures Eval(sp, 0.0) == sp.points[0]
    ensures Polyline(sp)[0] == sp.points[0]
  {
    EvalAtZero(sp);
    assert Polyline(sp)[0] == Eval(sp, 0 as real * UInc);
  }

  lemma EvalAtZero(sp: Spline)
    requires Valid(sp)
    ensures Eval(sp, 0.0) == sp.points[0]
  {
    var k := sp.order;
    ZeroSpan(|sp.points|, k);
    var seeds := Seeds(sp, k - 1);
    var p := Pyramid(sp, 0.0);
    if k > 1 {
      PassesAtZero(sp, k, seeds);
      assert p[k - 1] == Passes(sp, 0.0, k - 1, k, seeds)[k - 2];
    }
    assert p[k - 1][0] == seeds[k - 1];
    ProjectScaled(sp.weights[0], sp.points[0]);
  }

  /** At `u = 0` the span is the last of the leading zero knots. */
  lemma ZeroSpan(n: int, k: int)
    requires 1 <= k <= n
    ensures Span(n, k, 0.0) == k - 1
  {
    var delta := Span(n, k, 0.0);
    KnotInUnit(n, k, delta);
  }

  lemma ProjectScaled(w: real, p: Point)
    requires w > 0.0
    ensures Project(Weighted(Scale(w, p), w)) == p
  {
  }
}

=== FILE: obj_export.dfy ===
/** `BaseGeo::SaveObj`: the six solids are appended, one call per solid, to
    a single OBJ file. Two counters shared by every call (`static` locals)
    drive it: `count` numbers the object being written and chooses between
    truncating and appending, `total` is the 1-based number of the first
    vertex this object adds, so face lines can refer to vertices written by
    earlier calls. A file is modelled as its sequence of lines, each a
    record; the text formatting of floats is not modelled. */
module ObjExport {
  import opened Results
  import opened ObjTypes
  import Solids

  /* ---------- the model matrix ---------- */

  datatype Vec4 = Vec4(x: real, y: real, z: real, w: real)

  /** A `glm::mat4`, stored as its four columns. */
  datatype Mat4 = Mat4(c0: Vec4, c1: Vec4, c2: Vec4, c3: Vec4)

  /** `_model * vec4(p, 1)`, keeping `x`, `y`, `z`. */
  function Apply(m: Mat4, p: Vec3): (r: Vec3)
  {
    Vec3(m.c0.x * p.x + m.c1.x * p.y + m.c2.x * p.z + m.c3.x,
         m.c0.y * p.x + m.c1.y * p.y + m.c2.y * p.z + m.c3.y,
         m.c0.z * p.x + m.c1.z * p.y + m.c2.z * p.z + m.c3.z)
  }

  /** `glm::translate(glm::mat4(1.0f), t)`, the translation factor of a
      solid's model matrix. */
  function Translate(t: Vec3): (m: Mat4)
    ensures m.c3 == Vec4(t.x, t.y, t.z, 1.0)
  {
    Mat4(Vec4(1.0, 0.0, 0.0, 0.0), Vec4(0.0, 1.0, 0.0, 0.0), Vec4(0.0, 0.0, 1.0, 0.0),
         Vec4(t.x, t.y, t.z, 1.0))
  }

  /** A translation matrix moves every local vertex by `t`. */
  lemma ApplyTranslate(t: Vec3, p: Vec3)
    ensures Apply(Translate(t), p) == Vec3(p.x + t.x, p.y + t.y, p.z + t.z)
  {
  }

  /* ---------- files ---------- */

  /** One line of the written OBJ text. */
  datatype Record =
    | Comment(text: string)                 // `# text`
    | Object(number: int)                   // `o six_basic_<number>`
    | V(p: Vec3)                            // `v x y z`
    | F(a: int, b: int, c: int)             // `f a b c`, 1-based

  const Motto: string := "All money go my home!"

  /** The file system as the exporter sees it: contents by path, and the
      paths an `ofstream` can open for writing. */
  datatype Disk = Disk(files: map<string, seq<Record>>, writable: set<string>)

  /** The number of vertex lines. */
  function CountV(rs: seq<Record>): (n: nat)
    ensures n <= |rs|
  {
    if rs == [] then 0 else (if rs[0].V? then 1 else 0) + CountV(rs[1..])
  }

  /** The object numbers, in file order. */
  function Objects(rs: seq<Record>): (ns: seq<int>)
    ensures |ns| <= |rs|
  {
    if rs == [] then [] else (if rs[0].Object? then [rs[0].number] else []) + Objects(rs[1..])
  }

  /** Every face refers to one of the vertices `1 .. n`. */
  ghost predicate FacesWithin(rs: seq<Record>, n: int)
  {
    forall k :: 0 <= k < |rs| && rs[k].F? ==>
      1 <= rs[k].a <= n && 1 <= rs[k].b <= n && 1 <= rs[k].c <= n
  }

  /** `[0, 1, .., n-1]`. */
  function Range(n: nat): (r: seq<int>)
    ensures |r| == n && forall i :: 0 <= i < n ==> r[i] == i
  {
    if n == 0 then [] else Range(n - 1) + [n - 1]
  }

  lemma {:induction false} CountVAppend(a: seq<Record>, b: seq<Record>)
    ensures CountV(a + b) == CountV(a) + CountV(b)
  {
    if a != [] {
      assert (a + b)[0] == a[0] && (a + b)[1..] == a[1..] + b;
      CountVAppend(a[1..], b);
    } else {
      assert a + b == b;
    }
  }

  lemma {:induction false} ObjectsAppend(a: seq<Record>, b: seq<Record>)
    ensures Objects(a + b) == Objects(a) + Objects(b)
  {
    if a != [] {
      assert (a + b)[0] == a[0] && (a + b)[1..] == a[1..] + b;
      ObjectsAppend(a[1..], b);
    } else {
      assert a + b == b;
    }
  }

  /* ---------- one call ---------- */

  /** A solid as `SaveObj` reads it: the local vertex floats, the index
      buffer and the model matrix. */
  datatype Geo = Geo(vertices: seq<real>, indices: seq<int>, model: Mat4)

  /** What `SaveObj` needs of a solid: whole vertices (its `assert`) and
      whole triangles (the face loop reads three indices per step). */
  ghost predicate Exportable(g: Geo)
  {
    |g.vertices| % 3 == 0 && |g.indices| % 3 == 0
  }

  /** The solid's topology, as the solids module states it. */
  function Topology(g: Geo): Solids.Solid
  {
    Solids.Solid(|g.vertices| / 3, g.indices)
  }

  /** Every local vertex triple taken to world coordinates. */
  function World(vs: seq<real>, m: Mat4): (ps: seq<Vec3>)
    requires |vs| % 3 == 0
    ensures |ps| == |vs| / 3
  {
    seq(|vs| / 3, i requires 0 <= i < |vs| / 3 => Apply(m, Vec3(vs[3 * i], vs[3 * i + 1], vs[3 * i + 2])))
  }

  /** The first loop of `SaveObj`, stepping `i` by three: it pushes the
      world positions in vertex order. */
  method WorldLoop(vs: seq<real>, m: Mat4) returns (ps: seq<Vec3>)
    requires |vs| % 3 == 0
    ensures ps == World(vs, m)
  {
    ps := [];
    var i := 0;
    while i < |vs|
      invariant 0 <= i <= |vs| && i % 3 == 0
      invariant ps == World(vs, m)[..i / 3]
    {
      ps := ps + [Apply(m, Vec3(vs[i], vs[i + 1], vs[i + 2]))];
      i := i + 3;
    }
  }

  /** Under a solid's translation matrix every vertex is written at its
      local position moved by the solid's position. */
  lemma WorldTranslated(vs: seq<real>, t: Vec3, i: int)
    requires |vs| % 3 == 0 && 0 <= i < |vs| / 3
    ensures World(vs, Translate(t))[i] == Vec3(vs[3 * i] + t.x, vs[3 * i + 1] + t.y, vs[3 * i + 2] + t.z)
  {
    ApplyTranslate(t, Vec3(vs[3 * i], vs[3 * i + 1], vs[3 * i + 2]));
  }

  /** The `v` lines, one per world position. */
  function Verts(ps: seq<Vec3>): (rs: seq<Record>)
    ensures |rs| == |ps| && CountV(rs) == |ps| && Objects(rs) == []
    ensures forall k :: 0 <= k < |rs| ==> rs[k].V?
  {
    var rs := seq(|ps|, k requires 0 <= k < |ps| => V(ps[k]));
    OnlyVerts(rs);
    rs
  }

  /** Vertex lines alone count one vertex each and name no object. */
  lemma {:induction false} OnlyVerts(rs: seq<Record>)
    requires forall k :: 0 <= k < |rs| ==> rs[k].V?
    ensures CountV(rs) == |rs| && Objects(rs) == []
  {
    if rs != [] {
      OnlyVerts(rs[1..]);
    }
  }

  /** The `f` lines: every index triple shifted by `total`. */
  function Faces(ix: seq<int>, total: int): (rs: seq<Record>)
    requires |ix| % 3 == 0
    ensures |rs| == |ix| / 3 && CountV(rs) == 0 && Objects(rs) == []
  {
    var rs := seq(|ix| / 3, t requires 0 <= t < |ix| / 3 => F(ix[3 * t] + total, ix[3 * t + 1] + total, ix[3 * t + 2] + total));
    OnlyFaces(rs);
    rs
  }

  /** Face lines alone count no vertex and name no object. */
  lemma {:induction false} OnlyFaces(rs: seq<Record>)
    requires forall t :: 0 <= t < |rs| ==> rs[t].F?
    ensures CountV(rs) == 0 && Objects(rs) == []
  {
    if rs != [] {
      OnlyFaces(rs[1..]);
    }
  }

  /** The two `static` counters. */
  datatype Counters = Counters(count: int, total: int)

  /** Their values at program start, and after every sixth save. */
  const Fresh: Counters := Counters(0, 1)

  /** What one call leaves behind. */
  datatype SaveOutcome = SaveOutcome(ok: bool, counters: Counters, disk: Disk, err: string)

  /** The lines one call writes: the comment header for the first object
      only, the object name, the vertices, the faces. */
  function Section(c: Counters, g: Geo): (rs: seq<Record>)
    requires Exportable(g)
  {
    (if c.count == 0 then [Comment(Motto)] else []) + [Object(c.count)]
      + Verts(World(g.vertices, g.model)) + Faces(g.indices, c.total)
  }

  /** The counter update after a successful call that wrote `added`
      vertices. */
  function Advance(c: Counters, added: int): (r: Counters)
    ensures 0 <= c.count ==> 0 <= r.count < 6
    ensures r.count == 0 <==> r == Fresh
  {
    var next := (c.count + 1) % 6;
    Counters(next, if next == 0 then 1 else c.total + added)
  }

  /** `SaveObj(path, view, &err)`. The first object of a cycle truncates the
      file, later ones append to it; a file that cannot be opened leaves
      the counters and the disk as they were. (`view` is unused by the
      function and is not a parameter here.) */
  function Save(c: Counters, disk: Disk, path: string, g: Geo, err: string): (r: SaveOutcome)
    requires Exportable(g)
    ensures r.ok <==> path in disk.writable
    ensures !r.ok ==> r.counters == c && r.disk == disk && r.err == CannotOpen(path)
    ensures r.ok ==> r.err == err && r.disk.writable == disk.writable && path in r.disk.files
    ensures r.ok && c.count == 0 ==> r.disk.files[path] == Section(c, g)
    ensures r.ok && c.count != 0 && path in disk.files ==> r.disk.files[path] == disk.files[path] + Section(c, g)
  {
    if path !in disk.writable then
      SaveOutcome(false, c, disk, CannotOpen(path))
    else
      var before := if c.count == 0 || path !in disk.files then [] else disk.files[path];
      var file := before + Section(c, g);
      SaveOutcome(true, Advance(c, |g.vertices| / 3), Disk(disk.files[path := file], disk.writable), err)
  }

  /** A save writes no file but `path`. */
  lemma SaveTouchesOnlyPath(c: Counters, disk: Disk, path: string, g: Geo, err: string, q: string)
    requires Exportable(g) && q != path
    ensures q in Save(c, disk, path, g, err).disk.files <==> q in disk.files
    ensures q in disk.files ==> Save(c, disk, path, g, err).disk.files[q] == disk.files[q]
  {
  }

  /* ---------- what the counters guarantee ---------- */

  /** A complete file: it starts with the header and every face refers to
      a vertex line of the file. */
  ghost predicate WellFormed(f: seq<Record>)
  {
    |f| > 0 && f[0] == Comment(Motto) && FacesWithin(f, CountV(f))
  }

  /** The relation between the counters and the file at `path` in the
      middle of a cycle: `count` objects are written, numbered in order, and
      `total - 1` vertex lines precede the next object's. */
  ghost predicate Consistent(c: Counters, files: map<string, seq<Record>>, path: string)
  {
    && 0 <= c.count < 6
    && (c.count == 0 ==> c == Fresh)
    && (c.count > 0 ==>
          && path in files
          && WellFormed(files[path])
          && CountV(files[path]) == c.total - 1
          && Objects(files[path]) == Range(c.count))
  }

  /** The section of one call adds one object, numbered `count`, and
      one vertex line per local vertex. */
  lemma SectionCounts(c: Counters, g: Geo)
    requires Exportable(g)
    ensures CountV(Section(c, g)) == |g.vertices| / 3
    ensures Objects(Section(c, g)) == [c.count]
  {
    var head: seq<Record> := (if c.count == 0 then [Comment(Motto)] else []) + [Object(c.count)];
    var vs := Verts(World(g.vertices, g.model));
    var fs := Faces(g.indices, c.total);
    assert Section(c, g) == head + vs + fs;
    assert CountV(head) == 0 && Objects(head) == [c.count] by {
      if c.count == 0 {
        assert head[1..] == [Object(c.count)];
      }
    }
    CountVAppend(head, vs);
    CountVAppend(head + vs, fs);
    ObjectsAppend(head, vs);
    ObjectsAppend(head + vs, fs);
  }

  /** The section written for a solid whose indices name its own vertices
      refers only to the vertices `total .. total + n - 1` it adds. */
  lemma SectionFaces(c: Counters, g: Geo)
    requires Exportable(g) && Solids.InRange(Topology(g))
    requires c.total >= 1
    ensures FacesWithin(Section(c, g), c.total - 1 + |g.vertices| / 3)
  {
    var head: seq<Record> := (if c.count == 0 then [Comment(Motto)] else []) + [Object(c.count)];
    var vs := Verts(World(g.vertices, g.model));
    var fs := Faces(g.indices, c.total);
    assert Section(c, g) == (head + vs) + fs;
    var n := c.total - 1 + |g.vertices| / 3;
    FrontHasNoFaces(head, vs, n);
    FacesShifted(g.indices, |g.vertices| / 3, c.total);
    FacesWidened(fs, c.total - 1 + |g.vertices| / 3, n);
    FacesAppend(head + vs, fs, n);
  }

  /** Header and vertex lines hold no face. */
  lemma FrontHasNoFaces(head: seq<Record>, vs: seq<Record>, n: int)
    requires forall k :: 0 <= k < |head| ==> !head[k].F?
    requires forall k :: 0 <= k < |vs| ==> vs[k].V?
    ensures FacesWithin(head + vs, n)
  {
    var front := head + vs;
    forall k | 0 <= k < |front|
      ensures !front[k].F?
    {
      if k >= |head| {
        assert front[k] == vs[k - |head|];
      }
    }
  }

  /** Shifting indices below `count` by `total` gives face numbers
      `total .. total + count - 1`. */
  lemma FacesShifted(ix: seq<int>, count: nat, total: int)
    requires |ix| % 3 == 0 && Solids.InRange(Solids.Solid(count, ix)) && total >= 1
    ensures FacesWithin(Faces(ix, total), total - 1 + count)
  {
    var fs := Faces(ix, total);
    var n := total - 1 + count;
    forall t | 0 <= t < |fs| && fs[t].F?
      ensures 1 <= fs[t].a <= n && 1 <= fs[t].b <= n && 1 <= fs[t].c <= n
    {
      assert 0 <= ix[3 * t] < count && 0 <= ix[3 * t + 1] < count && 0 <= ix[3 * t + 2] < count;
    }
  }

  /** Faces of both parts within `n` are faces of the whole within `n`. */
  lemma FacesAppend(a: seq<Record>, b: seq<Record>, n: int)
    requires FacesWithin(a, n) && FacesWithin(b, n)
    ensures FacesWithin(a + b, n)
  {
    var ab := a + b;
    forall k | 0 <= k < |ab| && ab[k].F?
      ensures 1 <= ab[k].a <= n && 1 <= ab[k].b <= n && 1 <= ab[k].c <= n
    {
      if k < |a| {
        assert ab[k] == a[k];
      } else {
        assert ab[k] == b[k - |a|];
      }
    }
  }

  /** One successful save keeps the counters consistent with the file,
      and the file it leaves is well formed with objects `0 .. count`. */
  lemma SaveKeepsConsistent(c: Counters, disk: Disk, path: string, g: Geo, err: string)
    requires Consistent(c, disk.files, path) && path in disk.writable
    requires Exportable(g) && Solids.InRange(Topology(g))
    ensures Consistent(Save(c, disk, path, g, err).counters, Save(c, disk, path, g, err).disk.files, path)
    ensures WellFormed(Save(c, disk, path, g, err).disk.files[path])
    ensures Objects(Save(c, disk, path, g, err).disk.files[path]) == Range(c.count + 1)
  {
    var r := Save(c, disk, path, g, err);
    var before: seq<Record> := if c.count == 0 then [] else disk.files[path];
    var sec := Section(c, g);
    var file := r.disk.files[path];
    assert file == before + sec;
    SectionCounts(c, g);
    SectionFaces(c, g);
    AppendSection(c, before, sec, |g.vertices| / 3);
  }

  /** The file arithmetic behind `SaveKeepsConsistent`, over the file
      before the call and the section it adds. */
  lemma AppendSection(c: Counters, before: seq<Record>, sec: seq<Record>, added: nat)
    requires 0 <= c.count < 6 && c.total >= 1
    requires c.count == 0 ==> before == [] && c.total == 1 && sec != [] && sec[0] == Comment(Motto)
    requires c.count > 0 ==> WellFormed(before) && CountV(before) == c.total - 1 && Objects(before) == Range(c.count)
    requires CountV(sec) == added && Objects(sec) == [c.count]
    requires FacesWithin(sec, c.total - 1 + added)
    ensures WellFormed(before + sec)
    ensures CountV(before + sec) == c.total - 1 + added
    ensures Objects(before + sec) == Range(c.count + 1)
  {
    var file := before + sec;
    CountVAppend(before, sec);
    ObjectsAppend(before, sec);
    var n := CountV(file);
    if c.count > 0 {
      FacesWidened(before, CountV(before), n);
    }
    FacesAppend(before, sec, n);
    assert file[0] == Comment(Motto) by {
      if c.count == 0 {
        assert file[0] == sec[0];
      } else {
        assert file[0] == before[0];
      }
    }
  }

  /** Raising the bound keeps faces within it. */
  lemma FacesWidened(rs: seq<Record>, n: int, m: int)
    requires FacesWithin(rs, n) && n <= m
    ensures FacesWithin(rs, m)
  {
  }

  /* ---------- the `O` key ---------- */

  /** What saves up to the `upto`-th object of a cycle leave behind:
      success, counters consistent with the file and at `upto` modulo six,
      and, once anything was saved, a well-formed file whose objects are
      numbered from 0 to `upto - 1`. */
  ghost predicate Saved(upto: nat, any: bool, path: string, r: SaveOutcome)
  {
    && r.ok
    && Consistent(r.counters, r.disk.files, path)
    && r.counters.count == upto % 6
    && (any ==> path in r.disk.files && WellFormed(r.disk.files[path]) && Objects(r.disk.files[path]) == Range(upto))
  }

  /** One save from a consistent state is one step of a cycle. */
  lemma SaveStep(c: Counters, disk: Disk, path: string, g: Geo, err: string)
    requires Consistent(c, disk.files, path) && path in disk.writable
    requires Exportable(g) && Solids.InRange(Topology(g))
    ensures Saved(c.count + 1, true, path, Save(c, disk, path, g, err))
    ensures Save(c, disk, path, g, err).disk.writable == disk.writable
  {
    SaveKeepsConsistent(c, disk, path, g, err);
  }

  /** A save after `upto < 6` objects of a cycle leads to `upto + 1`. */
  lemma NextSaved(upto: nat, any: bool, path: string, r: SaveOutcome, g: Geo)
    requires Saved(upto, any, path, r) && path in r.disk.writable && upto < 6
    requires Exportable(g) && Solids.InRange(Topology(g))
    ensures Saved(upto + 1, true, path, Save(r.counters, r.disk, path, g, r.err))
    ensures path in Save(r.counters, r.disk, path, g, r.err).disk.writable
  {
    assert r.counters.count == upto;
    SaveStep(r.counters, r.disk, path, g, r.err);
  }

  /** The solids an `O` press can save within one cycle: exportable, each
      index naming one of its own vertices, and no more than the cycle
      has left. */
  ghost predicate Fits(c: Counters, geos: seq<Geo>)
  {
    && c.count + |geos| <= 6
    && forall i :: 0 <= i < |geos| ==> Solids.InRange(Topology(geos[i]))
  }

  /** `LOFT::handleInput` on `O`: every solid saved in turn to one path;
      the first failure ends the program with the message built here.
      From a consistent state, saves within the cycle all succeed and
      keep the counters consistent with the file. */
  method SaveAll(c: Counters, disk: Disk, path: string, geos: seq<Geo>, err: string) returns (r: SaveOutcome)
    requires forall i :: 0 <= i < |geos| ==> Exportable(geos[i])
    ensures geos != [] && path !in disk.writable ==>
              !r.ok && r.counters == c && r.disk == disk && r.err == "save obj " + path + " failure: " + CannotOpen(path)
    ensures Consistent(c, disk.files, path) && path in disk.writable && Fits(c, geos) ==>
              Saved(c.count + |geos|, geos != [], path, r)
  {
    ghost var good := Consistent(c, disk.files, path) && path in disk.writable && Fits(c, geos);
    r := SaveOutcome(true, c, disk, err);
    var i := 0;
    while i < |geos|
      invariant 0 <= i <= |geos| && r.ok
      invariant i == 0 ==> r == SaveOutcome(true, c, disk, err)
      invariant path !in disk.writable ==> i == 0
      invariant good ==> Saved(c.count + i, i > 0, path, r) && path in r.disk.writable
    {
      var s := Save(r.counters, r.disk, path, geos[i], r.err);
      if !s.ok {
        return SaveOutcome(false, s.counters, s.disk, "save obj " + path + " failure: " + s.err);
      }
      if good {
        NextSaved(c.count + i, i > 0, path, r, geos[i]);
      }
      r := s;
      i := i + 1;
    }
  }

  /** Pressing `O` once at program start, with the six solids, writes a
      complete file holding objects 0 to 5 in order, every face naming a
      vertex of the file, and resets the counters for the next press. */
  method SixSaves(disk: Disk, path: string, geos: seq<Geo>, err: string) returns (r: SaveOutcome)
    requires path in disk.writable && |geos| == 6
    requires forall i :: 0 <= i < |geos| ==> Exportable(geos[i]) && Solids.InRange(Topology(geos[i]))
    ensures r.ok && r.counters == Fresh
    ensures path in r.disk.files && WellFormed(r.disk.files[path])
    ensures Objects(r.disk.files[path]) == [0, 1, 2, 3, 4, 5]
  {
    r := SaveAll(Fresh, disk, path, geos, err);
    assert Range(6) == [0, 1, 2, 3, 4, 5];
  }
}

=== FILE: obj_loader.dfy ===
/** `Model::LoadObj`: reads an OBJ file line by line into flat attribute
    arrays, per-group face lists and, on every group, object or material
    change, a triangulated shape. */
module ObjLoader {
  import opened Results
  import opened ObjText
  import opened ObjTypes
  import opened MtlReader

  /* ---------- face references ---------- */

  /** One face reference as written: the integers `atoi` reads for the
      position, texture and normal slots that are present. */
  datatype RawRef = RawRef(v: int, vt: Option<int>, vn: Option<int>)

  /** One slot of a reference: the integer `atoi` reads and the text after
      `strcspn(t, "/ \t\r")`. */
  function Slot(t: string): (r: (int, string))
    ensures |r.1| <= |t|
    ensures t != [] && t[0] !in RefStops ==> |r.1| < |t|
  {
    (Atoi(t), t[CSpan(t, RefStops)..])
  }

  /** Parses one reference (`i`, `i/j`, `i//k` or `i/j/k`) at the head of
      `t`, returning it and the text after it. */
  function ParseRef(t: string): (r: (RawRef, string))
    requires t != [] && t[0] !in BlanksCr
    ensures |r.1| < |t|
  {
    var (v, t1) := Slot(t);
    if At(t1, 0) != '/' then (RawRef(v, None, None), t1)
    else if At(t1, 1) == '/' then
      var (k, t3) := Slot(t1[2..]);
      (RawRef(v, None, Some(k)), t3)
    else
      var (j, t3) := Slot(t1[1..]);
      if At(t3, 0) != '/' then (RawRef(v, Some(j), None), t3)
      else
        var (k, t4) := Slot(t3[1..]);
        (RawRef(v, Some(j), Some(k)), t4)
  }

  /** The reference loop of the face branch: parse references separated by
      blanks and CRs until the end of the line, a CR or a LF. */
  function ParseRefs(t: string): seq<RawRef>
    requires t == [] || t[0] !in Blanks
    decreases |t|
  {
    if At(t, 0) in {'\r', '\n', '\0'} then []
    else
      var (ref, rest) := ParseRef(t);
      [ref] + ParseRefs(SkipAll(rest, BlanksCr))
  }

  /** `fixIndex` applied to each slot present; an absent slot stays -1. */
  function Resolve(r: RawRef, nv: int, nvt: int, nvn: int): (vi: VertexIndex)
  {
    VertexIndex(FixIndex(r.v, nv),
                if r.vt.Some? then FixIndex(r.vt.value, nvt) else -1,
                if r.vn.Some? then FixIndex(r.vn.value, nvn) else -1)
  }

  /** Resolves a whole face against the element counts seen so far. */
  function ResolveAll(refs: seq<RawRef>, nv: int, nvt: int, nvn: int): (face: seq<VertexIndex>)
    ensures |face| == |refs|
  {
    seq(|refs|, i requires 0 <= i < |refs| => Resolve(refs[i], nv, nvt, nvn))
  }

  /** The text of a reference in the form its present slots call for. */
  function RefText(r: RawRef): string
  {
    Signed(r.v) + SlotsText(r.vt, r.vn)
  }

  /** The text after the position: "", `/j`, `//k` or `/j/k`. */
  function SlotsText(vt: Option<int>, vn: Option<int>): string
  {
    match (vt, vn)
    case (None, None) => ""
    case (None, Some(k)) => "//" + Signed(k)
    case (Some(j), None) => "/" + Signed(j)
    case (Some(j), Some(k)) => "/" + Signed(j) + "/" + Signed(k)
  }

  /** References written out separated by single spaces. */
  function FaceText(refs: seq<RawRef>): string
  {
    if refs == [] then [] else if |refs| == 1 then RefText(refs[0])
    else RefText(refs[0]) + " " + FaceText(refs[1..])
  }

  /* ---------- triangulation ---------- */

  /** `index_t` of a parsed corner (note the field order swap of `vn` and `vt`). */
  function Corner(vi: VertexIndex): IndexT
  {
    IndexT(vi.v, vi.vn, vi.vt)
  }

  /** The triangle fan of a polygon, as a reference definition: triangle
      `t` is corners 0, `t+1`, `t+2`. */
  ghost predicate IsFan(face: seq<VertexIndex>, idx: seq<IndexT>)
  {
    |face| >= 2 && |idx| == 3 * (|face| - 2)
    && forall t :: 0 <= t < |face| - 2 ==>
         idx[3 * t] == Corner(face[0]) && idx[3 * t + 1] == Corner(face[t + 1])
         && idx[3 * t + 2] == Corner(face[t + 2])
  }

  /** Fan triangulation by structural recursion on the polygon. */
  function Fan(face: seq<VertexIndex>): (idx: seq<IndexT>)
    requires |face| >= 2
    ensures IsFan(face, idx)
    decreases |face|
  {
    if |face| == 2 then []
    else
      var prev := Fan(face[..|face| - 1]);
      prev + [Corner(face[0]), Corner(face[|face| - 2]), Corner(face[|face| - 1])]
  }

  /** The fan loop of the flush (`i1 = i2; i2 = face[k]`), computing `Fan`. */
  method FanLoop(face: seq<VertexIndex>) returns (idx: seq<IndexT>)
    requires |face| >= 2
    ensures idx == Fan(face)
  {
    var i0 := face[0];
    var i1 := VertexIndex(-1, -1, -1);
    var i2 := face[1];
    idx := [];
    var k := 2;
    while k < |face|
      invariant 2 <= k <= |face|
      invariant i2 == face[k - 1]
      invariant idx == Fan(face[..k])
    {
      i1 := i2;
      i2 := face[k];
      assert face[..k + 1][..k] == face[..k];
      idx := idx + [Corner(i0), Corner(i1), Corner(i2)];
      k := k + 1;
    }
    assert face[..k] == face;
  }

  /** Triangle count of a face group. */
  function Triangles(faces: seq<seq<VertexIndex>>): nat
    requires forall i :: 0 <= i < |faces| ==> |faces[i]| >= 2
  {
    if faces == [] then 0 else Triangles(faces[..|faces| - 1]) + (|faces[|faces| - 1]| - 2)
  }

  /** Every triangle has three corners and carries the same material id. */
  ghost predicate Uniform(m: Mesh, material: int)
  {
    |m.indices| == 3 * |m.numFaceVertices| && |m.materialIds| == |m.numFaceVertices|
    && (forall i :: 0 <= i < |m.numFaceVertices| ==> m.numFaceVertices[i] == 3)
    && (forall i :: 0 <= i < |m.materialIds| ==> m.materialIds[i] == material)
  }

  /** The mesh a flush builds from the pending faces: their fans in order,
      one `3` and one material id per triangle. */
  function Triangulate(faces: seq<seq<VertexIndex>>, material: int): (m: Mesh)
    requires forall i :: 0 <= i < |faces| ==> |faces[i]| >= 2
    ensures Uniform(m, material)
    ensures |m.numFaceVertices| == Triangles(faces)
    decreases |faces|
  {
    if faces == [] then EmptyMesh
    else
      var m := Triangulate(faces[..|faces| - 1], material);
      var f := faces[|faces| - 1];
      Mesh(m.indices + Fan(f),
           m.numFaceVertices + seq(|f| - 2, _ => 3),
           m.materialIds + seq(|f| - 2, _ => material))
  }

  /* ---------- loader state ---------- */

  /** Loader configuration: the number scanner, the files that can be
      opened and the directory prefixed to `mtllib` names. */
  datatype Config = Config(sc: NumberScan, fs: FileSystem, baseDir: string)

  /** The loop's locals: coordinate arrays, pending faces, current name and
      material, and the outputs built so far. */
  datatype ObjState = ObjState(
    v: seq<real>, vn: seq<real>, vt: seq<real>,
    faceGroup: seq<seq<VertexIndex>>,
    name: string,
    matMap: map<string, int>, material: int,
    shapes: seq<Shape>, materials: seq<Material>,
    err: string)

  ghost predicate Pending(st: ObjState)
  {
    forall i :: 0 <= i < |st.faceGroup| ==> |st.faceGroup[i]| >= 2
  }

  /** Flush before a group, object or material change: a non-empty face
      group becomes a shape under the current name and material. */
  function Flush(st: ObjState): (st': ObjState)
    requires Pending(st)
    ensures st'.faceGroup == [] && Pending(st')
    ensures st.faceGroup == [] ==> st' == st
    ensures st.faceGroup != [] ==>
              st'.shapes == st.shapes + [Shape(st.name, Triangulate(st.faceGroup, st.material))]
    ensures st' == st.(faceGroup := [], shapes := st'.shapes)
  {
    if st.faceGroup == [] then st
    else st.(faceGroup := [], shapes := st.shapes + [Shape(st.name, Triangulate(st.faceGroup, st.material))])
  }

  /** What kind of line the loop sees, with what its branch goes on to
      read: the text after the keyword, for `g` the whole token, and for
      `f` the references parsed from the rest of the line. */
  datatype Statement =
    | Ignored
    | Position(args: string)
    | Normal(args: string)
    | TexCoord(args: string)
    | Face(refs: seq<RawRef>)
    | UseMtl(args: string)
    | MtlLib(args: string)
    | Group(token: string)
    | Object(args: string)

  predicate IsSingle(token: string, c: char)
  {
    At(token, 0) == c && At(token, 1) in Blanks
  }

  /** The token the loop dispatches on: newline trimmed, cut at NUL, leading
      blanks skipped (trailing blanks are kept). */
  function ObjToken(line: string): string
  {
    SkipAll(CStr(TrimNewline(line)), Blanks)
  }

  /** The dispatch of the read loop: blank and `#` lines first, then `v`,
      `vn`, `vt`, `f`, `usemtl`, `mtllib`, `g` and `o`; anything else is
      ignored. */
  function Classify(line: string): Statement
  {
    var token := ObjToken(line);
    if token == [] || token[0] == '#' then Ignored
    else if IsSingle(token, 'v') then Position(token[2..])
    else if TwoLetter(token, 'v', 'n') then Normal(token[3..])
    else if TwoLetter(token, 'v', 't') then TexCoord(token[3..])
    else if IsSingle(token, 'f') then Face(FaceRefs(token[2..]))
    else if Keyword(token, "usemtl") then UseMtl(token[7..])
    else if Keyword(token, "mtllib") then MtlLib(token[7..])
    else if IsSingle(token, 'g') then Group(token)
    else if IsSingle(token, 'o') then Object(token[2..])
    else Ignored
  }

  /** The references of a face line, after the blanks that follow `f`. */
  function FaceRefs(args: string): seq<RawRef>
  {
    ParseRefs(SkipAll(args, Blanks))
  }

  /** What the source requires of a face: at least two references
      (`face[1]` is read unconditionally by the flush). */
  predicate Sound(s: Statement)
  {
    s.Face? ==> |s.refs| >= 2
  }

  predicate FaceArity(line: string)
  {
    Sound(Classify(line))
  }

  /** `std::getline(ss, item, ' ')` until it fails: pieces between single
      spaces, keeping empty ones, with no piece after a trailing space. */
  function SplitSpaces(s: string): (items: seq<string>)
    ensures forall i :: 0 <= i < |items| ==> ' ' !in items[i]
    decreases |s|
  {
    if s == [] then []
    else
      var k := CSpan(s, {' '});
      if k == |s| then [s] else [s[..k]] + SplitSpaces(s[k + 1..])
  }

  /** Words of a `g` line, separated by blanks and CRs; the first is `g`. */
  function GroupWords(t: string): seq<string>
    decreases |t|
  {
    if At(t, 0) in {'\r', '\n', '\0'} then []
    else
      var t1 := SkipAll(t, Blanks);
      var e := CSpan(t1, BlanksCr);
      [t1[..e]] + GroupWords(SkipAll(t1[e..], BlanksCr))
  }

  /** The `mtllib` loop: try each file in order and stop at the first that
      opens, collecting the warnings of those that do not. */
  function TryMtl(sc: NumberScan, fs: FileSystem, files: seq<string>,
                  ms: seq<Material>, m: map<string, int>): (r: MtlOutcome)
    ensures r.ok <==> exists i :: 0 <= i < |files| && files[i] in fs
    ensures !r.ok ==> r.materials == ms && r.matMap == m
    ensures |r.materials| >= |ms| && r.materials[..|ms|] == ms
    decreases |files|
  {
    if files == [] then MtlOutcome(false, ms, m, [])
    else
      var o := ReadMtl(sc, fs, files[0], ms, m);
      if o.ok then MtlOutcome(true, o.materials, o.matMap, o.warning)
      else
        var rest := TryMtl(sc, fs, files[1..], ms, m);
        assert forall i :: 1 <= i < |files| ==> files[i] == files[1..][i - 1];
        MtlOutcome(rest.ok, rest.materials, rest.matMap, o.warning + rest.warning)
  }

  /** The library that is read is the first listed file that opens; the
      ones after it are never looked at. */
  lemma {:induction false} TryMtlReadsFirst(sc: NumberScan, fs: FileSystem, files: seq<string>,
                                            ms: seq<Material>, m: map<string, int>)
    ensures var r := TryMtl(sc, fs, files, ms, m);
            r.ok ==> exists i :: 0 <= i < |files| && files[i] in fs
                       && (forall j :: 0 <= j < i ==> files[j] !in fs)
                       && r.materials == ReadMtl(sc, fs, files[i], ms, m).materials
                       && r.matMap == ReadMtl(sc, fs, files[i], ms, m).matMap
    decreases |files|
  {
    if files != [] && files[0] !in fs {
      var r := TryMtl(sc, fs, files, ms, m);
      var r' := TryMtl(sc, fs, files[1..], ms, m);
      TryMtlReadsFirst(sc, fs, files[1..], ms, m);
      if r.ok {
        assert r'.ok && r.materials == r'.materials && r.matMap == r'.matMap;
        var i :| 0 <= i < |files[1..]| && files[1..][i] in fs
                 && (forall j :: 0 <= j < i ==> files[1..][j] !in fs)
                 && r'.materials == ReadMtl(sc, fs, files[1..][i], ms, m).materials
                 && r'.matMap == ReadMtl(sc, fs, files[1..][i], ms, m).matMap;
        FirstOpenShift(fs, files, i);
        assert files[i + 1] == files[1..][i];
      }
    }
  }

  /** The first file that opens in the tail, one position further on, is
      the first that opens in the whole list when the head does not. */
  lemma FirstOpenShift(fs: FileSystem, files: seq<string>, i: nat)
    requires files != [] && files[0] !in fs && i < |files| - 1
    requires forall j :: 0 <= j < i ==> files[1..][j] !in fs
    ensures forall j :: 0 <= j < i + 1 ==> files[j] !in fs
  {
    assert forall j :: 1 <= j < i + 1 ==> files[j] == files[1..][j - 1];
  }

  /** `usemtl`: the id of the named material, or -1; faces pending under a
      different id are flushed first, tagged with the old id. */
  function SelectMaterial(st: ObjState, name: string): (st': ObjState)
    requires Pending(st)
    ensures Pending(st')
    ensures name in st.matMap ==> st'.material == st.matMap[name]
    ensures name !in st.matMap ==> st'.material == -1
    ensures st'.material == st.material ==> st' == st
    ensures st'.material != st.material ==> st' == Flush(st).(material := st'.material)
    ensures st'.material != st.material && st.faceGroup != [] ==>
              st'.shapes == st.shapes + [Shape(st.name, Triangulate(st.faceGroup, st.material))]
  {
    var newId := if name in st.matMap then st.matMap[name] else -1;
    if newId != st.material then Flush(st).(material := newId) else st
  }

  /** The files an `mtllib` line names, each prefixed with the base directory. */
  function LibraryFiles(baseDir: string, args: string): (files: seq<string>)
    ensures |files| == |SplitSpaces(args)|
  {
    var items := SplitSpaces(args);
    seq(|items|, i requires 0 <= i < |items| => baseDir + items[i])
  }

  /** For a list of names without spaces, joined by single spaces, the
      files tried are exactly the names, in order, each behind the base
      directory. */
  lemma LibraryFilesJoined(baseDir: string, names: seq<string>)
    requires forall i :: 0 <= i < |names| ==> ' ' !in names[i]
    requires names != [] ==> names[|names| - 1] != []
    ensures LibraryFiles(baseDir, JoinSpaces(names)) == seq(|names|, i requires 0 <= i < |names| => baseDir + names[i])
  {
    SplitJoinSpaces(names);
  }

  /** `mtllib`: load the first openable library into the table. */
  function LoadLibraries(cfg: Config, st: ObjState, args: string): (st': ObjState)
  {
    var files := LibraryFiles(cfg.baseDir, args);
    if files == [] then
      st.(err := st.err + "WARN: Looks like empty filename for mtllib. Use default material. \n")
    else
      var o := TryMtl(cfg.sc, cfg.fs, files, st.materials, st.matMap);
      st.(materials := o.materials, matMap := o.matMap,
          err := st.err + o.warning + (if o.ok then [] else "WARN: Failed to load material file(s). Use default material.\n"))
  }

  /** The `g` name: the second word of the line, or "". */
  function GroupName(token: string): string
  {
    var names := GroupWords(token);
    if |names| > 1 then names[1] else ""
  }

  /** One iteration of the read loop. */
  function Exec(cfg: Config, st: ObjState, s: Statement): (st': ObjState)
    requires Pending(st) && Sound(s)
    ensures Pending(st')
  {
    match s
    case Ignored => st
    case Position(args) =>
      var p := cfg.sc.reals(args);
      st.(v := st.v + [p.x, p.y, p.z])
    case Normal(args) =>
      var p := cfg.sc.reals(args);
      st.(vn := st.vn + [p.x, p.y, p.z])
    case TexCoord(args) =>
      var p := cfg.sc.reals(args);
      st.(vt := st.vt + [p.x, p.y])
    case Face(refs) =>
      st.(faceGroup := st.faceGroup + [ResolveAll(refs, |st.v| / 3, |st.vt| / 2, |st.vn| / 3)])
    case UseMtl(args) => SelectMaterial(st, Word(args))
    case MtlLib(args) => LoadLibraries(cfg, st, args)
    case Group(token) => Flush(st).(name := GroupName(token))
    case Object(args) => Flush(st).(name := Word(args))
  }

  function ObjLine(cfg: Config, st: ObjState, line: string): ObjState
    requires Pending(st) && FaceArity(line)
  {
    Exec(cfg, st, Classify(line))
  }

  function ObjLines(cfg: Config, st: ObjState, lines: seq<string>): (st': ObjState)
    requires Pending(st) && forall i :: 0 <= i < |lines| ==> FaceArity(lines[i])
    ensures Pending(st')
    decreases |lines|
  {
    if lines == [] then st else ObjLines(cfg, ObjLine(cfg, st, lines[0]), lines[1..])
  }

  /** End of file: pending faces become the last shape; with none pending a
      nameless empty shape is still appended; a pending group that yields
      no triangle is dropped. */
  function Finish(st: ObjState): (shapes: seq<Shape>)
    requires Pending(st)
  {
    var shape := if st.faceGroup == [] then Shape("", EmptyMesh)
                 else Shape(st.name, Triangulate(st.faceGroup, st.material));
    if st.faceGroup == [] || |shape.mesh.indices| > 0 then st.shapes + [shape] else st.shapes
  }

  /** What `LoadObj` leaves behind: its verdict, the attribute arrays, the
      shapes, the (possibly grown) material table and the error text. */
  datatype LoadOutcome = LoadOutcome(ok: bool, attrib: Attrib, shapes: seq<Shape>,
                                     materials: seq<Material>, err: string)

  /** The state the loop starts from. */
  function Start(materials: seq<Material>, err: string): ObjState
  {
    ObjState([], [], [], [], "", map[], -1, [], materials, err)
  }

  /** A file is loadable when each face line has at least two references. */
  ghost predicate Loadable(fs: FileSystem, path: string)
  {
    path in fs ==> forall i :: 0 <= i < |SplitLines(fs[path])| ==> FaceArity(SplitLines(fs[path])[i])
  }

  /** `LoadObj`: an unopenable file clears attributes and shapes, replaces
      the error text and fails; otherwise every line is read, warnings are
      appended to `err`, and the final shape is flushed. */
  function LoadObj(cfg: Config, path: string, materials: seq<Material>, err: string): (r: LoadOutcome)
    requires Loadable(cfg.fs, path)
    ensures path !in cfg.fs ==> r == LoadOutcome(false, Attrib([], [], []), [], materials, CannotOpen(path))
    ensures path in cfg.fs ==> r.ok && err <= r.err
  {
    if path !in cfg.fs then LoadOutcome(false, Attrib([], [], []), [], materials, CannotOpen(path))
    else
      var st := ObjLines(cfg, Start(materials, err), SplitLines(cfg.fs[path]));
      ObjLinesKeepErrPrefix(cfg, Start(materials, err), SplitLines(cfg.fs[path]));
      LoadOutcome(true, Attrib(st.v, st.vn, st.vt), Finish(st), st.materials, st.err)
  }

  /* ---------- properties ---------- */

  /** Warnings are only ever appended. */
  lemma {:induction false} ObjLinesKeepErrPrefix(cfg: Config, st: ObjState, lines: seq<string>)
    requires Pending(st) && forall i :: 0 <= i < |lines| ==> FaceArity(lines[i])
    ensures st.err <= ObjLines(cfg, st, lines).err
    decreases |lines|
  {
    if lines != [] {
      var s1 := ObjLine(cfg, st, lines[0]);
      ExecKeepsErrPrefix(cfg, st, Classify(lines[0]));
      ObjLinesKeepErrPrefix(cfg, s1, lines[1..]);
    }
  }

  lemma ExecKeepsErrPrefix(cfg: Config, st: ObjState, s: Statement)
    requires Pending(st) && Sound(s)
    ensures st.err <= Exec(cfg, st, s).err
  {
  }

  /** A triangulated mesh as every flush leaves it: three corners and one
      `3` per triangle, and one material id, -1 or a table index, shared by
      all its triangles. */
  ghost predicate WellFormed(m: Mesh, count: int)
  {
    |m.indices| == 3 * |m.numFaceVertices| && |m.materialIds| == |m.numFaceVertices|
    && (forall i :: 0 <= i < |m.numFaceVertices| ==> m.numFaceVertices[i] == 3)
    && (forall i :: 0 <= i < |m.materialIds| ==> m.materialIds[i] == m.materialIds[0] && -1 <= m.materialIds[i] < count)
  }

  /** The loop invariant: whole coordinate triples and pairs, resolvable
      material ids, and well-formed shapes. */
  ghost predicate Consistent(st: ObjState)
  {
    && Pending(st) && MapSound(st.materials, st.matMap) && -1 <= st.material < |st.materials|
    && |st.v| % 3 == 0 && |st.vn| % 3 == 0 && |st.vt| % 2 == 0
    && forall i :: 0 <= i < |st.shapes| ==> WellFormed(st.shapes[i].mesh, |st.materials|)
  }

  lemma TriangulateWellFormed(faces: seq<seq<VertexIndex>>, material: int, count: int)
    requires forall i :: 0 <= i < |faces| ==> |faces[i]| >= 2
    requires -1 <= material < count
    ensures WellFormed(Triangulate(faces, material), count)
  {
  }

  lemma FlushConsistent(st: ObjState)
    requires Consistent(st)
    ensures Consistent(Flush(st))
  {
    if st.faceGroup != [] {
      TriangulateWellFormed(st.faceGroup, st.material, |st.materials|);
    }
  }

  lemma {:induction false} TryMtlKeepsSound(sc: NumberScan, fs: FileSystem, files: seq<string>,
                                            ms: seq<Material>, m: map<string, int>)
    requires MapSound(ms, m)
    ensures var r := TryMtl(sc, fs, files, ms, m); MapSound(r.materials, r.matMap)
    decreases |files|
  {
    if files != [] {
      ReadMtlKeepsSound(sc, fs, files[0], ms, m);
      TryMtlKeepsSound(sc, fs, files[1..], ms, m);
    }
  }

  lemma {:induction false} TryMtlKeepsFirstIndex(sc: NumberScan, fs: FileSystem, files: seq<string>,
                                                 ms: seq<Material>, m: map<string, int>)
    requires FirstIndexMap(ms, m)
    ensures var r := TryMtl(sc, fs, files, ms, m); FirstIndexMap(r.materials, r.matMap)
    decreases |files|
  {
    if files != [] {
      ReadMtlKeepsFirstIndex(sc, fs, files[0], ms, m);
      TryMtlKeepsFirstIndex(sc, fs, files[1..], ms, m);
    }
  }

  /** Every statement keeps the loop invariant. */
  lemma ExecConsistent(cfg: Config, st: ObjState, s: Statement)
    requires Consistent(st) && Sound(s)
    ensures Consistent(Exec(cfg, st, s))
  {
    match s
    case Ignored =>
    case Position(args) => PositionConsistent(cfg, st, args);
    case Normal(args) => NormalConsistent(cfg, st, args);
    case TexCoord(args) => TexCoordConsistent(cfg, st, args);
    case Face(refs) => FaceConsistent(cfg, st, refs);
    case UseMtl(args) => SelectConsistent(cfg, st, args);
    case MtlLib(args) => MtlLibConsistent(cfg, st, args);
    case Group(token) => GroupConsistent(cfg, st, token);
    case Object(args) => ObjectConsistent(cfg, st, args);
  }

  /** A `v` line only grows the positions, by a whole triple. */
  lemma PositionConsistent(cfg: Config, st: ObjState, args: string)
    requires Consistent(st)
    ensures Consistent(Exec(cfg, st, Position(args)))
  {
    var p := cfg.sc.reals(args);
    assert |st.v + [p.x, p.y, p.z]| == |st.v| + 3;
  }

  /** A `vn` line only grows the normals, by a whole triple. */
  lemma NormalConsistent(cfg: Config, st: ObjState, args: string)
    requires Consistent(st)
    ensures Consistent(Exec(cfg, st, Normal(args)))
  {
    var p := cfg.sc.reals(args);
    assert |st.vn + [p.x, p.y, p.z]| == |st.vn| + 3;
  }

  /** A `vt` line only grows the texture coordinates, by a whole pair. */
  lemma TexCoordConsistent(cfg: Config, st: ObjState, args: string)
    requires Consistent(st)
    ensures Consistent(Exec(cfg, st, TexCoord(args)))
  {
    var p := cfg.sc.reals(args);
    assert |st.vt + [p.x, p.y]| == |st.vt| + 2;
  }

  /** An `f` line with at least two corners only adds a pending face. */
  lemma FaceConsistent(cfg: Config, st: ObjState, refs: seq<RawRef>)
    requires Consistent(st) && |refs| >= 2
    ensures Consistent(Exec(cfg, st, Face(refs)))
  {
    PendingFace(st, ResolveAll(refs, |st.v| / 3, |st.vt| / 2, |st.vn| / 3));
  }

  /** Appending a face of at least two corners keeps the invariant. */
  lemma PendingFace(st: ObjState, face: seq<VertexIndex>)
    requires Consistent(st) && |face| >= 2
    ensures Consistent(st.(faceGroup := st.faceGroup + [face]))
  {
    var g := st.faceGroup + [face];
    assert forall i :: 0 <= i < |st.faceGroup| ==> g[i] == st.faceGroup[i];
    assert g[|st.faceGroup|] == face;
  }

  /** `usemtl` selects an id inside the table, or -1. */
  lemma SelectConsistent(cfg: Config, st: ObjState, args: string)
    requires Consistent(st)
    ensures Consistent(Exec(cfg, st, UseMtl(args)))
  {
    FlushConsistent(st);
    var name := Word(args);
    var newId := if name in st.matMap then st.matMap[name] else -1;
    assert -1 <= newId < |st.materials|;
  }

  /** `g` flushes and renames; nothing else the invariant constrains changes. */
  lemma GroupConsistent(cfg: Config, st: ObjState, token: string)
    requires Consistent(st)
    ensures Consistent(Exec(cfg, st, Group(token)))
  {
    FlushConsistent(st);
  }

  /** `o` flushes and renames, like `g`. */
  lemma ObjectConsistent(cfg: Config, st: ObjState, args: string)
    requires Consistent(st)
    ensures Consistent(Exec(cfg, st, Object(args)))
  {
    FlushConsistent(st);
  }

  /** An `mtllib` line keeps the invariant. */
  lemma MtlLibConsistent(cfg: Config, st: ObjState, args: string)
    requires Consistent(st)
    ensures Consistent(Exec(cfg, st, MtlLib(args)))
  {
    LibrariesConsistent(cfg, st, args);
  }

  /** `mtllib` only grows the table, so every mesh stays well-formed. */
  lemma LibrariesConsistent(cfg: Config, st: ObjState, args: string)
    requires Consistent(st)
    ensures Consistent(LoadLibraries(cfg, st, args))
  {
    var files := LibraryFiles(cfg.baseDir, args);
    if files != [] {
      TryMtlKeepsSound(cfg.sc, cfg.fs, files, st.materials, st.matMap);
      var st' := LoadLibraries(cfg, st, args);
      assert |st'.materials| >= |st.materials|;
      forall i | 0 <= i < |st'.shapes|
        ensures WellFormed(st'.shapes[i].mesh, |st'.materials|)
      {
        WellFormedWiden(st.shapes[i].mesh, |st.materials|, |st'.materials|);
      }
    }
  }

  /** A mesh well-formed for a table stays so for a larger one. */
  lemma WellFormedWiden(m: Mesh, count: int, count': int)
    requires WellFormed(m, count) && count <= count'
    ensures WellFormed(m, count')
  {
  }

  lemma {:induction false} ObjLinesConsistent(cfg: Config, st: ObjState, lines: seq<string>)
    requires Consistent(st) && forall i :: 0 <= i < |lines| ==> FaceArity(lines[i])
    ensures Consistent(ObjLines(cfg, st, lines))
    decreases |lines|
  {
    if lines != [] {
      ExecConsistent(cfg, st, Classify(lines[0]));
      ObjLinesConsistent(cfg, ObjLine(cfg, st, lines[0]), lines[1..]);
    }
  }

  /** A successful load yields whole coordinate triples (pairs for texture
      coordinates), a table that extends the one passed in, and shapes whose
      meshes are triangle lists with one material id, -1 or a table index,
      shared by all their triangles. */
  lemma LoadObjWellFormed(cfg: Config, path: string, materials: seq<Material>, err: string)
    requires Loadable(cfg.fs, path) && path in cfg.fs
    ensures var r := LoadObj(cfg, path, materials, err);
            && |r.attrib.vertices| % 3 == 0 && |r.attrib.normals| % 3 == 0 && |r.attrib.texcoords| % 2 == 0
            && |r.materials| >= |materials| && r.materials[..|materials|] == materials
            && forall i :: 0 <= i < |r.shapes| ==> WellFormed(r.shapes[i].mesh, |r.materials|)
  {
    var lines := SplitLines(cfg.fs[path]);
    var st0 := Start(materials, err);
    ObjLinesConsistent(cfg, st0, lines);
    ObjLinesExtendTable(cfg, st0, lines);
    var st := ObjLines(cfg, st0, lines);
    FinishWellFormed(st);
  }

  /** The shapes at end of file, the last one included, are well-formed
      for the table. */
  lemma FinishWellFormed(st: ObjState)
    requires Consistent(st)
    ensures forall i :: 0 <= i < |Finish(st)| ==> WellFormed(Finish(st)[i].mesh, |st.materials|)
  {
    if st.faceGroup != [] {
      TriangulateWellFormed(st.faceGroup, st.material, |st.materials|);
    }
  }

  lemma ExecExtendsTable(cfg: Config, st: ObjState, s: Statement)
    requires Pending(st) && Sound(s)
    ensures st.materials <= Exec(cfg, st, s).materials
  {
  }

  lemma {:induction false} ObjLinesExtendTable(cfg: Config, st: ObjState, lines: seq<string>)
    requires Pending(st) && forall i :: 0 <= i < |lines| ==> FaceArity(lines[i])
    ensures st.materials <= ObjLines(cfg, st, lines).materials
    decreases |lines|
  {
    if lines != [] {
      ExecExtendsTable(cfg, st, Classify(lines[0]));
      ObjLinesExtendTable(cfg, ObjLine(cfg, st, lines[0]), lines[1..]);
    }
  }

  /* ----- the end-of-file shape ----- */

  lemma {:induction false} NoFacesNoShapes(cfg: Config, st: ObjState, lines: seq<string>)
    requires Pending(st) && st.faceGroup == []
    requires forall i :: 0 <= i < |lines| ==> !Classify(lines[i]).Face?
    ensures ObjLines(cfg, st, lines).faceGroup == [] && ObjLines(cfg, st, lines).shapes == st.shapes
    decreases |lines|
  {
    if lines != [] {
      ExecWithoutFaces(cfg, st, Classify(lines[0]));
      NoFacesNoShapes(cfg, ObjLine(cfg, st, lines[0]), lines[1..]);
    }
  }

  lemma ExecWithoutFaces(cfg: Config, st: ObjState, s: Statement)
    requires Pending(st) && st.faceGroup == [] && !s.Face?
    ensures Exec(cfg, st, s).faceGroup == [] && Exec(cfg, st, s).shapes == st.shapes
  {
  }

  /** A file without face lines still produces one shape: the nameless
      empty one appended at the end of the file. */
  lemma LoadObjWithoutFaces(cfg: Config, path: string, materials: seq<Material>, err: string)
    requires path in cfg.fs
    requires forall i :: 0 <= i < |SplitLines(cfg.fs[path])| ==> !Classify(SplitLines(cfg.fs[path])[i]).Face?
    ensures Loadable(cfg.fs, path)
    ensures LoadObj(cfg, path, materials, err).shapes == [Shape("", EmptyMesh)]
  {
    NoFacesNoShapes(cfg, Start(materials, err), SplitLines(cfg.fs[path]));
  }

  /** With pending faces the end of the file flushes them like `g` does,
      except that a group yielding no triangle is dropped; with none pending
      the nameless empty shape is appended. */
  lemma FinishShapes(st: ObjState)
    requires Pending(st)
    ensures st.faceGroup == [] ==> Finish(st) == st.shapes + [Shape("", EmptyMesh)]
    ensures st.faceGroup != [] && Triangles(st.faceGroup) > 0 ==> Finish(st) == Flush(st).shapes
    ensures st.faceGroup != [] && Triangles(st.faceGroup) == 0 ==> Finish(st) == st.shapes
  {
  }

  /* ----- material lookup ----- */

  lemma ExecKeepsFirstIndex(cfg: Config, st: ObjState, s: Statement)
    requires Pending(st) && Sound(s) && FirstIndexMap(st.materials, st.matMap)
    ensures var st' := Exec(cfg, st, s); FirstIndexMap(st'.materials, st'.matMap)
  {
    if s.MtlLib? {
      var files := LibraryFiles(cfg.baseDir, s.args);
      if files != [] {
        TryMtlKeepsFirstIndex(cfg.sc, cfg.fs, files, st.materials, st.matMap);
      }
    }
  }

  lemma {:induction false} ObjLinesKeepFirstIndex(cfg: Config, st: ObjState, lines: seq<string>)
    requires Pending(st) && forall i :: 0 <= i < |lines| ==> FaceArity(lines[i])
    requires FirstIndexMap(st.materials, st.matMap)
    ensures var st' := ObjLines(cfg, st, lines); FirstIndexMap(st'.materials, st'.matMap)
    decreases |lines|
  {
    if lines != [] {
      ExecKeepsFirstIndex(cfg, st, Classify(lines[0]));
      ObjLinesKeepFirstIndex(cfg, ObjLine(cfg, st, lines[0]), lines[1..]);
    }
  }

  /** With the map built by the MTL reader, `usemtl` selects the FIRST
      material of that name, and -1 exactly when no material has it. */
  lemma SelectMaterialFindsFirst(st: ObjState, name: string)
    requires Pending(st) && FirstIndexMap(st.materials, st.matMap)
    ensures var id := SelectMaterial(st, name).material;
            && (id == -1 <==> forall j :: 0 <= j < |st.materials| ==> st.materials[j].name != name)
            && (id != -1 ==> 0 <= id < |st.materials| && st.materials[id].name == name
                             && forall j :: 0 <= j < id ==> st.materials[j].name != name)
  {
  }

  /* ----- the face grammar ----- */

  lemma SignedChars(n: int)
    ensures |Signed(n)| > 0
    ensures forall i :: 0 <= i < |Signed(n)| ==> IsDigit(Signed(n)[i]) || Signed(n)[i] == '-'
  {
  }

  /** `strcspn` stops exactly at the end of a stop-free prefix followed by a stop. */
  lemma CSpanUpTo(a: string, tail: string, stops: set<char>)
    requires forall i :: 0 <= i < |a| ==> a[i] !in stops
    requires tail == [] || tail[0] in stops
    ensures CSpan(a + tail, stops) == |a|
  {
    var s := a + tail;
    assert forall i :: 0 <= i < |a| ==> s[i] == a[i];
    assert |s| > |a| ==> s[|a|] == tail[0];
  }

  /** The text of an integer read back by `atoi` and delimited by `strcspn`. */
  lemma ReadNumber(n: int, tail: string)
    requires tail == [] || tail[0] in RefStops
    ensures Slot(Signed(n) + tail) == (n, tail)
  {
    SignedStopFree(n);
    AtoiDecimal(n, tail);
    CSpanUpTo(Signed(n), tail, RefStops);
    assert (Signed(n) + tail)[|Signed(n)|..] == tail;
  }

  /** The text of an integer holds none of the characters that end a slot. */
  lemma SignedStopFree(n: int)
    ensures forall i :: 0 <= i < |Signed(n)| ==> Signed(n)[i] !in RefStops
  {
    SignedChars(n);
    forall i | 0 <= i < |Signed(n)|
      ensures Signed(n)[i] !in RefStops
    {
      assert IsDigit(Signed(n)[i]) || Signed(n)[i] == '-';
    }
  }

  /** `/j` followed by a stop: the slot after the slash reads `j`. */
  lemma AfterSlash(j: int, rest: string, tail: string)
    requires rest == [] || rest[0] in RefStops
    requires tail == "/" + Signed(j) + rest
    ensures At(tail, 0) == '/' && At(tail, 1) != '/' && Slot(tail[1..]) == (j, rest)
  {
    SignedChars(j);
    assert tail[1..] == Signed(j) + rest;
    ReadNumber(j, rest);
  }

  /** `//k` followed by a stop: the slot after both slashes reads `k`. */
  lemma AfterDoubleSlash(k: int, rest: string, tail: string)
    requires rest == [] || rest[0] in RefStops
    requires tail == "//" + Signed(k) + rest
    ensures At(tail, 0) == '/' && At(tail, 1) == '/' && Slot(tail[2..]) == (k, rest)
  {
    assert tail[2..] == Signed(k) + rest;
    ReadNumber(k, rest);
  }

  lemma PositionSteps(t: string, v: int, tail: string)
    requires t != [] && t[0] !in BlanksCr && Slot(t) == (v, tail)
    requires At(tail, 0) != '/'
    ensures ParseRef(t) == (RawRef(v, None, None), tail)
  {
  }

  lemma PositionNormalSteps(t: string, v: int, k: int, tail: string, rest: string)
    requires t != [] && t[0] !in BlanksCr && Slot(t) == (v, tail)
    requires At(tail, 0) == '/' && At(tail, 1) == '/' && Slot(tail[2..]) == (k, rest)
    ensures ParseRef(t) == (RawRef(v, None, Some(k)), rest)
  {
  }

  lemma PositionTextureSteps(t: string, v: int, j: int, tail: string, rest: string)
    requires t != [] && t[0] !in BlanksCr && Slot(t) == (v, tail)
    requires At(tail, 0) == '/' && At(tail, 1) != '/' && Slot(tail[1..]) == (j, rest)
    requires At(rest, 0) != '/'
    ensures ParseRef(t) == (RawRef(v, Some(j), None), rest)
  {
  }

  lemma FullRefSteps(t: string, v: int, j: int, k: int, tail: string, tail2: string, rest: string)
    requires t != [] && t[0] !in BlanksCr && Slot(t) == (v, tail)
    requires At(tail, 0) == '/' && At(tail, 1) != '/' && Slot(tail[1..]) == (j, tail2)
    requires At(tail2, 0) == '/' && Slot(tail2[1..]) == (k, rest)
    ensures ParseRef(t) == (RawRef(v, Some(j), Some(k)), rest)
  {
  }

  /** Each of the four reference forms parses back to the slots it was written from. */
  lemma ParseRefText(r: RawRef, rest: string)
    requires rest == [] || rest[0] == ' '
    ensures ParseRef(RefText(r) + rest) == (r, rest)
  {
    var tail := SlotsText(r.vt, r.vn) + rest;
    var t := Signed(r.v) + tail;
    assert RefText(r) + rest == t;
    SignedChars(r.v);
    assert t[0] == Signed(r.v)[0];
    ReadNumber(r.v, tail);
    if r.vt.None? && r.vn.None? {
      PositionSteps(t, r.v, tail);
    } else if r.vt.None? {
      ParseNormalSlot(r, rest, t, tail);
    } else if r.vn.None? {
      ParseTextureSlot(r, rest, t, tail);
    } else {
      ParseBothSlots(r, rest, t, tail);
    }
  }

  lemma ParseNormalSlot(r: RawRef, rest: string, t: string, tail: string)
    requires rest == [] || rest[0] == ' '
    requires r.vt.None? && r.vn.Some?
    requires tail == SlotsText(r.vt, r.vn) + rest
    requires t != [] && t[0] !in BlanksCr && Slot(t) == (r.v, tail)
    ensures ParseRef(t) == (r, rest)
  {
    AfterDoubleSlash(r.vn.value, rest, tail);
    PositionNormalSteps(t, r.v, r.vn.value, tail, rest);
  }

  lemma ParseTextureSlot(r: RawRef, rest: string, t: string, tail: string)
    requires rest == [] || rest[0] == ' '
    requires r.vt.Some? && r.vn.None?
    requires tail == SlotsText(r.vt, r.vn) + rest
    requires t != [] && t[0] !in BlanksCr && Slot(t) == (r.v, tail)
    ensures ParseRef(t) == (r, rest)
  {
    AfterSlash(r.vt.value, rest, tail);
    PositionTextureSteps(t, r.v, r.vt.value, tail, rest);
  }

  lemma ParseBothSlots(r: RawRef, rest: string, t: string, tail: string)
    requires rest == [] || rest[0] == ' '
    requires r.vt.Some? && r.vn.Some?
    requires tail == SlotsText(r.vt, r.vn) + rest
    requires t != [] && t[0] !in BlanksCr && Slot(t) == (r.v, tail)
    ensures ParseRef(t) == (r, rest)
  {
    var j, k := r.vt.value, r.vn.value;
    var tail2 := "/" + Signed(k) + rest;
    BothSlotsText(j, k, rest);
    AfterSlash(j, tail2, tail);
    AfterSlash(k, rest, tail2);
    FullRefSteps(t, r.v, j, k, tail, tail2, rest);
  }

  /** `/j/k` then `rest`, regrouped around the second slash. */
  lemma BothSlotsText(j: int, k: int, rest: string)
    ensures SlotsText(Some(j), Some(k)) + rest == "/" + Signed(j) + ("/" + Signed(k) + rest)
  {
    var a, b := "/" + Signed(j), "/" + Signed(k);
    assert SlotsText(Some(j), Some(k)) == a + b;
    assert (a + b) + rest == a + (b + rest);
  }

  lemma RefTextStart(r: RawRef)
    ensures |RefText(r)| > 0 && (IsDigit(RefText(r)[0]) || RefText(r)[0] == '-')
  {
    SignedChars(r.v);
  }

  lemma ParseRefsStep(t: string, r: RawRef, rest: string, more: string)
    requires t != [] && t[0] !in BlanksCr && t[0] !in {'\r', '\n', '\0'}
    requires ParseRef(t) == (r, rest) && SkipAll(rest, BlanksCr) == more
    ensures ParseRefs(t) == [r] + ParseRefs(more)
  {
  }

  lemma SkipOneSpace(more: string)
    requires more == [] || more[0] !in BlanksCr
    ensures SkipAll(" " + more, BlanksCr) == more
  {
    var s := " " + more;
    assert s[1..] == more;
    assert |s| > 1 ==> s[1] == more[0];
  }

  lemma RefStartChar(c: char)
    requires IsDigit(c) || c == '-'
    ensures c !in BlanksCr && c !in {'\r', '\n', '\0'}
  {
  }

  /** One reference, the separator `rest` that blank skipping removes, and more references. */
  lemma ParseConsText(r: RawRef, more: string, t: string, rest: string)
    requires t == RefText(r) + rest
    requires rest != [] && rest[0] == ' ' && SkipAll(rest, BlanksCr) == more
    requires more == [] || IsDigit(more[0]) || more[0] == '-'
    ensures ParseRefs(t) == [r] + ParseRefs(more)
  {
    RefTextStart(r);
    assert t[0] == RefText(r)[0];
    RefStartChar(t[0]);
    ParseRefText(r, rest);
    ParseRefsStep(t, r, rest, more);
  }

  lemma ParseSingleRef(r: RawRef)
    ensures ParseRefs(RefText(r)) == [r]
  {
    var t := RefText(r);
    RefTextStart(r);
    RefStartChar(t[0]);
    assert t == RefText(r) + [];
    ParseRefText(r, []);
    ParseRefsStep(t, r, [], []);
  }

  lemma ParseFaceCons(r: RawRef, tailRefs: seq<RawRef>, more: string, t: string)
    requires more == [] || IsDigit(more[0]) || more[0] == '-'
    requires ParseRefs(more) == tailRefs
    requires t == RefText(r) + (" " + more)
    ensures t != [] && (IsDigit(t[0]) || t[0] == '-')
    ensures ParseRefs(t) == [r] + tailRefs
  {
    var rest := " " + more;
    RefTextStart(r);
    assert t[0] == RefText(r)[0];
    SkipOneSpace(more);
    ParseConsText(r, more, t, rest);
  }

  lemma FaceTextCons(refs: seq<RawRef>)
    requires |refs| > 1
    ensures FaceText(refs) == RefText(refs[0]) + (" " + FaceText(refs[1..]))
  {
  }

  lemma ParseFaceStep(refs: seq<RawRef>)
    requires |refs| > 1
    requires FaceText(refs[1..]) == [] || IsDigit(FaceText(refs[1..])[0]) || FaceText(refs[1..])[0] == '-'
    requires ParseRefs(FaceText(refs[1..])) == refs[1..]
    ensures FaceText(refs) == [] || IsDigit(FaceText(refs)[0]) || FaceText(refs)[0] == '-'
    ensures ParseRefs(FaceText(refs)) == refs
  {
    FaceTextCons(refs);
    ParseFaceCons(refs[0], refs[1..], FaceText(refs[1..]), FaceText(refs));
    assert [refs[0]] + refs[1..] == refs;
  }

  /** The face grammar and the face text agree: a face written with single
      spaces parses back to exactly its references. */
  lemma {:induction false} ParseFaceText(refs: seq<RawRef>)
    ensures FaceText(refs) == [] || IsDigit(FaceText(refs)[0]) || FaceText(refs)[0] == '-'
    ensures ParseRefs(FaceText(refs)) == refs
    decreases |refs|
  {
    if |refs| == 1 {
      RefTextStart(refs[0]);
      ParseSingleRef(refs[0]);
    } else if |refs| > 1 {
      ParseFaceText(refs[1..]);
      ParseFaceStep(refs);
    }
  }

  /* ----- whole lines ----- */

  /** Text a line of the file can hold: no NUL, CR or LF. */
  predicate LineText(s: string)
  {
    '\0' !in s && NoTerminator(s)
  }

  lemma LineToken(line: string)
    requires LineText(line) && line != [] && line[0] !in Blanks
    ensures ObjToken(line) == line
  {
    TrimNewlineNoOp(line);
    CStrNoNul(line);
  }

  lemma SignedIsLineText(n: int)
    ensures LineText(Signed(n))
  {
    SignedChars(n);
  }

  lemma RefTextIsLineText(r: RawRef)
    ensures LineText(RefText(r))
  {
    SignedIsLineText(r.v);
    if r.vt.Some? { SignedIsLineText(r.vt.value); }
    if r.vn.Some? { SignedIsLineText(r.vn.value); }
  }

  lemma {:induction false} FaceTextIsLineText(refs: seq<RawRef>)
    ensures LineText(FaceText(refs))
    decreases |refs|
  {
    if |refs| == 1 {
      RefTextIsLineText(refs[0]);
    } else if |refs| > 1 {
      RefTextIsLineText(refs[0]);
      FaceTextIsLineText(refs[1..]);
      FaceTextCons(refs);
    }
  }

  /** A face line written out from references is read back as a face with
      exactly those references. */
  lemma ClassifyFace(refs: seq<RawRef>)
    ensures Classify("f " + FaceText(refs)) == Face(refs)
  {
    var line := "f " + FaceText(refs);
    FaceTextIsLineText(refs);
    LineTextAppend("f ", FaceText(refs));
    LineToken(line);
    assert line[2..] == FaceText(refs);
    ClassifyFaceToken(line, line);
    FaceRefsText(refs);
  }

  /** The blanks skipped after `f` are none, and the references read back. */
  lemma FaceRefsText(refs: seq<RawRef>)
    ensures FaceRefs(FaceText(refs)) == refs
  {
    var t := FaceText(refs);
    ParseFaceText(refs);
    if t != [] {
      assert t[0] !in Blanks;
      assert Span(t, Blanks) == 0;
    }
    assert SkipAll(t, Blanks) == t;
  }

  /** Two texts free of NUL and terminators concatenate to one. */
  lemma LineTextAppend(a: string, b: string)
    requires LineText(a) && LineText(b)
    ensures LineText(a + b)
  {
    forall c | c in a + b
      ensures c != '\0' && c != '\n' && c != '\r'
    {
      assert c in a || c in b;
    }
  }

  lemma ClassifyFaceToken(line: string, token: string)
    requires ObjToken(line) == token && |token| >= 2 && token[0] == 'f' && token[1] == ' '
    ensures Classify(line) == Face(FaceRefs(token[2..]))
  {
    NotKeyword(token, "usemtl");
    NotKeyword(token, "mtllib");
  }

  lemma ClassifyObjectToken(line: string, token: string)
    requires ObjToken(line) == token && |token| >= 2 && token[0] == 'o' && token[1] == ' '
    ensures Classify(line) == Object(token[2..])
  {
    NotKeyword(token, "usemtl");
    NotKeyword(token, "mtllib");
  }

  /** A face line appends one face whose references are resolved with
      `fixIndex` against the positions, texture coordinates and normals
      defined so far; a slot the reference leaves out (`i`, `i//k`, `i/j`)
      stays -1. */
  lemma FaceLine(cfg: Config, st: ObjState, refs: seq<RawRef>)
    requires Pending(st) && |refs| >= 2
    ensures FaceArity("f " + FaceText(refs))
    ensures var st' := ObjLine(cfg, st, "f " + FaceText(refs));
            && st' == st.(faceGroup := st'.faceGroup)
            && |st'.faceGroup| == |st.faceGroup| + 1 && st'.faceGroup[..|st.faceGroup|] == st.faceGroup
            && var face := st'.faceGroup[|st.faceGroup|];
            && |face| == |refs|
            && forall i :: 0 <= i < |refs| ==>
                 && face[i].v == FixIndex(refs[i].v, |st.v| / 3)
                 && face[i].vt == (if refs[i].vt.Some? then FixIndex(refs[i].vt.value, |st.vt| / 2) else -1)
                 && face[i].vn == (if refs[i].vn.Some? then FixIndex(refs[i].vn.value, |st.vn| / 3) else -1)
  {
    ClassifyFace(refs);
  }

  /** A `usemtl` line names the material by the first word after the
      keyword, whatever blanks precede it and whatever follows it. */
  lemma ClassifyUseMtl(pre: string, name: string, rest: string)
    requires forall i :: 0 <= i < |pre| ==> pre[i] in CSpace
    requires name != [] && forall i :: 0 <= i < |name| ==> name[i] !in CSpace && name[i] != '\0'
    requires LineText(pre) && LineText(rest) && (rest == [] || rest[0] in CSpace)
    ensures Classify("usemtl " + (pre + name + rest)) == UseMtl(pre + name + rest)
    ensures Word(pre + name + rest) == name
  {
    var args := pre + name + rest;
    PlainWordIsLineText(name);
    LineTextAppend(pre, name);
    LineTextAppend(pre + name, rest);
    UseMtlLine(args);
    WordFirst(pre, name, rest);
  }

  /** Any `usemtl` line is classified with the text after the keyword. */
  lemma UseMtlLine(args: string)
    requires LineText(args)
    ensures Classify("usemtl " + args) == UseMtl(args)
  {
    var line := "usemtl " + args;
    LineTextAppend("usemtl ", args);
    LineToken(line);
    ClassifyUseMtlToken(line, args);
  }

  lemma ClassifyUseMtlToken(token: string, name: string)
    requires token == "usemtl " + name && ObjToken(token) == token
    ensures Classify(token) == UseMtl(name)
  {
    assert token[..6] == "usemtl";
    assert token[7..] == name;
  }

  lemma PlainWordIsLineText(w: string)
    requires forall i :: 0 <= i < |w| ==> w[i] !in CSpace && w[i] != '\0'
    ensures LineText(w)
  {
    forall c | c in w
      ensures c != '\0' && c != '\n' && c != '\r'
    {
      var i :| 0 <= i < |w| && w[i] == c;
    }
  }

  /** An `o` line names the object by its first word, whatever blanks
      precede it and whatever follows it. */
  lemma ClassifyObject(pre: string, name: string, rest: string)
    requires forall i :: 0 <= i < |pre| ==> pre[i] in CSpace
    requires name != [] && forall i :: 0 <= i < |name| ==> name[i] !in CSpace && name[i] != '\0'
    requires LineText(pre) && LineText(rest) && (rest == [] || rest[0] in CSpace)
    ensures Classify("o " + (pre + name + rest)) == Object(pre + name + rest)
    ensures Word(pre + name + rest) == name
  {
    var args := pre + name + rest;
    PlainWordIsLineText(name);
    LineTextAppend(pre, name);
    LineTextAppend(pre + name, rest);
    ObjectLine(args);
    WordFirst(pre, name, rest);
  }

  /** Any `o` line is classified with the text after `o `. */
  lemma ObjectLine(args: string)
    requires LineText(args)
    ensures Classify("o " + args) == Object(args)
  {
    var line := "o " + args;
    assert line[2..] == args;
    LineTextAppend("o ", args);
    LineToken(line);
    ClassifyObjectToken(line, line);
  }

  /* ----- word lists ----- */

  /** Words written out separated by single spaces. */
  function JoinSpaces(words: seq<string>): string
  {
    if words == [] then [] else if |words| == 1 then words[0]
    else words[0] + " " + JoinSpaces(words[1..])
  }

  lemma JoinSpacesCons(words: seq<string>)
    requires |words| > 1
    ensures JoinSpaces(words) == words[0] + (" " + JoinSpaces(words[1..]))
  {
  }

  lemma SplitSpacesStep(t: string, w: string, more: string)
    requires ' ' !in w && t == w + (" " + more)
    ensures SplitSpaces(t) == [w] + SplitSpaces(more)
  {
    CSpanUpTo(w, " " + more, {' '});
    assert t[..|w|] == w && t[|w| + 1..] == more;
  }

  /** `getline` on spaces undoes the joining of words that hold no space,
      provided the last one is not empty (a trailing space yields no piece). */
  lemma {:induction false} SplitJoinSpaces(words: seq<string>)
    requires forall i :: 0 <= i < |words| ==> ' ' !in words[i]
    requires words != [] ==> words[|words| - 1] != []
    ensures SplitSpaces(JoinSpaces(words)) == words
    decreases |words|
  {
    if |words| == 1 {
      CSpanUpTo(words[0], [], {' '});
      assert words[0] + [] == words[0];
    } else if |words| > 1 {
      SplitJoinSpaces(words[1..]);
      JoinSpacesCons(words);
      SplitSpacesStep(JoinSpaces(words), words[0], JoinSpaces(words[1..]));
      assert [words[0]] + words[1..] == words;
    }
  }

  /** A word as `sscanf("%s")` or the `g` word loop delimits it. */
  predicate PlainWord(w: string)
  {
    w != [] && forall i :: 0 <= i < |w| ==> w[i] !in CSpace && w[i] != '\0'
  }

  lemma GroupWordsLast(w: string)
    requires PlainWord(w)
    ensures GroupWords(w) == [w]
  {
    CSpanUpTo(w, [], BlanksCr);
    assert w + [] == w;
    assert w[|w|..] == [];
  }

  lemma GroupWordsStep(t: string, w: string, more: string)
    requires PlainWord(w) && t == w + (" " + more)
    requires more == [] || more[0] !in BlanksCr
    ensures GroupWords(t) == [w] + GroupWords(more)
  {
    CSpanUpTo(w, " " + more, BlanksCr);
    assert t[0] == w[0];
    assert SkipAll(t, Blanks) == t;
    assert t[..|w|] == w && t[|w|..] == " " + more;
    SkipOneSpace(more);
  }

  /** The `g` word loop undoes the joining of plain words. */
  lemma {:induction false} GroupWordsJoin(words: seq<string>)
    requires forall i :: 0 <= i < |words| ==> PlainWord(words[i])
    ensures GroupWords(JoinSpaces(words)) == words
    decreases |words|
  {
    if |words| == 1 {
      GroupWordsLast(words[0]);
    } else if |words| > 1 {
      GroupWordsJoin(words[1..]);
      GroupWordsCons(words[0], words[1..]);
      assert [words[0]] + words[1..] == words;
    }
  }

  /** One more word in front of a joined list that already splits back. */
  lemma GroupWordsCons(w: string, tail: seq<string>)
    requires PlainWord(w) && tail != [] && PlainWord(tail[0])
    requires GroupWords(JoinSpaces(tail)) == tail
    ensures GroupWords(JoinSpaces([w] + tail)) == [w] + tail
  {
    var words := [w] + tail;
    assert words[1..] == tail;
    var more := JoinSpaces(tail);
    JoinSpacesCons(words);
    JoinSpacesHead(tail);
    assert more[0] !in BlanksCr;
    GroupWordsStep(JoinSpaces(words), w, more);
  }

  lemma JoinSpacesHead(words: seq<string>)
    requires words != [] && words[0] != []
    ensures JoinSpaces(words) != [] && JoinSpaces(words)[0] == words[0][0]
  {
  }

  lemma ClassifyGroupToken(line: string, token: string)
    requires ObjToken(line) == token && |token| >= 2 && token[0] == 'g' && token[1] == ' '
    ensures Classify(line) == Group(token)
  {
    NotKeyword(token, "usemtl");
    NotKeyword(token, "mtllib");
  }

  /** A `g` line names the group by its second word (the first is `g`
      itself); any further words are dropped. */
  lemma ClassifyGroup(words: seq<string>)
    requires words != [] && forall i :: 0 <= i < |words| ==> PlainWord(words[i])
    ensures Classify("g " + JoinSpaces(words)) == Group("g " + JoinSpaces(words))
    ensures GroupName("g " + JoinSpaces(words)) == words[0]
  {
    var all := ["g"] + words;
    var line := "g " + JoinSpaces(words);
    GroupLineFacts(words, all, line);
    GroupLine(line, all);
  }

  lemma GroupLineFacts(words: seq<string>, all: seq<string>, line: string)
    requires words != [] && forall i :: 0 <= i < |words| ==> PlainWord(words[i])
    requires all == ["g"] + words && line == "g " + JoinSpaces(words)
    ensures GroupWords(line) == all && LineText(line) && |all| > 1 && all[0] == "g" && all[1] == words[0]
    ensures line == "g" + (" " + JoinSpaces(all[1..]))
  {
    assert all[1..] == words;
    assert PlainWord(all[0]);
    assert forall i :: 1 <= i < |all| ==> all[i] == words[i - 1];
    JoinSpacesCons(all);
    assert JoinSpaces(all) == line;
    GroupWordsJoin(all);
    JoinSpacesLineText(all);
  }

  lemma GroupLine(line: string, all: seq<string>)
    requires |all| > 1 && all[0] == "g" && GroupWords(line) == all
    requires LineText(line) && line == "g" + (" " + JoinSpaces(all[1..]))
    ensures Classify(line) == Group(line) && GroupName(line) == all[1]
  {
    LineToken(line);
    ClassifyGroupToken(line, line);
  }

  lemma {:induction false} JoinSpacesLineText(words: seq<string>)
    requires forall i :: 0 <= i < |words| ==> PlainWord(words[i])
    ensures LineText(JoinSpaces(words))
    decreases |words|
  {
    if |words| == 1 {
      assert forall i :: 0 <= i < |words[0]| ==> words[0][i] !in CSpace && words[0][i] != '\0';
    } else if |words| > 1 {
      JoinSpacesLineText(words[1..]);
      JoinSpacesCons(words);
      assert forall i :: 0 <= i < |words[0]| ==> words[0][i] !in CSpace && words[0][i] != '\0';
    }
  }
}

=== FILE: obj_text.dfy ===
/** Character-level helpers the OBJ/MTL readers are built from: reading one
    line with any of LF, CR or CRLF as terminator, the C string functions
    the parsers use (`strspn`, `strcspn`, `atoi`, `sscanf("%s")`), and the
    index fix-up that turns 1-based or negative OBJ references into 0-based
    ones. A C string is modelled as a `string` holding no NUL; reading past
    its end yields the terminating NUL. */
module ObjText {

  /* ---------- C strings ---------- */

  /** The text `c_str()` exposes: the longest NUL-free prefix. */
  function CStr(s: string): (r: string)
    ensures r <= s
    ensures '\0' !in r
    ensures |r| < |s| ==> s[|r|] == '\0'
  {
    if s == [] || s[0] == '\0' then [] else [s[0]] + CStr(s[1..])
  }

  /** `token[k]` on a NUL-terminated C string. */
  function At(s: string, k: nat): char
  {
    if k < |s| then s[k] else '\0'
  }

  const Blanks: set<char> := {' ', '\t'}
  const BlanksCr: set<char> := {' ', '\t', '\r'}
  const RefStops: set<char> := {'/', ' ', '\t', '\r'}
  /** The characters `isspace` accepts in the C locale. */
  const CSpace: set<char> := {' ', '\t', '\n', '\U{0B}', '\U{0C}', '\r'}

  /** `strspn(s, accept)`: length of the longest prefix made of `accept` characters. */
  function Span(s: string, accept: set<char>): (r: nat)
    ensures r <= |s|
    ensures forall i :: 0 <= i < r ==> s[i] in accept
    ensures r < |s| ==> s[r] !in accept
  {
    if s == [] || s[0] !in accept then 0 else 1 + Span(s[1..], accept)
  }

  /** `strcspn(s, reject)`: length of the longest prefix free of `reject` characters. */
  function CSpan(s: string, reject: set<char>): (r: nat)
    ensures r <= |s|
    ensures forall i :: 0 <= i < r ==> s[i] !in reject
    ensures r < |s| ==> s[r] in reject
  {
    if s == [] || s[0] in reject then 0 else 1 + CSpan(s[1..], reject)
  }

  /** `s + strspn(s, accept)`. */
  function SkipAll(s: string, accept: set<char>): (r: string)
    ensures r == s[Span(s, accept)..]
    ensures r != [] ==> r[0] !in accept
  {
    s[Span(s, accept)..]
  }

  /* ---------- safeGetline ---------- */

  /** What one call of `safeGetline` returns: the line read, the unread rest
      of the stream, and whether it set `eofbit`. */
  datatype Got = Got(line: string, rest: string, eof: bool)

  predicate NoTerminator(s: string)
  {
    '\n' !in s && '\r' !in s
  }

  /** One call of `safeGetline` on a stream holding `s`: characters are
      moved into the line up to `\n`, `\r` (with a directly following `\n`
      consumed too) or the end of the stream; only an end of stream reached
      with nothing read sets `eofbit`. */
  function GetLine(s: string): (g: Got)
    ensures NoTerminator(g.line)
    ensures |g.line| <= |s| && s[..|g.line|] == g.line
    ensures |g.line| == |s| ==> g.rest == [] && (g.eof <==> s == [])
    ensures |g.line| < |s| ==> !g.eof && s[|g.line|] in {'\n', '\r'}
    ensures |g.line| < |s| && s[|g.line|] == '\n' ==> g.rest == s[|g.line| + 1..]
    ensures |g.line| < |s| && s[|g.line|] == '\r' ==>
              g.rest == (if |g.line| + 1 < |s| && s[|g.line| + 1] == '\n'
                         then s[|g.line| + 2..] else s[|g.line| + 1..])
    ensures s != [] ==> |g.rest| < |s|
  {
    if s == [] then Got([], [], true)
    else if s[0] == '\n' then Got([], s[1..], false)
    else if s[0] == '\r' then Got([], if |s| > 1 && s[1] == '\n' then s[2..] else s[1..], false)
    else
      var g := GetLine(s[1..]);
      Got([s[0]] + g.line, g.rest, false)
  }

  /** The lines the readers' `while (peek() != EOF) safeGetline(...)` loop
      delivers for a file holding `s`. */
  function SplitLines(s: string): (ls: seq<string>)
    decreases |s|
  {
    if s == [] then [] else
      var g := GetLine(s);
      [g.line] + SplitLines(g.rest)
  }

  lemma {:induction false} SplitLinesHaveNoTerminator(s: string)
    ensures forall i :: 0 <= i < |SplitLines(s)| ==> NoTerminator(SplitLines(s)[i])
    decreases |s|
  {
    if s != [] {
      SplitLinesHaveNoTerminator(GetLine(s).rest);
    }
  }

  /** `safeGetline` stops exactly at the first terminator of `s`, or at its end. */
  lemma LineEndsAt(s: string, k: nat)
    requires k <= |s| && NoTerminator(s[..k])
    requires k < |s| ==> s[k] in {'\n', '\r'}
    ensures GetLine(s).line == s[..k]
  {
  }

  /** A line followed by `\n` is read back as exactly that line. */
  lemma GetLineLf(l: string, rest: string)
    requires NoTerminator(l)
    ensures GetLine(l + "\n" + rest) == Got(l, rest, false)
  {
    var s := l + "\n" + rest;
    assert s[..|l|] == l;
    LineEndsAt(s, |l|);
    assert s[|l| + 1..] == rest;
  }

  /** A line followed by `\r\n` is read back as exactly that line. */
  lemma GetLineCrLf(l: string, rest: string)
    requires NoTerminator(l)
    ensures GetLine(l + "\r\n" + rest) == Got(l, rest, false)
  {
    var s := l + "\r\n" + rest;
    assert s[..|l|] == l;
    LineEndsAt(s, |l|);
    assert s[|l| + 2..] == rest;
  }

  /** A lone `\r` (not followed by `\n`) also ends a line. */
  lemma GetLineCr(l: string, rest: string)
    requires NoTerminator(l)
    requires rest == [] || rest[0] != '\n'
    ensures GetLine(l + "\r" + rest) == Got(l, rest, false)
  {
    var s := l + "\r" + rest;
    assert s[..|l|] == l;
    LineEndsAt(s, |l|);
    assert s[|l| + 1..] == rest;
  }

  /** An unterminated last line is returned with its content, without `eofbit`;
      only an exhausted stream sets it. */
  lemma GetLineAtEnd(l: string)
    requires NoTerminator(l)
    ensures GetLine(l) == Got(l, [], l == [])
  {
    assert l[..|l|] == l;
    LineEndsAt(l, |l|);
  }

  /** The text of `ls` with every line terminated by `term`. */
  function JoinLines(ls: seq<string>, term: string): string
  {
    if ls == [] then [] else ls[0] + term + JoinLines(ls[1..], term)
  }

  /** Splitting a file whose lines all end in LF, or all end in CRLF, gives the lines back. */
  lemma {:induction false} SplitJoinRoundTrip(ls: seq<string>, crlf: bool)
    requires forall i :: 0 <= i < |ls| ==> NoTerminator(ls[i])
    ensures SplitLines(JoinLines(ls, if crlf then "\r\n" else "\n")) == ls
  {
    var term := if crlf then "\r\n" else "\n";
    if ls != [] {
      var rest := JoinLines(ls[1..], term);
      SplitFirstLine(ls[0], rest, crlf);
      SplitJoinRoundTrip(ls[1..], crlf);
      assert ls == [ls[0]] + ls[1..];
    }
  }

  /** One terminated line comes off the front of the text. */
  lemma SplitFirstLine(l: string, rest: string, crlf: bool)
    requires NoTerminator(l)
    ensures var term := if crlf then "\r\n" else "\n";
      SplitLines(l + term + rest) == [l] + SplitLines(rest)
  {
    if crlf { GetLineCrLf(l, rest); } else { GetLineLf(l, rest); }
  }

  /** The readers drop one trailing `\n`, then one trailing `\r`. */
  function TrimNewline(s: string): string
  {
    var a := if |s| > 0 && s[|s| - 1] == '\n' then s[..|s| - 1] else s;
    if |a| > 0 && a[|a| - 1] == '\r' then a[..|a| - 1] else a
  }

  /** ... which never changes a line `safeGetline` produced. */
  lemma TrimNewlineNoOp(s: string)
    requires NoTerminator(s)
    ensures TrimNewline(s) == s
  {
    if |s| > 0 { assert s[|s| - 1] in s; }
  }

  /* ---------- atoi ---------- */

  predicate IsDigit(c: char)
  {
    '0' <= c <= '9'
  }

  function DigitValue(c: char): nat
    requires IsDigit(c)
  {
    c as int - '0' as int
  }

  /** Length of the run of decimal digits at the front of `s`. */
  function DigitRun(s: string): (r: nat)
    ensures r <= |s|
    ensures forall i :: 0 <= i < r ==> IsDigit(s[i])
    ensures r < |s| ==> !IsDigit(s[r])
  {
    if s == [] || !IsDigit(s[0]) then 0 else 1 + DigitRun(s[1..])
  }

  /** Value of a string of decimal digits, most significant first. */
  function DigitsValue(d: string): nat
    requires forall i :: 0 <= i < |d| ==> IsDigit(d[i])
  {
    if d == [] then 0 else 10 * DigitsValue(d[..|d| - 1]) + DigitValue(d[|d| - 1])
  }

  /** `atoi`: leading white space, an optional sign, then the longest run of
      digits; 0 when there are none. Integers are unbounded here (the C
      overflow is undefined behaviour and not modelled). */
  function Atoi(s: string): int
  {
    var t := SkipAll(s, CSpace);
    var neg := |t| > 0 && t[0] == '-';
    var u := if |t| > 0 && (t[0] == '-' || t[0] == '+') then t[1..] else t;
    var v: int := DigitsValue(u[..DigitRun(u)]);
    if neg then -v else v
  }

  /** Decimal text of a natural number, without leading zeros. */
  function Decimal(n: nat): (r: string)
    ensures |r| > 0
    ensures forall i :: 0 <= i < |r| ==> IsDigit(r[i])
  {
    if n < 10 then [('0' as int + n) as char]
    else Decimal(n / 10) + [('0' as int + n % 10) as char]
  }

  lemma {:induction false} DecimalValue(n: nat)
    ensures DigitsValue(Decimal(n)) == n
  {
    if n >= 10 {
      DecimalValue(n / 10);
      var d := Decimal(n);
      assert d[..|d| - 1] == Decimal(n / 10);
    }
  }

  /** `atoi` reads back the decimal text of any integer, whatever non-digit follows it. */
  lemma AtoiDecimal(n: int, rest: string)
    requires rest == [] || !IsDigit(rest[0])
    ensures Atoi(Signed(n) + rest) == n
  {
    var m: nat := if n < 0 then -n else n;
    var d := Decimal(m);
    var u := d + rest;
    DigitRunDecimal(m, rest);
    assert u[..|d|] == d;
    DecimalValue(m);
    if n < 0 {
      assert Signed(n) + rest == ['-'] + u;
      AtoiMinus(u);
    } else {
      AtoiPlain(u);
    }
  }

  /** `atoi` on text starting with a digit reads the leading digit run. */
  lemma AtoiPlain(u: string)
    requires u != [] && IsDigit(u[0])
    ensures Atoi(u) == DigitsValue(u[..DigitRun(u)])
  {
    assert u[0] !in CSpace;
    assert Span(u, CSpace) == 0;
  }

  /** ... and after a minus sign, its negation. */
  lemma AtoiMinus(u: string)
    requires u != [] && IsDigit(u[0])
    ensures Atoi(['-'] + u) == -(DigitsValue(u[..DigitRun(u)]) as int)
  {
    var s := ['-'] + u;
    assert s[0] !in CSpace;
    assert Span(s, CSpace) == 0;
    assert s[1..] == u;
  }

  /** Decimal text of an integer, with a leading `-` when negative. */
  function Signed(n: int): string
  {
    if n < 0 then "-" + Decimal(-n) else Decimal(n)
  }

  lemma DigitRunDecimal(m: nat, rest: string)
    requires rest == [] || !IsDigit(rest[0])
    ensures DigitRun(Decimal(m) + rest) == |Decimal(m)|
  {
    var d := Decimal(m);
    var u := d + rest;
    assert forall i :: 0 <= i < |d| ==> u[i] == d[i];
    assert |u| > |d| ==> u[|d|] == rest[0];
  }

  /* ---------- sscanf("%s") ---------- */

  /** The word `sscanf(s, "%s", buf)` stores: skip C white space, then take
      the run up to the next white space. When there is no word at all the
      C buffer stays uninitialised; the model reads that case as "". The
      4096-byte buffer bound is not modelled. */
  function Word(s: string): (w: string)
    ensures forall i :: 0 <= i < |w| ==> w[i] !in CSpace
    ensures w == [] <==> forall i :: 0 <= i < |s| ==> s[i] in CSpace
  {
    var t := SkipAll(s, CSpace);
    t[..CSpan(t, CSpace)]
  }

  /** `%s` skips the leading white space and takes the whole first word,
      up to the white space (or the end) that follows it. */
  lemma WordFirst(pre: string, w: string, rest: string)
    requires forall i :: 0 <= i < |pre| ==> pre[i] in CSpace
    requires w != [] && forall i :: 0 <= i < |w| ==> w[i] !in CSpace
    requires rest == [] || rest[0] in CSpace
    ensures Word(pre + w + rest) == w
  {
    var s := pre + w + rest;
    assert s[|pre|] == w[0];
    var n := Span(s, CSpace);
    assert forall i :: 0 <= i < |pre| ==> s[i] == pre[i];
    assert n == |pre|;
    var t := SkipAll(s, CSpace);
    assert t == w + rest;
    var m := CSpan(t, CSpace);
    assert forall i :: 0 <= i < |w| ==> t[i] == w[i];
    assert rest != [] ==> t[|w|] == rest[0];
    assert t[..m] == w;
  }

  /* ---------- index fix-up ---------- */

  /** `fixIndex`: OBJ references are 1-based, 0 is passed through, and a
      negative reference counts back from the `n` elements defined so far. */
  function FixIndex(idx: int, n: int): int
  {
    if idx > 0 then idx - 1
    else if idx == 0 then 0
    else n + idx
  }

  /** A list read back to front. */
  function Reversed<T>(xs: seq<T>): (r: seq<T>)
    ensures |r| == |xs|
  {
    if xs == [] then [] else Reversed(xs[1..]) + [xs[0]]
  }

  /** Position `k` of the reversed list is position `k` counted from the back. */
  lemma {:induction false} ReversedAt<T>(xs: seq<T>, k: nat)
    requires k < |xs|
    ensures Reversed(xs)[k] == xs[|xs| - 1 - k]
  {
    if k < |xs| - 1 {
      ReversedAt(xs[1..], k);
    }
  }

  /** The element a reference names among the `xs` defined so far: the
      reference `i > 0` is the `i`-th element from the front, and the
      reference `-k` is the `k`-th element from the back. */
  lemma FixIndexNames<T>(idx: int, xs: seq<T>)
    requires 1 <= idx <= |xs| || -|xs| <= idx <= -1
    ensures 0 <= FixIndex(idx, |xs|) < |xs|
    ensures idx > 0 ==> xs[FixIndex(idx, |xs|)] == xs[..idx][idx - 1]
    ensures idx < 0 ==> xs[FixIndex(idx, |xs|)] == Reversed(xs)[-idx - 1]
  {
    if idx < 0 {
      var k := -idx - 1;
      ReversedAt(xs, k);
      assert xs[FixIndex(idx, |xs|)] == xs[|xs| - 1 - k];
    } else {
      assert FixIndex(idx, |xs|) == idx - 1;
    }
  }

  /** Every in-range reference, forward or backward, names one of the `n`
      elements; the forward reference `i` and the backward reference
      `i - n - 1` name the same one, so `-1` is the last element defined. */
  lemma FixIndexInRange(idx: int, n: nat)
    requires 1 <= idx <= n || (0 <= idx + n && idx <= -1)
    ensures 0 <= FixIndex(idx, n) < n
    ensures 1 <= idx <= n ==> FixIndex(idx, n) == FixIndex(idx - n - 1, n)
    ensures idx == -1 ==> FixIndex(idx, n) == n - 1
  {
  }
}

=== FILE: obj_types.dfy ===
/** The records the OBJ/MTL importer produces (`attrib_t`, `index_t`,
    `mesh_t`, `shape_t`, `material_t` of the `Model` class), with C++
    `float` modelled as `real` and `std::map` as `map`. */
module ObjTypes {

  datatype Vec3 = Vec3(x: real, y: real, z: real)

  datatype Vec2 = Vec2(x: real, y: real)

  const Zero3: Vec3 := Vec3(0.0, 0.0, 0.0)

  /** `vertex_index`: the parser's reference triple, each slot a 0-based
      index or -1 for "not given". */
  datatype VertexIndex = VertexIndex(v: int, vt: int, vn: int)

  /** `index_t`: one corner of an emitted triangle. */
  datatype IndexT = IndexT(vertexIndex: int, normalIndex: int, texcoordIndex: int)

  /** `mesh_t`: three `indices` per triangle, one `numFaceVertices` entry
      (always 3 after triangulation) and one material id per triangle. */
  datatype Mesh = Mesh(indices: seq<IndexT>, numFaceVertices: seq<int>, materialIds: seq<int>)

  const EmptyMesh: Mesh := Mesh([], [], [])

  /** `shape_t` */
  datatype Shape = Shape(name: string, mesh: Mesh)

  /** `attrib_t`: flat coordinate arrays, 3 floats per position and normal,
      2 per texture coordinate. */
  datatype Attrib = Attrib(vertices: seq<real>, normals: seq<real>, texcoords: seq<real>)

  /** `material_t` */
  datatype Material = Material(
    name: string,
    ka: Vec3, kd: Vec3, ks: Vec3, ke: Vec3,
    ns: real, ni: real, d: real,
    illum: int,
    unknownParameter: map<string, string>)

  /** Numeric text scanning (`std::istringstream >>`). Extraction reads
      numbers left to right, so the first k values are the same whether 1,
      2 or 3 are requested: `reals(s)` stands for the first three `float`s
      extracted from `s`, `integer(s)` for the first `int`. What they yield
      on malformed text is whatever the library does; the model does not
      fix it. */
  datatype NumberScan = NumberScan(reals: string -> Vec3, integer: string -> int)

  /** The files the program can open, by path, with their contents; a path
      that is not a key cannot be opened. */
  type FileSystem = map<string, string>
}

=== FILE: results.dfy ===
/** Outcomes of the operations that can fail: every failure of the modelled
    code is a message string (the text the C++ writes into its `err` out-parameter). */
module Results {

  datatype Result<+T> = Ok(value: T) | Err(msg: string)

  datatype Option<+T> = None | Some(value: T)

  /** The message every file-opening failure of the program produces:
      `Cannot open file [<path>]` followed by the newline of `std::endl`. */
  function CannotOpen(path: string): string
  {
    "Cannot open file [" + path + "]\n"
  }
}

=== FILE: screen_capture.dfy ===
/** `printScreen`: the framebuffer is dumped as a 24-bit BMP. The 54-byte
    header is copied from a reference bitmap, the image width and height
    are patched in at byte offset 0x12 (the `biWidth` and `biHeight` fields
    of the BITMAPINFOHEADER), and the rows follow, each padded to a multiple
    of four bytes. */
module ScreenCapture {
  import opened Results

  newtype byte = x: int | 0 <= x < 256

  const HeaderLength: nat := 54
  const BytesPerPixel: nat := 3
  /** Where `biWidth` starts; `biHeight` follows it. */
  const SizeOffset: nat := 0x12

  /** The largest C `int` on the platform: the stride and length
      computations must stay below it. */
  const IntMax: int := 0x7FFF_FFFF

  /* ---------- row stride ---------- */

  /** The row length the padding loop reaches, in closed form. */
  function Stride(width: nat): (s: nat)
  {
    var raw := width * BytesPerPixel;
    raw + (4 - raw % 4) % 4
  }

  /** The stride is the smallest multiple of four not below `3 width`. */
  lemma StrideIsLeastMultiple(width: nat)
    ensures Stride(width) % 4 == 0
    ensures 3 * width <= Stride(width) < 3 * width + 4
    ensures forall m :: 3 * width <= m && m % 4 == 0 ==> Stride(width) <= m
  {
  }

  /** The source's loop: start at `3 width`, count up until divisible by
      four. */
  method StrideLoop(width: nat) returns (i: int)
    ensures i == Stride(width)
  {
    StrideIsLeastMultiple(width);
    i := width * BytesPerPixel;
    while i % 4 != 0
      invariant width * BytesPerPixel <= i <= Stride(width)
      decreases Stride(width) - i
    {
      i := i + 1;
    }
  }

  /** The pixel buffer the framebuffer read fills: `stride * height`
      bytes. */
  function PixelLength(width: nat, height: nat): (n: nat)
    ensures n % 4 == 0
    ensures height > 0 ==> 3 * width * height <= n
  {
    StrideIsLeastMultiple(width);
    MulBound(width, Stride(width), height);
    Stride(width) * height
  }

  lemma MulBound(width: nat, stride: nat, height: nat)
    requires 3 * width <= stride && stride % 4 == 0
    ensures (stride * height) % 4 == 0
    ensures 3 * width * height <= stride * height
  {
    assert stride * height == 4 * ((stride / 4) * height);
  }

  /* ---------- little-endian integers ---------- */

  /** The four bytes `fwrite(&n, sizeof(int), 1, f)` puts out on a
      little-endian machine. */
  function LE32(n: nat): (bs: seq<byte>)
    requires n < 0x1_0000_0000
    ensures |bs| == 4
  {
    [(n % 256) as byte, (n / 256 % 256) as byte, (n / 256 / 256 % 256) as byte, (n / 256 / 256 / 256) as byte]
  }

  /** How a BMP reader decodes the four bytes of a size field. */
  function ReadLE32(bs: seq<byte>): (n: nat)
    requires |bs| == 4
    ensures n < 0x1_0000_0000
  {
    bs[0] as nat + 256 * (bs[1] as nat + 256 * (bs[2] as nat + 256 * bs[3] as nat))
  }

  /** Every size the program writes reads back unchanged. */
  lemma LE32RoundTrip(n: nat)
    requires n < 0x1_0000_0000
    ensures ReadLE32(LE32(n)) == n
  {
  }

  /** And no two sizes share an encoding. */
  lemma LE32Injective(bs: seq<byte>)
    requires |bs| == 4
    ensures LE32(ReadLE32(bs)) == bs
  {
    var hi2 := bs[2] as nat + 256 * bs[3] as nat;
    var hi1 := bs[1] as nat + 256 * hi2;
    var n := bs[0] as nat + 256 * hi1;
    DigitSplit(bs[0] as nat, hi1);
    DigitSplit(bs[1] as nat, hi2);
    DigitSplit(bs[2] as nat, bs[3] as nat);
  }

  /** Splitting off the lowest base-256 digit. */
  lemma DigitSplit(lo: nat, hi: nat)
    requires lo < 256
    ensures (lo + 256 * hi) % 256 == lo && (lo + 256 * hi) / 256 == hi
  {
  }

  /* ---------- the capture ---------- */

  /** The file system: contents by path, and the paths `fopen(.., "wb")`
      can create or truncate. */
  datatype Disk = Disk(files: map<string, seq<byte>>, writable: set<string>)

  datatype Outcome = Outcome(ok: bool, disk: Disk, err: string)

  /** What the C++ requires of the sizes: no negative array length for
      `new`, and no signed overflow in the stride and length arithmetic. */
  ghost predicate Sizes(width: int, height: int)
  {
    && 0 <= width && 0 <= height <= IntMax
    && width * BytesPerPixel + 3 <= IntMax
    && Stride(width) * height <= IntMax
  }

  /** The 54 header bytes after `fread`: as many as the reference holds,
      the rest whatever the stack array held before. */
  function ReadHeader(reference: seq<byte>, stack: seq<byte>): (h: seq<byte>)
    requires |stack| == HeaderLength
    ensures |h| == HeaderLength
  {
    seq(HeaderLength, k requires 0 <= k < HeaderLength => if k < |reference| then reference[k] else stack[k])
  }

  /** The output file: the header with width and height patched at 0x12,
      then the pixel rows. */
  function Bitmap(header: seq<byte>, width: nat, height: nat, pixels: seq<byte>): (bs: seq<byte>)
    requires |header| == HeaderLength && width < 0x1_0000_0000 && height < 0x1_0000_0000
  {
    header[..SizeOffset] + LE32(width) + LE32(height) + header[SizeOffset + 8..] + pixels
  }

  /** `printScreen(reference, path, height, width, &err)`. `pixels` is
      what the framebuffer read delivers and `stack` the uninitialised
      header array. The reference is opened first, then the output with
      `"wb"`, which empties it before the header is read: so when both are
      the same file the header comes from `stack` alone. */
  function PrintScreen(disk: Disk, reference: string, path: string, height: int, width: int,
                       pixels: seq<byte>, stack: seq<byte>, err: string): (r: Outcome)
    requires Sizes(width, height)
    requires |pixels| == PixelLength(width, height) && |stack| == HeaderLength
    ensures reference !in disk.files ==> r == Outcome(false, disk, CannotOpen(reference))
    ensures reference in disk.files && path !in disk.writable ==> r == Outcome(false, disk, CannotOpen(path))
    ensures r.ok <==> reference in disk.files && path in disk.writable
    ensures r.ok ==> r.err == err && r.disk.writable == disk.writable
    ensures r.ok ==> path in r.disk.files && r.disk.files == disk.files[path := r.disk.files[path]]
  {
    if reference !in disk.files then
      Outcome(false, disk, CannotOpen(reference))
    else if path !in disk.writable then
      Outcome(false, disk, CannotOpen(path))
    else
      var source := if path == reference then [] else disk.files[reference];
      var bytes := Bitmap(ReadHeader(source, stack), width, height, pixels);
      Outcome(true, Disk(disk.files[path := bytes], disk.writable), err)
  }

  /** What a reader of the written file finds: `54 + stride * height`
      bytes, the reference's header bytes outside the two size fields,
      the width and height in them, and the pixels after the header. */
  lemma BitmapLayout(disk: Disk, reference: string, path: string, height: int, width: int,
                     pixels: seq<byte>, stack: seq<byte>, err: string)
    requires Sizes(width, height)
    requires |pixels| == PixelLength(width, height) && |stack| == HeaderLength
    requires reference in disk.files && path in disk.writable
    ensures var out := PrintScreen(disk, reference, path, height, width, pixels, stack, err).disk.files[path];
      && |out| == HeaderLength + Stride(width) * height
      && ReadLE32(out[SizeOffset..SizeOffset + 4]) == width
      && ReadLE32(out[SizeOffset + 4..SizeOffset + 8]) == height
      && out[HeaderLength..] == pixels
      && (path != reference ==>
            forall k :: 0 <= k < HeaderLength && !(SizeOffset <= k < SizeOffset + 8) && k < |disk.files[reference]| ==>
              out[k] == disk.files[reference][k])
  {
    var source := if path == reference then [] else disk.files[reference];
    var header := ReadHeader(source, stack);
    var out := Bitmap(header, width, height, pixels);
    assert out[SizeOffset..SizeOffset + 4] == LE32(width);
    assert out[SizeOffset + 4..SizeOffset + 8] == LE32(height);
    LE32RoundTrip(width);
    LE32RoundTrip(height);
    assert out[HeaderLength..] == pixels;
    forall k | 0 <= k < HeaderLength && !(SizeOffset <= k < SizeOffset + 8)
      ensures out[k] == header[k]
    {
      if k >= SizeOffset + 8 {
        assert out[k] == header[SizeOffset + 8..][k - SizeOffset - 8];
      }
    }
  }
}

=== FILE: solids.dfy ===
/** The index buffers of the six procedural solids (`Cube`, `Cone`,
    `Cylinder`, `Sphere`, `Prism`, `Frust`). Vertex positions come from
    `cos`/`sin` and are not modelled, except the cube's literal corners; a
    solid is its vertex count and its triangle index list. */
module Solids {

  /** A solid's topology: `vertexCount` vertices (3 floats each in
      `_vertices`) and three entries of `indices` per triangle. */
  datatype Solid = Solid(vertexCount: nat, indices: seq<int>)

  /** Every index names a vertex. */
  ghost predicate InRange(s: Solid)
  {
    forall k :: 0 <= k < |s.indices| ==> 0 <= s.indices[k] < s.vertexCount
  }

  /** Whole triangles, none repeating a vertex. */
  ghost predicate Proper(s: Solid)
  {
    Triangles(s.indices)
  }

  /** `xs` is a list of triangles, each with three distinct corners. */
  ghost predicate Triangles(xs: seq<int>)
  {
    && |xs| % 3 == 0
    && forall t :: 0 <= t < |xs| / 3 ==>
         && xs[3 * t] != xs[3 * t + 1]
         && xs[3 * t + 1] != xs[3 * t + 2]
         && xs[3 * t] != xs[3 * t + 2]
  }

  /** Two triangle lists concatenate to one. */
  lemma TrianglesAppend(a: seq<int>, b: seq<int>)
    requires Triangles(a) && Triangles(b)
    ensures Triangles(a + b)
  {
    var ab := a + b;
    forall t | 0 <= t < |ab| / 3
      ensures ab[3 * t] != ab[3 * t + 1]
      ensures ab[3 * t + 1] != ab[3 * t + 2]
      ensures ab[3 * t] != ab[3 * t + 2]
    {
      if t >= |a| / 3 {
        var u := t - |a| / 3;
        assert ab[3 * t] == b[3 * u] && ab[3 * t + 1] == b[3 * u + 1] && ab[3 * t + 2] == b[3 * u + 2];
      }
    }
  }

  /** Every vertex is used by some triangle. */
  ghost predicate Covers(s: Solid)
  {
    forall v :: 0 <= v < s.vertexCount ==> Used(s, v)
  }

  /** Some slot of the index list holds `v`. */
  ghost predicate Used(s: Solid, v: int)
  {
    exists k :: 0 <= k < |s.indices| && s.indices[k] == v
  }

  /* ---------- cube ---------- */

  /** The cube's eight corners, `(±0.5, ±0.5, ±0.5) * scale`, x varying
      fastest. */
  function CubeVertices(scale: real): (vs: seq<real>)
    ensures |vs| == 24
  {
    var unit := [-0.5, -0.5, -0.5,  0.5, -0.5, -0.5,  -0.5, 0.5, -0.5,  0.5, 0.5, -0.5,
                 -0.5, -0.5, 0.5,   0.5, -0.5, 0.5,   -0.5, 0.5, 0.5,   0.5, 0.5, 0.5];
    seq(24, k requires 0 <= k < 24 => unit[k] * scale)
  }

  /** The first six triangles: the z = -0.5 and z = 0.5 faces and the top. */
  const CubeFront: seq<int> := [0, 1, 2,  1, 2, 3,  4, 5, 6,  5, 6, 7,  2, 6, 7,  2, 7, 3]
  /** The last six: bottom, right and left faces. */
  const CubeBack: seq<int> := [0, 4, 5,  0, 5, 1,  7, 1, 5,  7, 1, 3,  6, 0, 4,  6, 0, 2]
  const CubeIndices: seq<int> := CubeFront + CubeBack

  /** `Cube`: 8 vertices, 12 triangles, two per face. */
  function Cube(): (s: Solid)
    ensures s.vertexCount == 8 && |s.indices| == 36
  {
    Solid(8, CubeIndices)
  }

  /** The cube's 36 indices name its 8 corners. */
  lemma CubeInRange()
    ensures InRange(Cube())
  {
  }

  /** Its 12 triangles each have three distinct corners. */
  lemma CubeProper()
    ensures Proper(Cube())
  {
    CubeFrontProper();
    CubeBackProper();
    TrianglesAppend(CubeFront, CubeBack);
  }

  lemma CubeFrontProper()
    ensures Triangles(CubeFront)
  {
    var xs := CubeFront;
    forall t | 0 <= t < 6
      ensures xs[3 * t] != xs[3 * t + 1]
      ensures xs[3 * t + 1] != xs[3 * t + 2]
      ensures xs[3 * t] != xs[3 * t + 2]
    {
      if t == 0 {} else if t == 1 {} else if t == 2 {} else if t == 3 {} else if t == 4 {} else {}
    }
  }

  lemma CubeBackProper()
    ensures Triangles(CubeBack)
  {
    var xs := CubeBack;
    forall t | 0 <= t < 6
      ensures xs[3 * t] != xs[3 * t + 1]
      ensures xs[3 * t + 1] != xs[3 * t + 2]
      ensures xs[3 * t] != xs[3 * t + 2]
    {
      if t == 0 {} else if t == 1 {} else if t == 2 {} else if t == 3 {} else if t == 4 {} else {}
    }
  }

  /** Every corner is used. */
  lemma CubeCovers()
    ensures Covers(Cube())
  {
    var s := Cube();
    forall v | 0 <= v < 8
      ensures Used(s, v)
    {
      var k := CubeWitness(v);
      assert s.indices[k] == v;
    }
  }

  /** A slot of the cube's index list holding vertex `v`. */
  function CubeWitness(v: int): (k: int)
    requires 0 <= v < 8
    ensures 0 <= k < 36 && CubeIndices[k] == v
  {
    if v == 0 then 0 else if v == 1 then 1 else if v == 2 then 2 else if v == 3 then 5
    else if v == 4 then 6 else if v == 5 then 7 else if v == 6 then 8 else 11
  }

  /** Every cube corner is `±0.5 * scale` on each axis, so with a non-zero
      scale the eight corners are distinct. */
  lemma CubeCornersDistinct(scale: real, a: int, b: int)
    requires scale != 0.0 && 0 <= a < b < 8
    ensures CubeVertices(scale)[3 * a .. 3 * a + 3] != CubeVertices(scale)[3 * b .. 3 * b + 3]
  {
    var vs := CubeVertices(scale);
    var axis := SignsDiffer(a, b);
    CubeCorner(scale, a, axis);
    CubeCorner(scale, b, axis);
    var sa := CubeSign(a, axis);
    HalfScaled(sa, scale);
    assert vs[3 * a .. 3 * a + 3][axis] == vs[3 * a + axis];
    assert vs[3 * b .. 3 * b + 3][axis] == vs[3 * b + axis];
  }

  /** Opposite signs give opposite, hence different, coordinates. */
  lemma HalfScaled(sg: real, scale: real)
    requires (sg == 1.0 || sg == -1.0) && scale != 0.0
    ensures sg * 0.5 * scale != -sg * 0.5 * scale
  {
  }

  /** Two different corners differ in the sign of some axis. */
  lemma SignsDiffer(a: int, b: int) returns (axis: int)
    requires 0 <= a < b < 8
    ensures 0 <= axis < 3 && CubeSign(a, axis) == -CubeSign(b, axis)
  {
    axis := if a % 2 != b % 2 then 0 else if (a / 2) % 2 != (b / 2) % 2 then 1 else 2;
  }

  /** Corner `v` lies at `CubeSign(v, axis) * 0.5 * scale` on each axis. */
  lemma CubeCorners(scale: real)
    ensures forall v, axis :: 0 <= v < 8 && 0 <= axis < 3 ==>
      CubeVertices(scale)[3 * v + axis] == CubeSign(v, axis) * 0.5 * scale
  {
    forall v, axis | 0 <= v < 8 && 0 <= axis < 3
      ensures CubeVertices(scale)[3 * v + axis] == CubeSign(v, axis) * 0.5 * scale
    {
      CubeCorner(scale, v, axis);
    }
  }

  /** One coordinate of one corner. */
  lemma CubeCorner(scale: real, v: int, axis: int)
    requires 0 <= v < 8 && 0 <= axis < 3
    ensures CubeVertices(scale)[3 * v + axis] == CubeSign(v, axis) * 0.5 * scale
  {
    if v == 0 {} else if v == 1 {} else if v == 2 {} else if v == 3 {}
    else if v == 4 {} else if v == 5 {} else if v == 6 {} else {}
  }

  /** The sign of corner `v` on axis `axis`: bit `axis` of `v`. */
  function CubeSign(v: int, axis: int): real
    requires 0 <= v < 8 && 0 <= axis < 3
  {
    var bit := if axis == 0 then v % 2 else if axis == 1 then (v / 2) % 2 else v / 4;
    if bit == 1 then 1.0 else -1.0
  }

  /* ---------- cone ---------- */

  /** The six indices loop iteration `i` writes: base triangle and side
      triangle between ring vertices `i` and `i + 1`; iteration 0 closes
      the ring between vertex `corners` and vertex 1. */
  function ConeGroup(corners: int, i: int): (g: seq<int>)
    ensures |g| == 6
  {
    if i > 0 then [0, i, i + 1, corners + 1, i, i + 1]
    else [0, corners, 1, corners + 1, corners, 1]
  }

  /** The groups of iterations `0 .. n-1`, in slot order. */
  function ConeGroups(corners: int, n: nat): (r: seq<int>)
    ensures |r| == 6 * n
  {
    if n == 0 then [] else ConeGroups(corners, n - 1) + ConeGroup(corners, n - 1)
  }

  /** `Cone`: base centre 0, ring `1 .. corners`, apex `corners + 1`. */
  function Cone(corners: nat): (s: Solid)
    ensures s.vertexCount == corners + 2 && |s.indices| == 6 * corners
  {
    Solid(corners + 2, ConeGroups(corners, corners))
  }

  /** Slot `6 g + r` holds entry `r` of group `g`. */
  lemma {:induction false} ConeSlot(corners: int, n: nat, g: int, r: int)
    requires 0 <= g < n && 0 <= r < 6
    ensures ConeGroups(corners, n)[6 * g + r] == ConeGroup(corners, g)[r]
  {
    if g < n - 1 {
      ConeSlot(corners, n - 1, g, r);
    }
  }

  /** The cone's indices all name vertices. */
  lemma ConeInRange(corners: nat)
    ensures InRange(Cone(corners))
  {
    var s := Cone(corners);
    forall k | 0 <= k < |s.indices|
      ensures 0 <= s.indices[k] < s.vertexCount
    {
      ConeSlot(corners, corners, k / 6, k % 6);
    }
  }

  /** From one corner on, every vertex is used. */
  lemma ConeCovers(corners: nat)
    requires corners >= 1
    ensures Covers(Cone(corners))
  {
    var s := Cone(corners);
    forall v | 0 <= v < s.vertexCount
      ensures Used(s, v)
    {
      var k := if v == 0 then 0 else if v == corners + 1 then 3 else if v == corners then 1 else 6 * v + 1;
      ConeSlot(corners, corners, k / 6, k % 6);
      assert s.indices[k] == v;
    }
  }

  /** From two corners on, no triangle repeats a vertex. */
  lemma ConeProper(corners: nat)
    requires corners >= 2
    ensures Proper(Cone(corners))
  {
    ConeGroupsProper(corners, corners);
  }

  lemma {:induction false} ConeGroupsProper(corners: nat, n: nat)
    requires 2 <= corners && n <= corners
    ensures Triangles(ConeGroups(corners, n))
  {
    if n > 0 {
      ConeGroupsProper(corners, n - 1);
      ConeGroupProper(corners, n - 1);
      TrianglesAppend(ConeGroups(corners, n - 1), ConeGroup(corners, n - 1));
    }
  }

  /** Both triangles of one cone group are proper. */
  lemma ConeGroupProper(corners: int, i: int)
    requires 2 <= corners && 0 <= i < corners
    ensures Triangles(ConeGroup(corners, i))
  {
    var g := ConeGroup(corners, i);
    forall t | 0 <= t < 2
      ensures g[3 * t] != g[3 * t + 1] && g[3 * t + 1] != g[3 * t + 2] && g[3 * t] != g[3 * t + 2]
    {
      if t == 0 {} else {}
    }
  }

  /** The constructor's loop: a zero-filled index vector of `6 * corners`
      slots, iteration `i` writing slots `6i .. 6i+5`; every slot is written
      by exactly one iteration, so the result is the group sequence. */
  method ConeLoop(corners: nat) returns (indices: seq<int>)
    ensures indices == Cone(corners).indices
  {
    indices := seq(6 * corners, _ => 0);
    var i := 0;
    while i < corners
      invariant 0 <= i <= corners && |indices| == 6 * corners
      invariant indices[..6 * i] == ConeGroups(corners, i)
      invariant forall k :: 6 * i <= k < 6 * corners ==> indices[k] == 0
    {
      indices := WriteGroup(indices, 6 * i, ConeGroup(corners, i));
      i := i + 1;
    }
    assert indices[..6 * corners] == indices;
  }

  /** Writes `group` into `buf` one slot at a time from `at`. */
  method WriteGroup(buf: seq<int>, at: nat, group: seq<int>) returns (r: seq<int>)
    requires at + |group| <= |buf|
    ensures |r| == |buf|
    ensures r[..at] == buf[..at]
    ensures r[at..at + |group|] == group
    ensures r[..at + |group|] == buf[..at] + group
    ensures forall k :: at + |group| <= k < |buf| ==> r[k] == buf[k]
  {
    r := buf;
    var j := 0;
    while j < |group|
      invariant 0 <= j <= |group| && |r| == |buf|
      invariant forall k :: 0 <= k < |buf| && !(at <= k < at + j) ==> r[k] == buf[k]
      invariant forall k :: at <= k < at + j ==> r[k] == group[k - at]
    {
      r := r[at + j := group[j]];
      j := j + 1;
    }
    assert r[..at + |group|] == buf[..at] + group;
  }

  /* ---------- cylinder, prism, frustum ---------- */

  /** The twelve indices iteration `i` writes for `Cylinder`, `Prism` and
      `Frust` (the three share this code): bottom fan, two side triangles
      and top fan between angles `i - 1` and `i`; iteration 0 closes the
      ring. Bottom ring vertices are `1 .. corners`, the top centre is
      `corners + 1`, the top ring `corners + 2 .. 2 corners + 1`. */
  function TubeGroup(corners: int, i: int): (g: seq<int>)
    ensures |g| == 12
  {
    var top := corners + 1;
    if i > 0 then
      [0, i, i + 1,  top + i, i, i + 1,  top, top + i, top + i + 1,  i + 1, top + i, top + i + 1]
    else
      [0, corners, 1,  2 * corners + 1, corners, 1,  top, corners + 2, 2 * corners + 1,  1, corners + 2, 2 * corners + 1]
  }

  function TubeGroups(corners: int, n: nat): (r: seq<int>)
    ensures |r| == 12 * n
  {
    if n == 0 then [] else TubeGroups(corners, n - 1) + TubeGroup(corners, n - 1)
  }

  /** `Cylinder`, `Prism` and `Frust`: `2 (corners + 1)` vertices and
      `12 corners` indices (they differ only in vertex positions). */
  function Tube(corners: nat): (s: Solid)
    ensures s.vertexCount == 2 * (corners + 1) && |s.indices| == 12 * corners
  {
    Solid(2 * (corners + 1), TubeGroups(corners, corners))
  }

  lemma {:induction false} TubeSlot(corners: int, n: nat, g: int, r: int)
    requires 0 <= g < n && 0 <= r < 12
    ensures TubeGroups(corners, n)[12 * g + r] == TubeGroup(corners, g)[r]
  {
    if g < n - 1 {
      TubeSlot(corners, n - 1, g, r);
    }
  }

  /** Every index is at most `2 corners + 1`. */
  lemma TubeInRange(corners: nat)
    ensures InRange(Tube(corners))
  {
    var s := Tube(corners);
    forall k | 0 <= k < |s.indices|
      ensures 0 <= s.indices[k] < s.vertexCount
    {
      var g, r := k / 12, k % 12;
      assert k == 12 * g + r && g < corners;
      TubeSlot(corners, corners, g, r);
      TubeGroupInRange(corners, g);
    }
  }

  /** One group names vertices `0 .. 2 corners + 1` only. */
  lemma TubeGroupInRange(corners: int, i: int)
    requires 0 <= i < corners
    ensures forall r :: 0 <= r < 12 ==> 0 <= TubeGroup(corners, i)[r] < 2 * (corners + 1)
  {
  }

  /** From one corner on, every vertex is used. */
  lemma TubeCovers(corners: nat)
    requires corners >= 1
    ensures Covers(Tube(corners))
  {
    var s := Tube(corners);
    forall v | 0 <= v < s.vertexCount
      ensures Used(s, v)
    {
      var k := TubeWitness(corners, v);
      TubeSlot(corners, corners, k / 12, k % 12);
      assert s.indices[k] == v;
    }
  }

  /** The four triangles of one tube group are proper. */
  lemma TubeGroupProper(corners: int, i: int)
    requires corners >= 2 && 0 <= i < corners
    ensures Triangles(TubeGroup(corners, i))
  {
    var g := TubeGroup(corners, i);
    forall t | 0 <= t < 4
      ensures g[3 * t] != g[3 * t + 1] && g[3 * t + 1] != g[3 * t + 2] && g[3 * t] != g[3 * t + 2]
    {
      if t == 0 {} else if t == 1 {} else if t == 2 {} else {}
    }
  }

  /** From two corners on, no triangle repeats a vertex. */
  lemma TubeProper(corners: nat)
    requires corners >= 2
    ensures Proper(Tube(corners))
  {
    TubeGroupsProper(corners, corners);
  }

  lemma {:induction false} TubeGroupsProper(corners: nat, n: nat)
    requires 2 <= corners && n <= corners
    ensures Triangles(TubeGroups(corners, n))
  {
    if n > 0 {
      TubeGroupsProper(corners, n - 1);
      TubeGroupProper(corners, n - 1);
      TrianglesAppend(TubeGroups(corners, n - 1), TubeGroup(corners, n - 1));
    }
  }

  /** A slot of the tube's index list holding vertex `v`. */
  function TubeWitness(corners: nat, v: int): (k: int)
    requires 1 <= corners && 0 <= v < 2 * (corners + 1)
    ensures 0 <= k < 12 * corners
    ensures TubeGroup(corners, k / 12)[k % 12] == v
  {
    if v == 0 then 0
    else if v == corners then 1
    else if v < corners then 12 * v + 1
    else if v == corners + 1 then 6
    else if v == 2 * corners + 1 then 3
    else 12 * (v - corners - 1) + 7
  }

  /** The shared constructor loop, written slot by slot like the cone's. */
  method TubeLoop(corners: nat) returns (indices: seq<int>)
    ensures indices == Tube(corners).indices
  {
    indices := seq(12 * corners, _ => 0);
    var i := 0;
    while i < corners
      invariant 0 <= i <= corners && |indices| == 12 * corners
      invariant indices[..12 * i] == TubeGroups(corners, i)
      invariant forall k :: 12 * i <= k < 12 * corners ==> indices[k] == 0
    {
      indices := WriteGroup(indices, 12 * i, TubeGroup(corners, i));
      i := i + 1;
    }
    assert indices[..12 * corners] == indices;
  }

  /* ---------- sphere ---------- */

  /** The two triangles of grid cell `(i, j)` in a grid `segments + 1`
      vertices wide. */
  function SphereQuad(segments: int, i: int, j: int): (q: seq<int>)
    ensures |q| == 6
  {
    var w := segments + 1;
    [i * w + j, (i + 1) * w + j, (i + 1) * w + j + 1,
     i * w + j, (i + 1) * w + j + 1, i * w + j + 1]
  }

  /** Cells `(i, 0) .. (i, j-1)`. */
  function SphereCells(segments: int, i: int, j: nat): (r: seq<int>)
    ensures |r| == 6 * j
  {
    if j == 0 then [] else SphereCells(segments, i, j - 1) + SphereQuad(segments, i, j - 1)
  }

  /** Rows `0 .. i-1`, each of `segments` cells. */
  function SphereRows(segments: nat, i: nat): (r: seq<int>)
    ensures |r| == 6 * segments * i
  {
    if i == 0 then [] else SphereRows(segments, i - 1) + SphereCells(segments, i - 1, segments)
  }

  /** `Sphere`: a `(segments + 1)`-square grid of vertices and
      `6 segments^2` indices. */
  function Sphere(segments: nat): (s: Solid)
    ensures s.vertexCount == (segments + 1) * (segments + 1)
    ensures |s.indices| == 6 * segments * segments
  {
    Solid((segments + 1) * (segments + 1), SphereRows(segments, segments))
  }

  /** The vertex loops: rows and columns `0 .. segments` inclusive, three
      floats pushed per grid point. */
  method SphereVertexFloats(segments: nat) returns (floats: nat)
    ensures floats == 3 * Sphere(segments).vertexCount
  {
    floats := 0;
    var y := 0;
    while y <= segments
      invariant 0 <= y <= segments + 1 && floats == 3 * y * (segments + 1)
    {
      var x := 0;
      while x <= segments
        invariant 0 <= x <= segments + 1 && floats == 3 * y * (segments + 1) + 3 * x
      {
        floats := floats + 3;
        x := x + 1;
      }
      y := y + 1;
    }
  }

  /** The constructor's two nested `push_back` loops. */
  method SphereLoop(segments: nat) returns (indices: seq<int>)
    ensures indices == Sphere(segments).indices
  {
    indices := [];
    var i := 0;
    while i < segments
      invariant 0 <= i <= segments && indices == SphereRows(segments, i)
    {
      var j := 0;
      while j < segments
        invariant 0 <= j <= segments && indices == SphereRows(segments, i) + SphereCells(segments, i, j)
      {
        var w := segments + 1;
        indices := indices + [i * w + j, (i + 1) * w + j, (i + 1) * w + j + 1,
                              i * w + j, (i + 1) * w + j + 1, i * w + j + 1];
        j := j + 1;
      }
      i := i + 1;
    }
  }

  /** A grid cell below row `segments` and left of column `segments` names
      vertices inside the grid. */
  lemma CellInGrid(segments: nat, i: int, j: int)
    requires 0 <= i < segments && 0 <= j < segments
    ensures forall r :: 0 <= r < 6 ==> 0 <= SphereQuad(segments, i, j)[r] < (segments + 1) * (segments + 1)
  {
    var w := segments + 1;
    var base := i * w + j;
    assert (i + 1) * w == i * w + w;
    RowBelowGrid(segments, i + 1);
    assert SphereQuad(segments, i, j) == [base, base + w, base + w + 1, base, base + w + 1, base + 1];
  }

  /** Row `i` of a `w = segments + 1` wide grid ends inside it when `i`
      is at most `segments`. */
  lemma RowBelowGrid(segments: nat, i: nat)
    requires i <= segments
    ensures i * (segments + 1) + segments < (segments + 1) * (segments + 1)
  {
    var w := segments + 1;
    assert w * w - i * w == (w - i) * w;
  }

  /** Every entry of rows built so far lies in the grid. */
  lemma {:induction false} RowsInGrid(segments: nat, i: nat)
    requires i <= segments
    ensures forall k :: 0 <= k < |SphereRows(segments, i)| ==> 0 <= SphereRows(segments, i)[k] < (segments + 1) * (segments + 1)
  {
    if i > 0 {
      RowsInGrid(segments, i - 1);
      CellsInGrid(segments, i - 1, segments);
    }
  }

  lemma {:induction false} CellsInGrid(segments: nat, i: int, j: nat)
    requires 0 <= i < segments && j <= segments
    ensures forall k :: 0 <= k < |SphereCells(segments, i, j)| ==> 0 <= SphereCells(segments, i, j)[k] < (segments + 1) * (segments + 1)
  {
    if j > 0 {
      CellsInGrid(segments, i, j - 1);
      CellInGrid(segments, i, j - 1);
    }
  }

  /** The sphere's indices all lie below `(segments + 1)^2`. */
  lemma SphereInRange(segments: nat)
    ensures InRange(Sphere(segments))
  {
    RowsInGrid(segments, segments);
  }

  /** Both triangles of a cell have three distinct vertices. */
  lemma QuadProper(segments: nat, i: int, j: int)
    ensures Triangles(SphereQuad(segments, i, j))
  {
    var q := SphereQuad(segments, i, j);
    var w := segments + 1;
    assert (i + 1) * w == i * w + w;
  }

  lemma {:induction false} CellsProper(segments: nat, i: int, j: nat)
    ensures Triangles(SphereCells(segments, i, j))
  {
    if j > 0 {
      CellsProper(segments, i, j - 1);
      QuadProper(segments, i, j - 1);
      TrianglesAppend(SphereCells(segments, i, j - 1), SphereQuad(segments, i, j - 1));
    }
  }

  lemma {:induction false} RowsProper(segments: nat, i: nat)
    ensures Triangles(SphereRows(segments, i))
  {
    if i > 0 {
      RowsProper(segments, i - 1);
      CellsProper(segments, i - 1, segments);
      TrianglesAppend(SphereRows(segments, i - 1), SphereCells(segments, i - 1, segments));
    }
  }

  /** No sphere triangle repeats a vertex. */
  lemma SphereProper(segments: nat)
    ensures Proper(Sphere(segments))
  {
    RowsProper(segments, segments);
  }
}

=== FILE: viewer_input.dfy ===
/** The editor side of `LOFT::handleInput` and its GUI: the right-button
    gesture that picks, appends and moves NURBS control points, the order
    slider, the scroll-wheel field-of-view clamp and the texture cycle.
    C++ `float` is modelled as `real`. */
module ViewerInput {
  import opened Nurbs

  /* ---------- control-point gesture ---------- */

  /** The two statics `pointMove` / `pointToMove`: idle (`false`, -1) or
      moving point `index`. */
  datatype Gesture = Idle | Moving(index: int)

  /** The editor's state: the curve's points, weights and order, and the
      gesture. */
  datatype Editor = Editor(points: seq<Point>, weights: seq<real>, order: int, gesture: Gesture)

  /** The state at start-up: no points, order 2, idle. */
  const Initial: Editor := Editor([], [], 2, Idle)

  /** `std::max(a, b)` on ints. */
  function MaxInt(a: int, b: int): int
  {
    if a < b then b else a
  }

  /** What the gesture and the slider keep: one weight per point, every
      weight positive, a moving index naming a point, and the order within
      the slider's range `[2, max(2, n)]`. */
  ghost predicate Inv(ed: Editor)
  {
    && |ed.points| == |ed.weights|
    && (forall i :: 0 <= i < |ed.weights| ==> ed.weights[i] > 0.0)
    && (ed.gesture.Moving? ==> 0 <= ed.gesture.index < |ed.points|)
    && 2 <= ed.order <= MaxInt(2, |ed.points|)
  }

  /** The cursor in normalised device coordinates:
      `x * 2 / width - 1` and `-(y * 2 / height - 1)`. */
  function Cursor(xNow: real, yNow: real, width: real, height: real): (p: Point)
    requires width > 0.0 && height > 0.0
    ensures xNow == 0.0 ==> p.x == -1.0
    ensures yNow == 0.0 ==> p.y == 1.0
    ensures xNow == width ==> p.x == 1.0
    ensures yNow == height ==> p.y == -1.0
  {
    assert width * 2.0 / width == 2.0;
    assert height * 2.0 / height == 2.0;
    Point(xNow * 2.0 / width - 1.0, -(yNow * 2.0 / height - 1.0))
  }

  /** `pointSize`: the pick radius before scaling by `max(0.5, weight)`. */
  const PointSize: real := 0.04

  /** `std::max(0.5f, w)`. */
  function MaxReal(a: real, b: real): real
  {
    if a < b then b else a
  }

  /** `distance(cursor, p) <= pointSize * max(0.5, w)`, compared on squares
      (both sides are non-negative, so this is the same test). */
  predicate Hit(cursor: Point, p: Point, w: real)
  {
    var dx, dy := cursor.x - p.x, cursor.y - p.y;
    var radius := PointSize * MaxReal(0.5, w);
    dx * dx + dy * dy <= radius * radius
  }

  /** The pick loop: the index it stops at, `n` when no point is hit. */
  method Pick(points: seq<Point>, weights: seq<real>, cursor: Point) returns (i: int)
    requires |points| == |weights|
    ensures 0 <= i <= |points|
    ensures i < |points| ==> Hit(cursor, points[i], weights[i])
    ensures forall j :: 0 <= j < i ==> !Hit(cursor, points[j], weights[j])
    ensures i == FirstHit(points, weights, cursor, 0)
  {
    i := 0;
    while i < |points|
      invariant 0 <= i <= |points|
      invariant forall j :: 0 <= j < i ==> !Hit(cursor, points[j], weights[j])
    {
      if Hit(cursor, points[i], weights[i]) {
        FirstHitUnique(points, weights, cursor, i);
        return;
      }
      i := i + 1;
    }
    FirstHitUnique(points, weights, cursor, i);
  }

  /** The same search as a function: the lowest hit index, or `n`. */
  function FirstHit(points: seq<Point>, weights: seq<real>, cursor: Point, from: nat): (i: int)
    requires |points| == |weights| && from <= |points|
    ensures from <= i <= |points|
    ensures i < |points| ==> Hit(cursor, points[i], weights[i])
    ensures forall j :: from <= j < i ==> !Hit(cursor, points[j], weights[j])
    decreases |points| - from
  {
    if from == |points| then from
    else if Hit(cursor, points[from], weights[from]) then from
    else FirstHit(points, weights, cursor, from + 1)
  }

  /** A right press: when idle, select the first point under the cursor or,
      if none, append the cursor with weight 1; when moving, drop the
      selected point at the cursor and go idle. */
  function RightPress(ed: Editor, cursor: Point): (ed': Editor)
    requires Inv(ed)
    ensures ed'.order == ed.order
    ensures ed.gesture.Idle? && ed'.gesture.Moving? ==>
      ed'.points == ed.points && ed'.weights == ed.weights
    ensures ed.gesture.Idle? && ed'.gesture.Idle? ==>
      ed'.points == ed.points + [cursor] && ed'.weights == ed.weights + [1.0]
    ensures ed.gesture.Moving? ==>
      ed' == Editor(ed.points[ed.gesture.index := cursor], ed.weights, ed.order, Idle)
  {
    match ed.gesture
    case Idle =>
      var i := FirstHit(ed.points, ed.weights, cursor, 0);
      if i == |ed.points| then
        ed.(points := ed.points + [cursor], weights := ed.weights + [1.0])
      else ed.(gesture := Moving(i))
    case Moving(i) =>
      ed.(points := ed.points[i := cursor], gesture := Idle)
  }

  /** What one call of the NURBS part of `handleInput` does: the press is
      handled and cleared, and the point and spline buffers are rebuilt
      when there are at least one and two points. */
  datatype Frame = Frame(editor: Editor, pressed: bool, rebuildPoints: bool, rebuildSpline: bool)

  function Step(ed: Editor, cursor: Point, pressed: bool): (f: Frame)
    requires Inv(ed)
    ensures !f.pressed
    ensures !pressed ==> f.editor == ed
    ensures pressed ==> f.editor == RightPress(ed, cursor)
    ensures f.rebuildPoints <==> |f.editor.points| >= 1
    ensures f.rebuildSpline <==> |f.editor.points| >= 2
  {
    var ed' := if pressed then RightPress(ed, cursor) else ed;
    Frame(ed', false, |ed'.points| >= 1, |ed'.points| >= 2)
  }

  /** `SliderInt("order", &_order, 2, max(2, n))`: the value the user asks
      for, clamped into the slider's range. */
  function Slider(ed: Editor, requested: int): (ed': Editor)
    ensures 2 <= ed'.order <= MaxInt(2, |ed.points|)
    ensures 2 <= requested <= MaxInt(2, |ed.points|) ==> ed'.order == requested
    ensures ed'.points == ed.points && ed'.weights == ed.weights && ed'.gesture == ed.gesture
  {
    var hi := MaxInt(2, |ed.points|);
    ed.(order := if requested < 2 then 2 else if requested > hi then hi else requested)
  }

  /** The gesture keeps the invariant. */
  lemma RightPressKeepsInv(ed: Editor, cursor: Point)
    requires Inv(ed)
    ensures Inv(RightPress(ed, cursor))
    ensures |RightPress(ed, cursor).points| >= |ed.points|
  {
  }

  /** The selected point is the lowest-numbered one under the cursor: a
      right press in idle selects `i` exactly when `i` is hit and no point
      before it is. */
  lemma SelectsLowestHit(ed: Editor, cursor: Point, i: int)
    requires Inv(ed) && ed.gesture.Idle? && 0 <= i < |ed.points|
    ensures RightPress(ed, cursor).gesture == Moving(i) <==>
      Hit(cursor, ed.points[i], ed.weights[i]) && forall j :: 0 <= j < i ==> !Hit(cursor, ed.points[j], ed.weights[j])
  {
    FirstHitUnique(ed.points, ed.weights, cursor, FirstHit(ed.points, ed.weights, cursor, 0));
  }

  /** A press appends exactly when no point is under the cursor. */
  lemma AppendsWhenNothingHit(ed: Editor, cursor: Point)
    requires Inv(ed) && ed.gesture.Idle?
    ensures |RightPress(ed, cursor).points| == |ed.points| + 1 <==>
      forall j :: 0 <= j < |ed.points| ==> !Hit(cursor, ed.points[j], ed.weights[j])
  {
    var k := FirstHit(ed.points, ed.weights, cursor, 0);
    if k < |ed.points| {
      assert Hit(cursor, ed.points[k], ed.weights[k]);
    }
  }

  lemma FirstHitUnique(points: seq<Point>, weights: seq<real>, cursor: Point, i: int)
    requires |points| == |weights| && 0 <= i <= |points|
    requires i < |points| ==> Hit(cursor, points[i], weights[i])
    requires forall j :: 0 <= j < i ==> !Hit(cursor, points[j], weights[j])
    ensures i == FirstHit(points, weights, cursor, 0)
  {
    var k := FirstHit(points, weights, cursor, 0);
  }

  /** The slider keeps the invariant, and so does every step. */
  lemma SliderKeepsInv(ed: Editor, requested: int)
    requires Inv(ed)
    ensures Inv(Slider(ed, requested))
  {
  }

  /** Whenever the spline is rebuilt, the curve is one the evaluator
      accepts: weights match and are positive, and the order is at most the
      number of points. */
  lemma RebuildIsValid(ed: Editor, cursor: Point, pressed: bool)
    requires Inv(ed)
    ensures var f := Step(ed, cursor, pressed);
      Inv(f.editor) &&
      (f.rebuildSpline ==> Valid(Spline(f.editor.points, f.editor.weights, f.editor.order)))
  {
    if pressed {
      RightPressKeepsInv(ed, cursor);
    }
  }

  /** Any run of frames and slider moves from start-up keeps the invariant. */
  datatype Event = Press(cursor: Point) | Release | Order(requested: int)

  function Run(ed: Editor, events: seq<Event>): (ed': Editor)
    requires Inv(ed)
    ensures Inv(ed')
    ensures |ed'.points| >= |ed.points|
    decreases |events|
  {
    if events == [] then ed
    else
      var e := events[0];
      var next := match e
        case Press(c) => Step(ed, c, true).editor
        case Release => Step(ed, Point(0.0, 0.0), false).editor
        case Order(v) => Slider(ed, v);
      RightPressKeepsInv(ed, if e.Press? then e.cursor else Point(0.0, 0.0));
      Run(next, events[1..])
  }

  /** Points are never removed: after any run, a spline rebuild sees an
      order no larger than the number of points. */
  lemma RunRebuildsValid(events: seq<Event>)
    ensures var ed := Run(Initial, events);
      |ed.points| >= 2 ==> Valid(Spline(ed.points, ed.weights, ed.order))
  {
  }

  /* ---------- field of view ---------- */

  /** `glm::radians(1.0f)` and `glm::radians(90.0f)` as `float`s. */
  const Rad1: real := 0.01745329238474369049072265625
  const Rad90: real := 1.57079637050628662109375

  /** `cameraZoomRate` */
  const ZoomRate: real := 0.05

  /** The scroll handler: zoom only while fovy is in range, then clamp
      into `[radians(1), radians(90)]`; nothing happens without scroll. */
  function Scroll(fovy: real, yOffset: real): (r: real)
    ensures yOffset != 0.0 ==> Rad1 <= r <= Rad90
    ensures yOffset == 0.0 ==> r == fovy
    ensures yOffset != 0.0 && Rad1 <= fovy <= Rad90 && Rad1 < fovy - yOffset * ZoomRate < Rad90 ==>
      r == fovy - yOffset * ZoomRate
    ensures yOffset != 0.0 && Rad1 <= fovy <= Rad90 && fovy - yOffset * ZoomRate <= Rad1 ==> r == Rad1
    ensures yOffset != 0.0 && Rad1 <= fovy <= Rad90 && fovy - yOffset * ZoomRate >= Rad90 ==> r == Rad90
    ensures yOffset != 0.0 && !(Rad1 <= fovy <= Rad90) ==> r == if fovy <= Rad1 then Rad1 else Rad90
  {
    if yOffset == 0.0 then fovy
    else
      var f := if fovy >= Rad1 && fovy <= Rad90 then fovy - yOffset * ZoomRate else fovy;
      var g := if f <= Rad1 then Rad1 else f;
      if g >= Rad90 then Rad90 else g
  }

  /** Scrolling back by the same amount undoes a zoom that stayed inside
      the range. */
  lemma ScrollUndo(fovy: real, yOffset: real)
    requires yOffset != 0.0 && Rad1 < fovy < Rad90 && Rad1 < fovy - yOffset * ZoomRate < Rad90
    ensures Scroll(Scroll(fovy, yOffset), -yOffset) == fovy
  {
  }

  /* ---------- texture cycle ---------- */

  /** `(_current_texture + 1) % _paintingsTexture.size()`. */
  function NextTexture(current: nat, count: nat): (r: nat)
    requires count > 0
    ensures r < count
    ensures current + 1 < count ==> r == current + 1
    ensures current == count - 1 ==> r == 0
  {
    (current + 1) % count
  }

  function Presses(current: nat, count: nat, times: nat): (r: nat)
    requires count > 0
  {
    if times == 0 then current else NextTexture(Presses(current, count, times - 1), count)
  }

  /** Before wrapping, each press moves one texture on; past the last
      texture the count starts again from 0. */
  lemma {:induction false} PressesValue(current: nat, count: nat, times: nat)
    requires current < count && times <= count
    ensures Presses(current, count, times) == if current + times < count then current + times else current + times - count
  {
    if times > 0 {
      PressesValue(current, count, times - 1);
    }
  }

  /** `count` presses of T bring any valid index back to itself. */
  lemma FullCycle(current: nat, count: nat)
    requires current < count
    ensures Presses(current, count, count) == current
  {
    PressesValue(current, count, count);
  }
}
